=== FILE: README.md ===
# ebook: a Dafny model of the rules under the glue

The ebook application is an Express server with two storage back-ends: a
relational one (`apis/…`) and a document store (`api/…`). It also has a
few browser scripts and maintenance scripts. This project models the
self-contained rules inside that code as pure Dafny functions over
immutable records. It then proves what those rules promise.

- **Book files.** The viewer rewrites a stored book location into a URL
  (`processBookUrlEnhanced`). The `/pdf/:filename` route serves a PDF from
  the uploads directory.
- **Avatars.** Upload, delete and read run on local disk and on an
  object store. Both share the same gates, the same three size variants
  and the same three-way reading of the stored avatar value.
- **Profiles and settings.** This covers update validation (name, bio,
  phone pattern), settings normalisation and insert-or-update, the
  default settings, and the profile created on a Google sign-in. The
  activity log is covered too: a swallowed insert, and a per-user page
  read newest first. Each appears on both back-ends.
- **Sessions.** Listing, terminating one session or all others,
  creating, cleaning up and deleting the account. The `session_count`
  bookkeeping, device classification and token masking are included.
- **Catalogue.** One category page (with the wildcard, `showAll` and
  paging), the infinite-scroll client, the category statistics and the
  details page (labels, buttons, session-storage hand-off).
- **Sign-in and sign-up.** The Google verify callback (upsert by e-mail),
  registration and the e-mail login lookup.
- **Maintenance and small validators.** The JSON book import, the
  category-rename script, the disk upload filter and the quiz scorer.
- **Schemas.** A validity predicate and the defaults for each of the five
  collections.

Tables are sequences of records (`Schemas.Tables`). The clock, random
bytes and the outcome of the external steps the model covers are
parameters: a resize, an unlink, an object-store call, and the queries
listed under "Left out". An
`UPDATE … WHERE user_id = ?` rewrites every matching row (`Rows.MapWhere`).
A document-store `findOneAndUpdate` rewrites the first match only
(`Rows.UpdateFirst`).

Files: `strings.dfy`, `rows.dfy`, `sorting.dfy` and `paths.dfy` hold the
vocabulary (JavaScript string operations, table rows, a descending sort,
Node's `path.basename`/`path.extname`). Every other file models one part
of the application and is named after it.

## Model

| member | source | states |
|---|---|---|
| Paths.Basename | routes/pdf.js:17 | the base name never holds a '/', is no longer than the path, is the path itself when it has no '/', and is a suffix of a path that does not end in '/' |
| Paths.Extname | middlewares/multer.js:11 | the extension is empty or starts with '.', holds no '/', and is no longer than the path |
| Paths.ExtnameLower | middlewares/multer.js:20 | lower-casing a name commutes with taking its extension |
| BookUrl.ProcessBookUrl | public/js/bookDisplay.js:142-181 | a missing or empty location gives ''; no result holds a backslash; every non-empty location that is not http(s) gives a result starting with "/pdf/"; an http(s) URL without "/uploads/" comes back only normalised |
| BookUrl.UploadsUrlGoesToPdfRoute | public/js/bookDisplay.js:152-157 | an http(s) URL `pre/uploads/f`, with f a ".pdf" name and "/uploads/" only at that place, becomes "/pdf/" + f |
| BookUrl.OtherUrlKept | public/js/bookDisplay.js:152-160 | any other http(s) URL is returned as it is, apart from backslash normalisation |
| BookUrl.RelativeUploadsGoesToPdfRoute | public/js/bookDisplay.js:163-167 | a relative location `pre uploads/ f` on one line becomes "/pdf/" + the text after the last "uploads/" |
| BookUrl.LastUploadsOfFirstLine | public/js/bookDisplay.js:164 | the greedy `.*uploads/` strips through the last "uploads/" of the first line and keeps the rest |
| BookUrl.PlainNameBranchesAgree | public/js/bookDisplay.js:171-180 | without "uploads/", the ".pdf" branch and the fallback agree: "/pdf/" + the normalised location |
| BookUrl.SplitAfterUploads | public/js/bookDisplay.js:155 | when "/uploads/" occurs once, `split('/uploads/')[1]` is the text after it |
| PdfRoute.ServePdf | routes/pdf.js:7-50 | a name without ".pdf" gets 400 before any lookup; a missing base name gets 404; a streamed file is always "uploads/" + a plain directory entry, with type application/pdf and the entry's size as its length |
| PdfRoute.BasenameOfPdfIsPlain | routes/pdf.js:12-18 | a name ending in ".pdf" keeps that suffix through basename, and its basename is a plain entry name, so the route never leaves the uploads directory |
| PdfRoute.SameBasenameSameReply | routes/pdf.js:17-18 | two names with the same basename get the same reply |
| PdfRoute.ViewerRewritesStoredPath | public/js/bookDisplay.js:163-167 | a stored path "uploads/<f>" is shown through the PDF route as "/pdf/<f>" |
| PdfRoute.StoredPathRoundTrip | routes/pdf.js:17-30 | a stored path "uploads/<n>.pdf" is rewritten by the viewer to "/pdf/<n>.pdf", which the route streams back from "uploads/<n>.pdf" |
| ImageUpload.Upload | middlewares/multer.js:7-40 | the filter refuses exactly when the lower-cased extension or the MIME type fails /jpeg\|jpg\|png\|gif/; an accepted file over 2000000 bytes is refused by the limit; a stored name starts with the field name and '-' and ends with the original extension |
| ImageUpload.ExtensionTestIgnoresCase | middlewares/multer.js:18-20 | the extension test gives the same answer for a name and its lower-cased form |
| ImageUpload.UpperCaseMimeRefused | middlewares/multer.js:22 | a MIME type with no lower-case letter never passes: the MIME test is case-sensitive |
| ImageUpload.StoredNamesDistinct | middlewares/multer.js:11 | uploads of the same field and extension at different times get different names |
| AvatarRules.CheckGates | apis/user/profileUpload.js:29-83 | the reply is 401 exactly when there is no user id; for a known user, exactly one of: MIME outside the four allowed types, over 5·1024·1024 bytes, another multer error, no file, or passed |
| AvatarRules.AuthReportedFirst | apis/user/profileUpload.js:51-60 | a missing user is reported even when multer also refused the file |
| AvatarRules.FileSizes | apis/user/profileUpload.js:139-144 | `file_sizes` has exactly the three keys, each with the configured edge as width and height |
| AvatarRules.VariantMap | apis/user/profileUpload.js:121-126 | the stored map has exactly thumbnail, medium, large and original, with original equal to large |
| AvatarRules.ViewAvatar | apis/user/profileUpload.js:275-336 | an absent avatar is hidden; a map is shown with every entry passed through the link; text is shown exactly when its trimmed form starts with "http", then under all four keys and marked as a Google avatar |
| AvatarRules.ViewKeepsKeys | apis/user/profileUpload.js:291-296 | the shown map has the stored map's keys and no others |
| AvatarRules.AvatarOf | apis/user/profileUpload.js:184-188 | the avatar read is the first profile row of the user, or none when the user has no row |
| AvatarRules.ClearAvatar | apis/user/profileUpload.js:233-236 | every row of the user loses its avatar and is stamped; every other row is unchanged |
| AvatarRules.SetAvatar | apis/user/profileUpload.js:365-373 | every row of the user gets the map and is stamped; every other row is unchanged |
| AvatarRules.ClearedAvatarIsAbsent | apis/user/profileUpload.js:189-194 | after clearing, the user's avatar reads as absent, so a second delete finds nothing |
| AvatarRules.SetAvatarReadsBack | apis/user/profileUpload.js:129 | after an upload, a user with a profile row reads back the written map |
| AvatarDisk.UploadFileName | apis/user/profileUpload.js:21-26 | the stored name starts with `<userId>-<timestamp>-<hex>` (a missing id prints "undefined") and ends with the original extension |
| AvatarDisk.VariantFilesDistinct | apis/user/profileUpload.js:91-103 | the three variant names differ from each other and from the upload's own name |
| AvatarDisk.UploadAvatar | apis/user/profileUpload.js:48-167 | a refused request returns its gate and writes no table. The avatar is written only when every resize, the unlink of the upload and the database write succeed; the reply then carries the variant map and `file_sizes`, the directory gains the three variants and loses the upload, and one entry is logged |
| AvatarDisk.UploadStoresMap | apis/user/profileUpload.js:118-129 | a completed upload removes the uploaded file and reads back as the map of its three variants |
| AvatarDisk.UnauthorizedUploadLeaks | apis/user/profileUpload.js:48-58 | multer stores the file before the handler refuses a missing user, so the upload stays in the directory |
| AvatarDisk.FailedResizeKeepsVariants | apis/user/profileUpload.js:148-164 | a failing resize gives 500 and leaves the variants already written on disk; no table changes |
| AvatarDisk.UnlinkVariants | apis/user/profileUpload.js:218-230 | a file is removed exactly when a present size entry names it and its unlink does not fail; one failure does not stop the others |
| AvatarDisk.UnlinkAllVariants | apis/user/profileUpload.js:218-230 | with no failing unlink, all three files of a stored map are removed |
| AvatarDisk.DeleteAvatar | apis/user/profileUpload.js:172-254 | 401 exactly without a user id; 404 exactly when the avatar is absent; then the avatar is cleared; text removes no file and a map goes through UnlinkVariants; the log note tells the two apart |
| AvatarDisk.DeleteStoredMap | apis/user/profileUpload.js:172-236 | deleting a stored map with no failing unlink removes its three files, touches no other file, and leaves no avatar |
| AvatarDisk.DeleteTwice | apis/user/profileUpload.js:189-236 | whatever the unlinks did, a second delete finds no avatar |
| AvatarDisk.UploadThenDelete | apis/user/profileUpload.js:118-236 | an upload followed by a delete, with no failing step, leaves none of the upload's files and no avatar |
| AvatarDisk.GetAvatar | apis/user/profileUpload.js:259-347 | 401 exactly without a user id; otherwise the stored avatar is viewed with every map entry made a public URL under /uploads/profile-avatars/ |
| AvatarDisk.UploadThenGet | apis/user/profileUpload.js:285-305 | after an upload every size is shown at the public URL of its file, with original equal to large |
| AvatarCloud.StoredId | api/user/profileUpload.js:99-105 | an image is stored under "profile-avatars/<userId>/…" |
| AvatarCloud.StoredIdsDistinct | api/user/profileUpload.js:76-105 | the three ids of one upload share the timestamp and random id and still differ |
| AvatarCloud.UploadUrls | api/user/profileUpload.js:99-111 | the stored map holds the three delivery URLs, as jpg, with original equal to large; each URL is non-empty and reads back, through the full-id extraction, as the id its image was stored under |
| AvatarCloud.UploadAvatar | api/user/profileUpload.js:38-143 | the same gates as on disk, with nothing stored for a refused request; the database is written only when all three uploads and the write succeed; images uploaded before a failure stay in the store |
| AvatarCloud.PublicIdAsWritten | api/user/profileUpload.js:196-199 | the extraction as written: the last URL segment cut at its first '.', which holds no '.' |
| AvatarCloud.AsWrittenMissesUpload | api/user/profileUpload.js:196-199 | for every uploaded image the extracted id is the leaf name, not the id the image was stored under |
| AvatarCloud.PublicIdRoundTrip | api/user/profileUpload.js:99-105 | the intended extraction gives back the id an image was stored under |
| AvatarCloud.DestroyVariants | api/user/profileUpload.js:192-208 | with any id extraction: an image is removed exactly when a present size entry is read as its id and its destroy does not fail; one failure does not stop the others |
| AvatarCloud.DeleteAvatar | api/user/profileUpload.js:148-232 | 401 and 404 as on disk; text is cleared with no destroy call; a map goes through DestroyVariants with the handler's extraction; the avatar is cleared either way and the request's address and agent are logged |
| AvatarCloud.DeleteKeepsUploadedImages | api/user/profileUpload.js:192-208 | as written, a delete of any stored map leaves in the store every image an upload stored, since each of those ids has a folder and the extraction never yields one |
| AvatarCloud.DeleteRemovesUploadedImages | api/user/profileUpload.js:148-232 | deleting the map an upload stored, with no failing destroy, removes all three uploaded images |
| AvatarCloud.GetAvatar | api/user/profileUpload.js:237-318 | 401 exactly without a user id; otherwise the stored avatar is viewed with map entries unchanged |
| AvatarCloud.GetReturnsStoredMap | api/user/profileUpload.js:263-276 | a stored map comes back exactly as stored, with no prefix |
| ProfileRules.MatchPhone | apis/user/profileManage.js:99 | the left-to-right matcher accepts exactly the strings of the pattern: an optional '+', then one to sixteen digits not starting with '0' |
| ProfileRules.CheckProfileUpdate | apis/user/profileManage.js:85-112 | name, bio and phone are checked in that order, each rejection exactly when the earlier checks passed; an update is accepted exactly when all three pass, and then writes the accepted fields below |
| ProfileRules.AcceptedFields | apis/user/profileManage.js:85-112 | the fields an accepted update writes: the name is exactly the trim of the given one, non-empty and with no white space at either end; bio, phone and location are the given values, or null when absent or empty; the bio is at most 500 characters and the phone's space-free form matches the pattern |
| ProfileRules.ResubmitAccepted | apis/user/profileManage.js:85-112 | sending back the fields an update wrote is accepted and writes the same fields again |
| Strings.Trim | apis/user/profileManage.js:85 | `trim()`: the result is the infix that starts after the leading white space and leaves only white space behind it; it has no white space at either end |
| Strings.TrimIdempotent | apis/user/profileManage.js:112 | trimming a trimmed name gives it back |
| ProfileRules.LongNameAccepted | apis/user/profileManage.js:85-90 | a trimmed name over 255 characters passes the checks: the handlers do not enforce the schema bound |
| ProfileRules.NormalizeSettings | apis/user/profileManage.js:156-167 | the flags are kept; each enum field is kept when it is in its set and otherwise falls back to public, gradient or medium, so every result is in its set |
| ProfileRules.Pick | apis/user/profileManage.js:156-167 | an allowed value is kept and anything else falls back, so the result is always allowed |
| ProfileRules.NormalizeIdempotent | apis/user/profileManage.js:156-167 | normalising normalised settings gives them back |
| ProfileRules.DefaultSettings | apis/user/profileManage.js:321-331 | e-mail notifications and reading activity on, push and marketing off |
| ProfileRules.FallbacksAreDefaults | apis/user/profileManage.js:156-167 | the normaliser's fallbacks are the default settings' enum values, and the defaults pass the normaliser unchanged |
| ProfileRules.DefaultsMatchSchema | models/UserSettings.js:10-48 | the default settings are exactly the schema defaults of a new settings document |
| ProfileRules.NormalizedSettingsValid | models/UserSettings.js:24-39 | any normalised settings written into a row give a schema-valid row |
| ProfileRules.SetValues | api/user/profileManage.js:154-158 | the row carries the given values; owner, two-factor flag, session count and time stamps are kept |
| ProfileRules.Apply | apis/user/profileManage.js:190-203 | the row carries the given values and the update time; owner, two-factor flag, session count and creation time are kept |
| ProfileRules.RequestUserId | apis/user/profileManage.js:73 | the first truthy of `id`, `user_id`, `profile.user_id`; none exactly when all three are falsy |
| ProfileRules.CreatedUserId | apis/user/profileManage.js:282 | `id` or `user_id` when one is truthy, else the fresh UUID; `profile.user_id` is not consulted |
| ProfileRules.GoogleFullNameAsWritten | apis/user/profileManage.js:285 | the name as written is never empty, so the 'User' fallback cannot be reached |
| ProfileRules.GoogleFullNameWithoutNames | apis/user/profileManage.js:285 | without a display name or name parts the name as written is "undefined undefined" |
| ProfileRules.GoogleFullName | apis/user/profileManage.js:285 | the intended name: the display name when given, "User" when no name is given at all; never empty |
| ProfileRules.GoogleFullNameAgrees | apis/user/profileManage.js:285 | when a display name or both name parts are given, the intended name equals the written one |
| ProfileRules.GoogleEmail | api/user/profileManage.js:225 | the first e-mail when it is non-empty, else `user.email`, else ''; empty exactly when neither is given |
| ProfileRules.GoogleProfileData | api/user/profileManage.js:221-227 | the derived profile has the created id, the full name as written (so "undefined undefined" for a user with no names) and the derived e-mail |
| ProfileSql.UpdateProfile | apis/user/profileManage.js:71-138 | 401 exactly without a user id; 400 with the check's reason exactly for a rejected body, changing nothing; for an accepted body a failing UPDATE is 500 and changes nothing, a failing read-back is 500 after the write; otherwise every row of the user gets the checked fields and the stamp, other rows and tables are untouched, one entry is logged, and the reply carries the user's first row as read after the write |
| ProfileSql.ReadProfile | apis/user/profileManage.js:118-121 | the first row of the user; none exactly when the user has no row |
| ProfileSql.UpdateReadsBack | apis/user/profileManage.js:104-127 | a user with a profile gets back exactly the fields just written, with the new stamp |
| ProfileSql.UpdateProfileKeepsOwners | apis/user/profileManage.js:106-112 | the update neither creates nor removes a profile of any user |
| ProfileSql.UpsertSettings | apis/user/profileManage.js:170-204 | a user with no row gets one; existing rows of the user all get the values and the stamp; other users' rows are untouched; session count and two-factor flag are kept |
| ProfileSql.UpsertLeavesOneRow | apis/user/profileManage.js:170-204 | a user with at most one settings row has exactly one afterwards |
| ProfileSql.UpdateSettings | apis/user/profileManage.js:142-219 | 401 exactly without a user id; 500 exactly when the lookup or the write fails, changing nothing; otherwise the reply echoes the normalised values, which are upserted and logged |
| ProfileSql.UpdateSettingsKeepsValid | apis/user/profileManage.js:156-204 | saving settings keeps a schema-valid settings table schema-valid |
| ProfileSql.UpsertGoogleProfile | apis/user/profileManage.js:290-304 | insert or, on the duplicate key, update name, e-mail and stamp; an existing row keeps its account type; a new row is a 'google' profile without avatar |
| ProfileSql.TouchSettings | apis/user/profileManage.js:307-313 | a settings row with the defaults is added when the user has none; otherwise only the stamp changes |
| ProfileSql.CreateProfileFromGoogle | apis/user/profileManage.js:281-318 | a failing profile upsert changes nothing; a failing settings query leaves the profile written and nothing else; otherwise it returns the derived fields and leaves a profile and a settings row for the derived id, plus a 'login' entry |
| ProfileSql.EnsureProfile | apis/user/profileManage.js:353-380 | 401 exactly without a user id; 500 exactly when the lookup fails or, for a user without a profile, a creation step fails; nothing changes when the user has a profile; otherwise the Google profile is created as far as its steps succeed |
| ProfileSql.EnsureProfileCreates | apis/user/profileManage.js:364-369 | with the id on `id` or `user_id`, a profile for that id exists afterwards |
| ProfileSql.FailedSettingsKeepProfile | apis/user/profileManage.js:307-318 | a creation that fails at the settings step answers 500 yet leaves the profile, so the next request passes through without creating anything |
| ProfileSql.EnsureProfileNestedId | apis/user/profileManage.js:355-369 | with the id only on `profile.user_id`, the profile is created under the fresh UUID, so the checked id still has none |
| ProfileDocs.UpdateProfile | api/user/profileManage.js:56-121 | the same reply as the relational handler, 500 included; only the user's first document gets the checked fields, with no stamp; a user without a document changes nothing yet gets a success reply; a success carries the first document as read after the write |
| ProfileDocs.UpdateCanBreakSchema | api/user/profileManage.js:91-100 | the update skips the validators, so an accepted name over 255 characters leaves a profile outside the schema |
| ProfileDocs.UpdateProfileKeepsOwners | api/user/profileManage.js:91-100 | the update neither creates nor removes a profile of any user |
| ProfileDocs.UpsertSettings | api/user/profileManage.js:154-158 | the first document of the user gets the values and keeps its stamp; with none, one built from the defaults is appended; other documents are untouched |
| ProfileDocs.UpsertLeavesOneRow | api/user/profileManage.js:154-158 | a user with at most one settings document has exactly one afterwards, as on the relational side |
| ProfileDocs.UpdateSettings | api/user/profileManage.js:127-175 | 401 exactly without a user id; 500 exactly when the single upsert fails, changing nothing; otherwise the normalised values are echoed, upserted and logged through the validating insert |
| ProfileDocs.SettingsRepliesAgree | api/user/profileManage.js:127-175 | when no query fails, both back-ends give the same settings reply |
| ProfileDocs.UpsertGoogleProfile | api/user/profileManage.js:229-233 | the user's first document carries the derived name and e-mail and account type 'google', inserted if missing; other users' documents are untouched |
| ProfileDocs.EnsureSettings | api/user/profileManage.js:236-240 | the empty upsert appends a default settings document when the user has none and changes nothing otherwise |
| ProfileDocs.CreateProfileFromGoogle | api/user/profileManage.js:220-246 | a failing profile upsert changes nothing; a failing settings upsert leaves the profile only; otherwise it returns the derived fields and leaves a profile and a settings document for the derived id and a 'login' entry |
| ProfileDocs.EmptyEmailStored | api/user/profileManage.js:225-233 | without any e-mail the upsert stores a profile the schema refuses |
| ProfileDocs.AccountTypeDiffers | api/user/profileManage.js:229-233 | an existing 'email' profile stays 'email' on the relational upsert and becomes 'google' on the document store |
| ProfileDocs.EnsureProfile | api/user/profileManage.js:281-306 | the same reply as the relational middleware, 500 included; a profile is created only when the user has none |
| ProfileDocs.EnsureProfileIdempotent | api/user/profileManage.js:292-296 | with the id on `id` or `user_id`, a second pass of the middleware changes nothing |
| ActivityLog.LoggedIp | apis/user/profileManage.js:335 | the logged address is the request's ip when truthy, else its remote address when truthy, else null; a call without a request logs null |
| ActivityLog.LoggedAgent | apis/user/profileManage.js:336 | the logged agent is the User-Agent header when truthy, else null, and null without a request |
| ActivityLog.RecordDoc | api/user/profileManage.js:260-276 | the log grows by the entry exactly when the insert does not fail and the entry satisfies the schema; otherwise nothing changes |
| ActivityLog.RecordDocKeepsValid | models/UserActivityLog.js:4-27 | recording keeps a log of schema-valid entries schema-valid |
| ActivityLog.OutOfEnumNeverRecorded | models/UserActivityLog.js:12 | the avatar-delete, session and account-delete types are outside the enum and never reach the document log |
| ActivityLog.EntriesOfCounts | apis/user/profileManage.js:241-242 | each entry of the user occurs in the user's entries as often as in the log, and no other entry occurs |
| ActivityLog.Timeline | apis/user/profileManage.js:238-244 | one user's entries, newest first, and the same entries as in the table |
| ActivityLog.TimelineOwned | apis/user/profileManage.js:243 | every entry of a user's timeline belongs to that user |
| ActivityLog.ActivityPageSql | apis/user/profileManage.js:228-260 | 401 exactly without a user id; NaN or a negative limit or offset is a refused query (500); otherwise the four selected columns (type, description, address, time) of exactly the window at the offset (default 0) of the limit (default 50) of the user's timeline, newest first, each row showing one of the user's entries |
| Sorting.OrdersAgree | apis/user/profileManage.js:240-244 | two orders a sorting query may return for the same rows are one and the same order when rows of equal key are identical |
| Sorting.TiesMayRepeat | apis/user/profileManage.js:240-246 | two different rows of one key may come back in either order, so two page queries can show one row twice and the other never |
| ActivityLog.PagesJoin | apis/user/profileManage.js:238-246 | when no two different entries of the user share a `created_at`, a page of a rows and the next page of b rows, each read in whatever order its query returns, make up the page of a + b rows |
| ActivityLog.OnePageHoldsAll | apis/user/profileManage.js:238-246 | a first page at least as long as the user's entries shows the selected columns of exactly those entries, each as often as the user's entries hold it |
| ActivityLog.RecordedHeadsFirstPage | apis/user/profileManage.js:333-348 | an entry logged after everything else the user logged heads the first page of their activity, showing its type, description, the request's address and its time |
| ActivityLog.ActivityPageDoc | api/user/profileManage.js:182-211 | 401 exactly without a user id; NaN or a negative skip is refused; otherwise the four selected fields of exactly the window at the skip of the user's timeline, where a limit of 0 means no limit and a negative one its absolute value; each row shows one of the user's entries |
| ActivityLog.ZeroLimitDiffers | api/user/profileManage.js:197 | a limit of 0 returns nothing on the relational side and the whole rest of the timeline on the document store |
| Schemas.DefaultSettingsRecord | models/UserSettings.js:10-48 | a new settings document has the schema defaults and is valid for a valid owner |
| Schemas.NewProfile | models/UserProfile.js:4-49 | a new profile keeps its fields, defaults its account type to 'email', and is valid when its required fields are |
| Schemas.NewSession | models/UserSession.js:4-41 | a new session is active, with both time stamps at the creation time |
| Schemas.SaveProfile | models/UserProfile.js:56-59 | the pre-save hook stamps `updated_at` and changes nothing else, so validity is unchanged |
| Schemas.SaveSession | models/UserSession.js:49-52 | the pre-save hook stamps `last_accessed` and changes nothing else |
| Schemas.OutOfEnumTypesInvalid | models/UserActivityLog.js:9-13 | an entry with one of the relational-only activity types is not schema-valid |
| Sessions.DeviceInfo | apis/user/profileSessions.js:398-409 | the first marker found, in the order Mobile, Tablet, Windows, Mac, Linux, else "Unknown Device" |
| Sessions.MaskToken | apis/user/profileSessions.js:38 | a token of twelve or more characters shows its first eight, "..." and its last four, fifteen in all |
| Sessions.MaskHidesMiddle | apis/user/profileSessions.js:38 | tokens that agree on the first eight and last four characters are listed the same |
| Sessions.CreatedTokenMask | apis/user/profileSessions.js:203 | a created token is 64 hex characters and is masked to its first eight and last four |
| Sessions.LiveSessions | apis/user/profileSessions.js:20-33 | the user's active, unexpired rows, most recently used first |
| Sessions.ListSessions | apis/user/profileSessions.js:7-49 | 401 exactly without a user id; otherwise the live rows, masked and marked current exactly when their token is the current one, with their number and the id of the first current row |
| Sessions.FirstCurrent | apis/user/profileSessions.js:46 | the id of the first current row, every row before it not current; none exactly when no row is current |
| Sessions.ListedIffLive | apis/user/profileSessions.js:29 | a row is listed exactly when it is the user's, active and not expired |
| Sessions.TerminateSession | apis/user/profileSessions.js:64-124 | 404 exactly when the user has no active row with the id; 400 exactly when the first such row is the current session; both change nothing; success deactivates the user's rows with that id only and decrements the count by one, without a lower bound |
| Sessions.AddToCount | apis/user/profileSessions.js:106 | every settings row of the user has its session count moved by the delta; other rows are unchanged |
| Sessions.TerminatedNotListed | apis/user/profileSessions.js:99-103 | a terminated session leaves the list |
| Sessions.TerminateAllOthers | apis/user/profileSessions.js:131-185 | no other active row changes nothing; otherwise every row with another token is deactivated, the count is set to 1 and the reply counts the active others found before |
| Sessions.SetCount | apis/user/profileSessions.js:166 | every settings row of the user gets the count; other rows are unchanged |
| Sessions.NoCurrentTerminatesNothing | apis/user/profileSessions.js:145-150 | with no current token `session_token != NULL` matches nothing, so nothing is terminated |
| Sessions.TerminateAllLeavesCurrent | apis/user/profileSessions.js:159-162 | afterwards every active row of the user carries the current token |
| Sessions.NextSessionId | apis/user/profileSessions.js:210-215 | the auto-increment id is above every id in the table |
| Sessions.SessionIp | apis/user/profileSessions.js:206 | the address of a new session: the ip when truthy, else the remote address when truthy, else the forwarded header as it is |
| Sessions.SessionIpLogged | apis/user/profileSessions.js:206 | with an ip or a remote address present, the session row and the activity entry record the same address |
| Sessions.CreateSession | apis/user/profileSessions.js:192-247 | the token is 64 hex characters; one active row expiring a day later is appended with the request's address, agent and device; the count goes up by one, `last_login` is stamped and one entry is logged with the request |
| Sessions.CreatedIsListed | apis/user/profileSessions.js:192-226 | until a created session expires, listing with its token marks a current session |
| Sessions.CreateThenTerminateKeepsCount | apis/user/profileSessions.js:99-108 | creating a session and terminating it from another gives back the counts the settings held |
| Sessions.CleanupExpired | apis/user/profileSessions.js:253-290 | every expired row of the user is deactivated; the reply counts the rows matched; the count is recomputed only when that number is positive |
| Sessions.CleanupCountMatchesList | apis/user/profileSessions.js:272-277 | the recomputed count equals what the list shows at the same moment |
| Sessions.CleanupKeepsLive | apis/user/profileSessions.js:264-269 | cleaning up never deactivates a live row and never revives one |
| Sessions.UnlinkUntilFailure | apis/user/profileSessions.js:337-354 | only files named, by base name, by a present size entry are removed |
| Sessions.Without | apis/user/profileSessions.js:358 | the rows of the user go and every other row stays |
| Sessions.DeleteAccount | apis/user/profileSessions.js:298-383 | 401, then 400 unless the confirmation is exactly "DELETE", then 404 without a profile, each changing nothing; otherwise the user's rows go from all four user tables whatever the avatar unlinks did |
| Sessions.DeleteAccountTwice | apis/user/profileSessions.js:311-358 | a confirmed delete of an existing account succeeds and a second one finds nothing |
| CategoryStats.Format | apis/user/categoryStats.js:24-31 | the count is kept, `is_empty` holds exactly for a zero count, and the name is 'Uncategorized' exactly for a null or empty category or one already named so |
| CategoryStats.CategoryStats | apis/user/categoryStats.js:6-60 | categories = groups; empty = the groups with no books; populated = total − empty ≥ 0; total books = the left-to-right sum; the average is books over categories, and absent without categories |
| CategoryStats.PopulatedCountsBooks | apis/user/categoryStats.js:35-45 | the populated count is the number of categories with at least one book |
| CategoryStats.TotalBooksIsGroupTotal | apis/user/categoryStats.js:36 | the reduction agrees with adding up the group counts |
| CategoryStats.GroupsFromBooksArePopulated | apis/user/categoryStats.js:13-20 | groups built from books are never empty, so every category is populated |
| CategoryStats.Distinct | apis/user/categoryStats.js:110-115 | the distinct values of a sequence, each once, and exactly those |
| CategoryStats.TopAuthors | apis/user/categoryStats.js:108-118 | min(10, number of distinct authors) rows, by count descending, each a distinct author of the matched books with their true positive count |
| CategoryStats.CountedAuthor | apis/user/categoryStats.js:108-115 | every counted author is an author of the matches, counted with the true number of their books |
| CategoryStats.TopAuthorsAreTop | apis/user/categoryStats.js:108-118 | an author left out has no more books than the tenth listed, and is left out only when there are more than ten authors |
| CategoryStats.FewAuthorsAllListed | apis/user/categoryStats.js:108-118 | with ten authors or fewer, every author is listed |
| CategoryStats.UniqueAuthors | apis/user/categoryStats.js:87 | exactly the present authors of the matched books |
| CategoryStats.Newest | apis/user/categoryStats.js:100-106 | the recent books are sorted newest first, there are min(take, matches after the skip) of them, and they are drawn from the matches without repetition beyond theirs |
| CategoryStats.NewestHoldsAll | apis/user/categoryStats.js:100-106 | taking every match from the start gives back exactly the matches, as a multiset |
| CategoryStats.NewestPagesJoin | apis/user/categoryStats.js:100-106 | when no two different matches share a `dateAdded`, consecutive pages read in whatever order each query returns make up the longer page |
| CategoryStats.SkippedAreNewer | apis/user/categoryStats.js:100-106 | every book a skip passes over is at least as new as every book the page shows |
| CategoryStats.CategoryDetails | apis/user/categoryStats.js:65-150 | 400 exactly without a category; a NaN limit or skip, or a negative skip, is refused; otherwise the count, emptiness and distinct authors of the matches; the recent books are the selected fields (title, author, image, price, date) of the page of Newest at the skip (default 0) of the absolute limit (default 10, all for 0) of books, each those of a matching book; the top authors as above |
| CategoryStats.NoMatchZeroStats | apis/user/categoryStats.js:91-98 | a category nothing matches gets the zero statistics the handler falls back to |
| CategoryFetch.CategoryPage | api/user/categoryFetch.js:3-37 | refused exactly for a negative offset outside `showAll`; the total is the number of matches and never below the page size; `showAll` returns every match; otherwise the window at the offset (default 0) of the limit's size (default 10) |
| CategoryFetch.CategoryFetchAsWritten | api/user/categoryFetch.js:11 | the handler as written: only '%' selects every book |
| CategoryFetch.DoublePercentSelectsNothing | api/user/categoryFetch.js:11 | as written, the clients' '%%' is a literal pattern and selects nothing from a catalogue without '%' in its categories |
| CategoryFetch.CategoryFetch | api/user/categoryFetch.js:3-37 | the handler with the wildcard the clients send (public/js/script.js:362-364 stores the category, public/js/categoryScript.js:5-17 sends it): '%' and '%%' both select every book; any other category goes through the pattern |
| CategoryFetch.DoublePercentSelectsAll | api/user/categoryFetch.js:11-31 | with the intended test, '%%' returns every book with `showAll` and the first ten otherwise |
| CategoryFetch.TotalIndependentOfPage | api/user/categoryFetch.js:19-26 | the total does not depend on the page asked for, nor on `showAll` |
| CategoryFetch.FetchStep | public/js/categoryScript.js:5-36 | a call during a fetch does nothing; a good reply appends its books, moves the offset on by 10 and drops the handler once the offset reaches the total; a failure only clears the flag |
| CategoryFetch.ScrollStep | public/js/categoryScript.js:24-30 | a good fetch at the end of the shown prefix extends it by the next ten matching books |
| CategoryFetch.Scrolled | public/js/categoryScript.js:1-36 | for either wildcard test of the server, the scroll state after any number of fetches is idle, with a non-negative offset |
| CategoryFetch.ScrollReply | public/js/categoryScript.js:5-17 | the scroll client's request at offset a returns the next ten matching books and their total, from the handler as written and from the corrected one |
| CategoryFetch.ScrollShowsPrefix | public/js/categoryScript.js:24-30 | for either wildcard test, after n fetches the page shows the first 10·n matching books, in order, and the handler is gone exactly when they are all shown |
| CategoryFetch.RandomPageAsWritten | public/js/categoryScript.js:5-17 | against the handler as written the "Random" page of a catalogue without '%' in its categories never shows a book and stops listening after one fetch; with the corrected test it shows the first 10·n books |
| CategoryFetch.Header | public/js/categoryScript.js:74-76 | the header reads 'Random' exactly for a stored '%%' or 'Random'; otherwise it shows the stored category |
| DetailsPage.TitleRoundTrip | public/js/details.js:16 | the title label parses back to the title |
| DetailsPage.PriceRoundTrip | public/js/details.js:19 | the price label parses back to a price that holds no ".00" of its own |
| DetailsPage.PriceWithOwnDotZeroZero | public/js/details.js:87-89 | a price with its own ".00" parses to something else: the first ".00" removed is the price's |
| DetailsPage.HiddenButton | public/js/details.js:26-29 | a status that lower-cases to "free" hides the buy button; any other hides the get-book button; an absent status hides neither |
| DetailsPage.StatusCaseIgnored | public/js/details.js:26 | statuses that differ only in letter case hide the same button |
| DetailsPage.BuyClick | public/js/details.js:37-98 | the click goes to the payment choice and stores price, title and id as parsed off the page and as selected; every other key is kept |
| DetailsPage.BuyClickStoresBook | public/js/details.js:76-98 | for a price without ".00" of its own the payment page finds the book's own title, price and id |
| DetailsPage.GetBookClick | public/js/details.js:65-68 | the click stores the document's file path under "book" ("undefined" when the document has none), keeps every other key and goes to the reader |
| DetailsPage.GetBookOpensPdfRoute | public/js/details.js:65-68 | a stored path "uploads/<f>" handed to the reader opens as "/pdf/<f>" |
| Auth.GoogleUserId | middlewares/passport.js:23 | a new Google user's id starts with "google_" |
| Auth.GoogleVerify | middlewares/passport.js:14-79 | no e-mail is an error. A known e-mail's first profile gets name, avatar and login time through a validating save and keeps its id, e-mail and type in the session payload. A new e-mail creates a 'google' profile when it is valid and its id is free, then settings unless they fail or exist. Any failure changes nothing |
| Auth.GoogleVerifyKeepsEmailsUnique | middlewares/passport.js:27-54 | Google sign-in never gives two profiles the same e-mail |
| Auth.GoogleSignInTwice | middlewares/passport.js:27-44 | a second sign-in finds the profile the first one left, with the same user id, and creates none |
| Auth.GoogleThenLogin | apis/user/loginPost.js:9-32 | after a Google sign-in the e-mail login finds the same user |
| Auth.RandomSuffix | api/registerUser.js:31 | `toString(36).substr(2, 9)`: up to nine base-36 digits, a prefix of the random fraction |
| Auth.RegisteredUserId | api/registerUser.js:31 | a registered id starts with "user_" |
| Auth.RegisteredIdTime | api/registerUser.js:31 | the id gives back the registration time |
| Auth.RegisteredIdsDistinct | api/registerUser.js:31 | registrations at different times get different ids |
| Auth.RegisterUser | api/registerUser.js:5-53 | a failing e-mail lookup answers 500 and changes nothing, even for a known e-mail; otherwise 400 exactly for a known e-mail; registration succeeds exactly when the lookup succeeds, the e-mail is new, a password is given, the save does not fail and the new profile is valid with a free id; success appends an 'email' profile for the user name and e-mail; any other outcome changes nothing |
| Auth.RegisterKeepsEmailsUnique | api/registerUser.js:12-38 | registration never gives two profiles the same e-mail |
| Auth.PasswordNotStored | api/registerUser.js:24-38 | the stored profile does not depend on the password |
| Auth.LoginPost | apis/user/loginPost.js:4-47 | 500 exactly when the lookup fails; otherwise 400 exactly for an unknown e-mail, else the first matching profile's name, id and type |
| Auth.LoginIgnoresPassword | apis/user/loginPost.js:6 | any password gets the same reply |
| Auth.RegisterThenLogin | apis/user/loginPost.js:9-32 | a freshly registered e-mail logs in, with any password, as the new user |
| Maintenance.Transform | import-books.js:24-34 | the price takes its default 0 and a missing date becomes the import time |
| Maintenance.TransformRoundTrip | import-books.js:24-34 | the mapping loses nothing but a missing date |
| Maintenance.ImportBooks | import-books.js:9-61 | without a books array or with a failed delete nothing changes; after the delete, an invalid book or a failed insert leaves the collection empty; success leaves exactly the transformed books |
| Maintenance.ImportReplaces | import-books.js:37-41 | the outcome does not depend on the books stored before, and importing twice is importing once |
| Maintenance.ImportedBooksValid | import-books.js:41 | an imported collection satisfies the book schema |
| Maintenance.Target | update-categories.js:18-24 | no category is renamed to a legacy name, and every non-legacy category is kept |
| Maintenance.RenameOneTarget | update-categories.js:26-32 | the five updates applied in turn rename one book by the legacy map |
| Maintenance.RenameMatchesTarget | update-categories.js:26-32 | the sequence of updates renames every book by the legacy map |
| Maintenance.RenameIdempotent | update-categories.js:26-32 | renaming again changes nothing |
| Maintenance.UpdateCountsOriginal | update-categories.js:31 | each update reports the books that had its source category before the script ran |
| Maintenance.CountsThrough | update-categories.js:26-32 | updates that neither read nor write a category leave the number of books in it unchanged |
| Maintenance.UpdateCounts | update-categories.js:31 | the counts the script prints, one per update run, each the original number of books in its source category |
| Maintenance.Additions | update-categories.js:35-58 | two books, in the poetry and non-fiction categories, which no rename touches |
| Maintenance.UpdateCategories | update-categories.js:4-81 | the counts reported before a failure are the original counts of the sources; a complete run renames every book by the legacy map and appends the two additions |
| Maintenance.NoLegacyCategoryLeft | update-categories.js:18-66 | after a complete run no legacy category is left |
| Maintenance.ScriptNotIdempotent | update-categories.js:60-66 | a second complete run appends the two books again |
| Quiz.Submit | exp/quiz.js:5-18 | the score is the number of entries equal to their question's answer; the total is the number of questions; the text reports both |
| Quiz.UnknownNamesScoreNothing | exp/quiz.js:12 | entries under names with no answer never score |
| Quiz.UnknownNameAddsNothing | exp/quiz.js:12 | appending an entry whose name has no answer leaves the score unchanged |
| Quiz.ShippedQuiz | exp/quiz.js:6-9 | the shipped key has one question; "c" scores it and "C" does not |
| Quiz.RepeatedEntryOutscoresTotal | exp/quiz.js:11-16 | nothing bounds the score by the total: the same right entry twice scores 2 out of 1 |

## Left out

- I/O is left out: reading files, the HTTP layer, rendering, redirects and `console` output. Replies are datatypes and redirects are variants of them.
- Image resizing, object-store uploads and destroys and file unlinks are steps whose failure is a parameter (`unlinkFails`, `destroyFails` and so on) and whose effect is a set of stored names.
- Query failures are parameters where a handler's 500 is modelled: the profile and settings handlers and `ensureProfile` (`failsAt`, the index of the first query that throws), the avatar upload's write (`dbFails`), the Google sign-in saves, the registration's e-mail lookup and save, the login lookup and the activity insert. A failing query in the session handlers, the activity page, the category handlers, the avatar delete's clearing query and the avatar reads has no 500 in the model; those replies cover only the refusals their own code raises.
- The clock, `crypto.randomBytes`, `crypto.randomUUID` and `Math.random` are parameters. `Math.random().toString(36)` is given as its base-36 fraction.
- `JSON.parse` of the avatar column is the tagged `StoredAvatar` datatype: no value, a map, or plain text. Malformed JSON counts as text, and so does JSON text that is not an object. The avatar length bound of the schema applies to plain text only.
- Floating point is left out: prices, averages, minima, maxima and `toFixed` in the category statistics. The average is kept as the exact fraction it rounds.
- `$regex` with `$options: 'i'` is a predicate on books. It is tied to case-insensitive containment only for literal patterns. Regular-expression metacharacters in a category are not interpreted.
- The MySQL collation is not modelled: `WHERE category = ?` is exact equality and NULL matches nothing.
- Sorting ties: the model sorts with one fixed arrangement (`Sorting.SortDesc`), so where keys tie (`last_accessed`, `created_at`, `dateAdded`, book counts) each reply shows one particular order among equal keys. MySQL and MongoDB may return a different one on every query. `Sorting.OrderOf` is every order a query may return, and `Sorting.TiesMayRepeat` shows two page queries repeating a row. The page-join lemmas (`ActivityLog.PagesJoin`, `CategoryStats.NewestPagesJoin`) therefore take each page's order as a parameter and hold only when rows of equal key are identical (`Sorting.TiesIdentical`).
- CategoryFetch.ScrollShowsPrefix: the page query `find(query).skip().limit()` (api/user/categoryFetch.js:22-25) has no sort, and the model returns the matches in stored order; the prefix property relies on that order, which a database does not promise.
- CategoryStats.CategoryDetails: the recent books carry no `_id`, because books have no document id in this model.
- String lengths count Dafny characters, not UTF-16 code units.
- Strings.ParseInt reads leading white space, an optional sign and the longest run of decimal digits; the "0x" hex prefix that `parseInt` without a radix also accepts is not modelled. The handlers' query parameters arrive already parsed (`ActivityLog.Param`: absent, NaN, or an integer).
- Session ids are natural numbers. The relational back-end's session handlers are modelled without their query failures (500).
- The scroll client runs one fetch at a time. Scroll events that arrive while a fetch is in flight are the `isFetching` no-op.
- The Google verify callback assumes `emails` and `photos` are arrays: an empty array is modelled, an absent one is not. Login and registration assume the body fields are strings.
- The relational book table's date default is not part of the model: the appended sample books carry the time of the run.
- Passport's session serialisation and the routes that mount the handlers are not modelled.
- Paths.Basename and Paths.Extname model Node's POSIX `path` module. The model has no Windows separators and no `path.join` normalisation: the route joins a plain entry under "uploads/".
- Sessions.UnlinkUntilFailure: states which files may be removed, not that the first failing unlink stops the loop. The files are the base names of the stored URLs, compared as plain strings.
- Auth.GoogleVerify: the unique index on `user_id` is modelled as "a create with a taken id fails". The unique index on e-mail is not in the schema and is not assumed.
- CategoryStats.CategoryStats: the groups are given in the order `$sort` leaves them, and the statistics do not depend on that order.
- CategoryStats.TopAuthors: which of several authors tied at the tenth count make the cut, and their order, is not fixed, as `$sort` leaves it open; CategoryStats.TopAuthorsAreTop bounds every author left out.
- Strings.ToLower: lower-cases the ASCII letters 'A'-'Z' only; `toLowerCase` of other letters is not modelled.
- DetailsPage.GetBookClick: a document whose `book` is null would store "null"; the model does not tell a null field from a missing one and stores "undefined" for both.

## Findings

| source | as written | input that shows it | evidently intended | confidence | as-written member | corrected member |
|---|---|---|---|---|---|---|
| apis/user/profileManage.js:285 | `displayName \|\| givenName + ' ' + familyName \|\| 'User'`: the middle operand is never empty | a Google user with no display name and no name parts gets the full name "undefined undefined" | the name parts that are present, else "User" | not executed | ProfileRules.GoogleFullNameWithoutNames | ProfileRules.GoogleFullNameAgrees |
| api/user/profileUpload.js:196-199 | the public id is taken as the last URL segment cut at its first '.' | an image uploaded as "profile-avatars/u1/thumbnail_5_ab" is destroyed as "thumbnail_5_ab", which names no stored image, so the image is never removed | the full public id: the path after the version segment, less the format | not executed | AvatarCloud.DeleteKeepsUploadedImages | AvatarCloud.DeleteRemovesUploadedImages |
| api/user/categoryFetch.js:11 | only the category '%' is treated as "all categories" | the "see more" link stores '%%' (public/js/script.js:362-364) and the category page sends it (public/js/categoryScript.js:5-17, 74-76), which as a literal pattern selects no book of a catalogue without '%' in its categories | '%%' selects every book as '%' does | not executed | CategoryFetch.RandomPageAsWritten | CategoryFetch.DoublePercentSelectsAll |

=== FILE: activity_log.dfy ===
/** The activity log both back-ends keep: recording an entry (a failure is
    swallowed) and reading one user's entries newest first, a window at a
    time (`logActivity` and `getActivityLog` in apis/user/profileManage.js
    and api/user/profileManage.js). */
module ActivityLog {
  import opened Strings
  import opened Schemas
  import opened Sorting
  import opened ProfileRules

  /** What `logActivity` reads off a request: `req.ip`,
      `req.connection.remoteAddress`, the `x-forwarded-for` header and the
      User-Agent header. */
  datatype Origin = Origin(ip: Option<string>, remoteAddress: Option<string>,
                           forwardedFor: Option<string>, userAgent: Option<string>)

  /** `req?.ip || req?.connection?.remoteAddress || null`; a handler that
      passes no request logs no address. */
  function LoggedIp(req: Option<Origin>): (r: Option<string>)
    ensures r.None? <==> req.None? || (!Truthy(req.value.ip) && !Truthy(req.value.remoteAddress))
    ensures r.Some? ==> r == req.value.ip || r == req.value.remoteAddress
    ensures req.Some? && Truthy(req.value.ip) ==> r == req.value.ip
  {
    if req.None? then None
    else if Truthy(req.value.ip) then req.value.ip
    else OrNull(req.value.remoteAddress)
  }

  /** `req?.get('User-Agent') || null` */
  function LoggedAgent(req: Option<Origin>): (r: Option<string>)
    ensures r.None? <==> req.None? || !Truthy(req.value.userAgent)
    ensures r.Some? ==> r == req.value.userAgent
  {
    if req.None? then None else OrNull(req.value.userAgent)
  }

  /** The row `logActivity` inserts; `created_at` is the time of the call. */
  function Entry(userId: string, activityType: string, description: string,
                 req: Option<Origin>, now: int): Activity
  {
    Activity(userId, activityType, Some(description), LoggedIp(req), LoggedAgent(req), now)
  }

  /** The relational insert: the row is added unless the database refuses
      it; the caller never sees an error. */
  function RecordSql(log: seq<Activity>, userId: string, activityType: string,
                     description: string, req: Option<Origin>, now: int, insertFails: bool): (r: seq<Activity>)
    ensures log <= r
    ensures |r| == |log| + (if insertFails then 0 else 1)
    ensures !insertFails ==> r[|log|] == Entry(userId, activityType, description, req, now)
  {
    if insertFails then log
    else log + [Entry(userId, activityType, description, req, now)]
  }

  /** The document-store insert: `create` validates against the schema
      first, so an entry outside the schema (an unknown activity type) is
      dropped, and so is one the store refuses; the caller never sees an
      error. */
  function RecordDoc(log: seq<Activity>, userId: string, activityType: string,
                     description: string, req: Option<Origin>, now: int, insertFails: bool): (r: seq<Activity>)
    ensures r == log || r == log + [Entry(userId, activityType, description, req, now)]
    ensures |r| == |log| + 1 <==> !insertFails && ValidActivity(Entry(userId, activityType, description, req, now))
  {
    var entry := Entry(userId, activityType, description, req, now);
    if insertFails || !ValidActivity(entry) then log else log + [entry]
  }

  /** Recording keeps a log of schema-valid entries schema-valid. */
  lemma RecordDocKeepsValid(log: seq<Activity>, userId: string, activityType: string,
                            description: string, req: Option<Origin>, now: int, insertFails: bool)
    requires forall i :: 0 <= i < |log| ==> ValidActivity(log[i])
    ensures var r := RecordDoc(log, userId, activityType, description, req, now, insertFails);
            forall i :: 0 <= i < |r| ==> ValidActivity(r[i])
  {
  }

  /** The types the relational handlers log for avatar deletion, sessions
      and account deletion never reach the document log. */
  lemma OutOfEnumNeverRecorded(log: seq<Activity>, userId: string, activityType: string,
                               description: string, req: Option<Origin>, now: int, insertFails: bool)
    requires activityType in {"avatar_delete", "session_create", "session_terminate",
                              "sessions_terminate_all", "account_delete"}
    ensures RecordDoc(log, userId, activityType, description, req, now, insertFails) == log
  {
    OutOfEnumTypesInvalid(Entry(userId, activityType, description, req, now));
  }

  /** The entries of one user, in table order: each of them as often as
      the log holds it, and nothing else. */
  function EntriesOf(log: seq<Activity>, userId: string): (r: seq<Activity>)
    ensures |r| <= |log|
    ensures forall i :: 0 <= i < |r| ==> r[i].userId == userId && r[i] in log
    ensures forall i :: 0 <= i < |log| && log[i].userId == userId ==> log[i] in r
  {
    if |log| == 0 then []
    else
      var rest := EntriesOf(log[1..], userId);
      if log[0].userId == userId then [log[0]] + rest else rest
  }

  /** Each of the user's entries occurs in `EntriesOf` as often as in the
      log, and no other entry occurs. */
  lemma {:induction false} EntriesOfCounts(log: seq<Activity>, userId: string, a: Activity)
    ensures multiset(EntriesOf(log, userId))[a] == if a.userId == userId then multiset(log)[a] else 0
  {
    if |log| > 0 {
      assert log == [log[0]] + log[1..];
      EntriesOfCounts(log[1..], userId, a);
    }
  }

  /** Appending an entry extends its owner's entries and no one else's. */
  lemma {:induction false} EntriesOfAppend(log: seq<Activity>, a: Activity, userId: string)
    ensures EntriesOf(log + [a], userId) == EntriesOf(log, userId) + (if a.userId == userId then [a] else [])
  {
    if |log| > 0 {
      assert (log + [a])[1..] == log[1..] + [a];
      EntriesOfAppend(log[1..], a, userId);
    }
  }

  function CreatedAt(a: Activity): int {
    a.createdAt
  }

  /** One user's entries, newest first. */
  function Timeline(log: seq<Activity>, userId: string): (r: seq<Activity>)
    ensures SortedDesc(r, CreatedAt)
    ensures multiset(r) == multiset(EntriesOf(log, userId))
    ensures |r| == |EntriesOf(log, userId)|
  {
    SortDesc(EntriesOf(log, userId), CreatedAt)
  }

  /** A query-string value: absent, or what parseInt made of it. */
  datatype Param = Absent | Given(parsed: Option<int>)

  function ParamOr(p: Param, default: int): Option<int> {
    if p.Absent? then Some(default) else p.parsed
  }

  /** The four columns a page selects (`activity_type,
      activity_description, ip_address, created_at`); the user id and the
      User-Agent stay in the table. */
  datatype ActivityView = ActivityView(activityType: string, description: Option<string>,
                                       ipAddress: Option<string>, createdAt: int)

  function View(a: Activity): ActivityView {
    ActivityView(a.activityType, a.description, a.ipAddress, a.createdAt)
  }

  function ViewedAt(v: ActivityView): int {
    v.createdAt
  }

  /** The outcome of a read: the 401 of a request without a user id, the
      selected columns of the rows, or the 500 of a refused query. */
  datatype Page = PageUnauthorized | Rows(rows: seq<ActivityView>) | QueryFailed

  /** `LIMIT ? OFFSET ?` with the parsed values (defaults 50 and 0): NaN or
      a negative value is a refused query. */
  function ActivityPageSql(log: seq<Activity>, user: AuthUser, limit: Param, offset: Param): (r: Page)
    ensures r.PageUnauthorized? <==> RequestUserId(user).None?
    ensures r.QueryFailed? <==>
            RequestUserId(user).Some?
            && (ParamOr(limit, 50).None? || ParamOr(offset, 0).None?
                || ParamOr(limit, 50).value < 0 || ParamOr(offset, 0).value < 0)
    ensures r.Rows? ==> SortedDesc(r.rows, ViewedAt)
    ensures r.Rows? ==> |r.rows| <= ParamOr(limit, 50).value
    ensures r.Rows? ==> forall i :: 0 <= i < |r.rows| ==>
              exists e :: e in log && e.userId == RequestUserId(user).value && r.rows[i] == View(e)
    ensures r.Rows? ==> r.rows == Project(Window(Timeline(log, RequestUserId(user).value),
                                                 ParamOr(offset, 0).value, ParamOr(limit, 50).value), View)
  {
    var id := RequestUserId(user);
    var l := ParamOr(limit, 50);
    var o := ParamOr(offset, 0);
    if id.None? then PageUnauthorized
    else if l.None? || o.None? || l.value < 0 || o.value < 0 then QueryFailed
    else
      ViewPage(log, id.value, o.value, l.value);
      Rows(Project(Window(Timeline(log, id.value), o.value, l.value), View))
  }

  /** The selected columns of a window of the timeline are newest first,
      and each row shows one of the user's entries. */
  lemma ViewPage(log: seq<Activity>, userId: string, offset: nat, limit: nat)
    ensures var r := Project(Window(Timeline(log, userId), offset, limit), View);
            SortedDesc(r, ViewedAt)
            && forall i :: 0 <= i < |r| ==> exists e :: e in log && e.userId == userId && r[i] == View(e)
  {
    var t := Timeline(log, userId);
    var w := Window(t, offset, limit);
    var r := Project(w, View);
    WindowSorted(t, CreatedAt, offset, limit);
    forall i, j | 0 <= i < j < |r| ensures ViewedAt(r[i]) >= ViewedAt(r[j]) {
      assert CreatedAt(w[i]) >= CreatedAt(w[j]);
    }
    var es := EntriesOf(log, userId);
    forall i | 0 <= i < |r| ensures exists e :: e in log && e.userId == userId && r[i] == View(e) {
      assert w[i] == t[offset + i];
      assert w[i] in multiset(es);
      var k :| 0 <= k < |es| && es[k] == w[i];
    }
  }

  /** Every entry of a user's timeline belongs to that user. */
  lemma TimelineOwned(log: seq<Activity>, userId: string)
    ensures forall i :: 0 <= i < |Timeline(log, userId)| ==> Timeline(log, userId)[i].userId == userId
  {
    var t := Timeline(log, userId);
    var e := EntriesOf(log, userId);
    forall i | 0 <= i < |t| ensures t[i].userId == userId {
      assert t[i] in multiset(e);
      var j :| 0 <= j < |e| && e[j] == t[i];
    }
  }

  /** Reading page after page loses and repeats nothing when no two
      different entries of the user were logged at the same time. Each page
      is its own query, and each query may order entries of equal
      `created_at` its own way (`first`, `second`); without such ties every
      order is the timeline, so the page at `offset` of `a` rows followed by
      the page at `offset + a` of `b` rows is the page at `offset` of
      `a + b` rows. */
  lemma PagesJoin(log: seq<Activity>, user: AuthUser, offset: nat, a: nat, b: nat,
                  first: seq<Activity>, second: seq<Activity>)
    requires RequestUserId(user).Some?
    requires TiesIdentical(EntriesOf(log, RequestUserId(user).value), CreatedAt)
    requires OrderOf(first, EntriesOf(log, RequestUserId(user).value), CreatedAt)
    requires OrderOf(second, EntriesOf(log, RequestUserId(user).value), CreatedAt)
    ensures var pq := ActivityPageSql(log, user, Given(Some(a + b)), Given(Some(offset)));
            pq.Rows? && Project(Window(first, offset, a), View) + Project(Window(second, offset + a, b), View) == pq.rows
  {
    var id := RequestUserId(user).value;
    var t := Timeline(log, id);
    OrdersAgree(first, t, EntriesOf(log, id), CreatedAt);
    OrdersAgree(second, t, EntriesOf(log, id), CreatedAt);
    PageIsWindow(log, user, a + b, offset);
    WindowJoin(t, offset, a, b);
    ProjectAppend(Window(t, offset, a), Window(t, offset + a, b), View);
  }

  lemma PageIsWindow(log: seq<Activity>, user: AuthUser, limit: nat, offset: nat)
    requires RequestUserId(user).Some?
    ensures ActivityPageSql(log, user, Given(Some(limit)), Given(Some(offset)))
            == Rows(Project(Window(Timeline(log, RequestUserId(user).value), offset, limit), View))
  {
  }

  /** A first page at least as long as the user's entries shows exactly
      those entries, each as often as the log holds it. */
  lemma OnePageHoldsAll(log: seq<Activity>, user: AuthUser, limit: nat)
    requires RequestUserId(user).Some?
    requires limit >= |EntriesOf(log, RequestUserId(user).value)|
    ensures var p := ActivityPageSql(log, user, Given(Some(limit)), Absent);
            p.Rows? && multiset(p.rows) == multiset(Project(EntriesOf(log, RequestUserId(user).value), View))
  {
    var t := Timeline(log, RequestUserId(user).value);
    assert Window(t, 0, limit) == t;
    ProjectPermutes(t, EntriesOf(log, RequestUserId(user).value), View);
  }

  /** An entry recorded later than everything the user has logged heads the
      first page of their activity. */
  lemma RecordedHeadsFirstPage(log: seq<Activity>, user: AuthUser, activityType: string,
                               description: string, req: Option<Origin>, now: int)
    requires RequestUserId(user).Some?
    requires forall i :: 0 <= i < |log| ==> log[i].createdAt < now
    ensures var id := RequestUserId(user).value;
            var p := ActivityPageSql(RecordSql(log, id, activityType, description, req, now, false), user, Absent, Absent);
            p.Rows? && |p.rows| > 0 && p.rows[0] == View(Entry(id, activityType, description, req, now))
  {
    var id := RequestUserId(user).value;
    var e := Entry(id, activityType, description, req, now);
    assert RecordSql(log, id, activityType, description, req, now, false) == log + [e];
    NewestHeadsTimeline(log, e);
  }

  lemma NewestHeadsTimeline(log: seq<Activity>, e: Activity)
    requires forall i :: 0 <= i < |log| ==> log[i].createdAt < e.createdAt
    ensures |Timeline(log + [e], e.userId)| > 0 && Timeline(log + [e], e.userId)[0] == e
  {
    var t := Timeline(log + [e], e.userId);
    OthersOlder(log, e, t);
    SortedHead(t, CreatedAt, e);
  }

  lemma OthersOlder(log: seq<Activity>, e: Activity, t: seq<Activity>)
    requires forall i :: 0 <= i < |log| ==> log[i].createdAt < e.createdAt
    requires multiset(t) == multiset(EntriesOf(log + [e], e.userId))
    ensures e in t
    ensures forall y :: y in t && y != e ==> CreatedAt(y) < CreatedAt(e)
  {
    EntriesOfAppend(log, e, e.userId);
    var es := EntriesOf(log, e.userId);
    assert multiset(t) == multiset(es) + multiset{e};
    forall y | y in t && y != e ensures CreatedAt(y) < CreatedAt(e) {
      assert y in multiset(t);
      assert y in multiset(es);
      var k :| 0 <= k < |es| && es[k] == y;
      var i :| 0 <= i < |log| && log[i] == es[k];
    }
    assert e in multiset(t);
  }

  /** `skip(offset).limit(limit)` on the document store: a limit of 0 means
      no limit and a negative one means its absolute value; a negative skip
      or a NaN is refused. */
  function ActivityPageDoc(log: seq<Activity>, user: AuthUser, limit: Param, offset: Param): (r: Page)
    ensures r.PageUnauthorized? <==> RequestUserId(user).None?
    ensures r.QueryFailed? <==>
            RequestUserId(user).Some?
            && (ParamOr(limit, 50).None? || ParamOr(offset, 0).None? || ParamOr(offset, 0).value < 0)
    ensures r.Rows? ==> SortedDesc(r.rows, ViewedAt)
    ensures r.Rows? ==> forall i :: 0 <= i < |r.rows| ==>
              exists e :: e in log && e.userId == RequestUserId(user).value && r.rows[i] == View(e)
    ensures r.Rows? && ParamOr(limit, 50).value != 0 ==> |r.rows| <= Abs(ParamOr(limit, 50).value)
    ensures r.Rows? ==> r.rows == Project(Window(Timeline(log, RequestUserId(user).value), ParamOr(offset, 0).value,
                                                 if ParamOr(limit, 50).value == 0 then |log| else Abs(ParamOr(limit, 50).value)), View)
  {
    var id := RequestUserId(user);
    var l := ParamOr(limit, 50);
    var o := ParamOr(offset, 0);
    if id.None? then PageUnauthorized
    else if l.None? || o.None? || o.value < 0 then QueryFailed
    else
      var take := if l.value == 0 then |log| else Abs(l.value);
      ViewPage(log, id.value, o.value, take);
      Rows(Project(Window(Timeline(log, id.value), o.value, take), View))
  }

  function Abs(x: int): nat {
    if x < 0 then -x else x
  }

  /** A negative limit on the document store reads the same page as its
      absolute value. */
  lemma NegativeLimitIsAbsolute(log: seq<Activity>, user: AuthUser, limit: int, offset: Param)
    requires limit < 0
    ensures ActivityPageDoc(log, user, Given(Some(limit)), offset) == ActivityPageDoc(log, user, Given(Some(-limit)), offset)
  {
  }

  /** A limit of 0 returns the whole rest of the timeline on the document
      store and nothing on the relational one. */
  lemma ZeroLimitDiffers(log: seq<Activity>, user: AuthUser, offset: Param)
    requires RequestUserId(user).Some?
    requires ParamOr(offset, 0).Some? && ParamOr(offset, 0).value >= 0
    ensures ActivityPageSql(log, user, Given(Some(0)), offset) == Rows([])
    ensures ActivityPageDoc(log, user, Given(Some(0)), offset).Rows?
    ensures var e := EntriesOf(log, RequestUserId(user).value);
            |ActivityPageDoc(log, user, Given(Some(0)), offset).rows| == |e| - Min(ParamOr(offset, 0).value, |e|)
  {
  }
}

=== FILE: auth.dfy ===
/** Signing in and signing up against the profile collection: the Google
    verify callback (middlewares/passport.js), e-mail registration
    (api/registerUser.js) and the e-mail login lookup
    (apis/user/loginPost.js). Profiles are found by exact e-mail equality,
    the first match in collection order. A document is written only when it
    passes its schema and its `user_id` is not taken (the unique index); a
    failing store is a parameter. */
module Auth {
  import opened Strings
  import opened Schemas
  import opened Rows

  /** The object handed to the session: exactly these four fields. */
  datatype SessionUser = SessionUser(userId: string, fullName: string, email: string, accountType: string)

  /** The parts of a Google profile the callback reads; an absent display
      name is the empty text (both fail the required full name). */
  datatype GoogleProfile = GoogleProfile(googleId: string, displayName: string, emails: seq<string>, photos: seq<string>)

  datatype VerifyResult = Authenticated(user: SessionUser) | AuthError

  /** The selector `{ email: email }`. */
  function EmailIs(e: string): Profile -> bool {
    (p: Profile) => p.email == e
  }

  /** At most one profile per e-mail address. */
  predicate EmailsUnique(ps: seq<Profile>) {
    forall i, j :: 0 <= i < j < |ps| ==> ps[i].email != ps[j].email
  }

  /** The first photo's URL, or null (an empty URL reads as no avatar). */
  function PhotoAvatar(photos: seq<string>): (a: StoredAvatar)
    ensures a.NoAvatar? <==> |photos| == 0 || photos[0] == ""
    ensures !a.NoAvatar? ==> a == Text(photos[0])
  {
    if |photos| > 0 && photos[0] != "" then Text(photos[0]) else NoAvatar
  }

  /** `google_${google_id}_${Date.now()}` */
  function GoogleUserId(googleId: string, now: nat): (id: string)
    ensures StartsWith(id, "google_")
  {
    "google_" + googleId + "_" + NatToString(now)
  }

  /** A new profile can be created: it passes the schema and its id is
      free. */
  predicate Creatable(ps: seq<Profile>, p: Profile) {
    ValidProfile(p) && Count(ps, ProfileOf(p.userId)) == 0
  }

  /** The Google verify callback. An existing e-mail keeps its user id and
      account type and has its name, avatar and last login overwritten (an
      uploaded avatar included); a new e-mail gets a 'google' profile and,
      unless that write fails, a default settings document; a settings
      failure does not fail the sign-in. No e-mail at all throws. */
  function GoogleVerify(t: Tables, g: GoogleProfile, now: nat, saveFails: bool, settingsFails: bool): (r: (VerifyResult, Tables))
    ensures |g.emails| == 0 ==> r == (AuthError, t)
    ensures r.0.AuthError? ==> r.1 == t
    ensures r.0.Authenticated? ==>
              |g.emails| > 0 && r.0.user.email == g.emails[0] && r.0.user.fullName == g.displayName
              && r.1.sessions == t.sessions && r.1.activity == t.activity && r.1.books == t.books
    ensures |g.emails| > 0 && FirstWhere(t.profiles, EmailIs(g.emails[0])) < |t.profiles| ==>
              var k := FirstWhere(t.profiles, EmailIs(g.emails[0]));
              var p := t.profiles[k];
              (r.0.Authenticated? <==> !saveFails && ValidProfile(p.(fullName := g.displayName, avatar := PhotoAvatar(g.photos))))
              && (r.0.Authenticated? ==>
                    r.0.user == SessionUser(p.userId, g.displayName, p.email, p.accountType)
                    && |r.1.profiles| == |t.profiles| && r.1.settings == t.settings
                    && r.1.profiles[k] == p.(fullName := g.displayName, avatar := PhotoAvatar(g.photos),
                                            lastLogin := Some(now), updatedAt := now)
                    && (forall i :: 0 <= i < |t.profiles| && i != k ==> r.1.profiles[i] == t.profiles[i]))
    ensures |g.emails| > 0 && FirstWhere(t.profiles, EmailIs(g.emails[0])) == |t.profiles| ==>
              var id := GoogleUserId(g.googleId, now);
              var p := NewProfile(id, g.displayName, g.emails[0], Some("google"), now)
                         .(avatar := PhotoAvatar(g.photos), lastLogin := Some(now));
              (r.0.Authenticated? <==> !saveFails && Creatable(t.profiles, p))
              && (r.0.Authenticated? ==>
                    r.0.user == SessionUser(id, g.displayName, g.emails[0], "google")
                    && r.1.profiles == t.profiles + [p]
                    && r.1.settings == (if settingsFails || Count(t.settings, SettingsOf(id)) > 0 then t.settings
                                        else t.settings + [DefaultSettingsRecord(id, now)]))
  {
    if |g.emails| == 0 then (AuthError, t)
    else
      var email := g.emails[0];
      var avatar := PhotoAvatar(g.photos);
      var k := FirstWhere(t.profiles, EmailIs(email));
      if k < |t.profiles| then
        var p := SaveProfile(t.profiles[k].(fullName := g.displayName, avatar := avatar, lastLogin := Some(now)), now);
        if saveFails || !ValidProfile(p) then (AuthError, t)
        else (Authenticated(SessionUser(p.userId, p.fullName, p.email, p.accountType)),
              t.(profiles := t.profiles[k := p]))
      else
        var id := GoogleUserId(g.googleId, now);
        var p := NewProfile(id, g.displayName, email, Some("google"), now).(avatar := avatar, lastLogin := Some(now));
        if saveFails || !Creatable(t.profiles, p) then (AuthError, t)
        else
          var settings := if settingsFails || Count(t.settings, SettingsOf(id)) > 0 then t.settings
                          else t.settings + [DefaultSettingsRecord(id, now)];
          (Authenticated(SessionUser(id, g.displayName, email, "google")),
           t.(profiles := t.profiles + [p], settings := settings))
  }

  /** Google sign-in never gives two profiles the same e-mail. */
  lemma GoogleVerifyKeepsEmailsUnique(t: Tables, g: GoogleProfile, now: nat, saveFails: bool, settingsFails: bool)
    requires EmailsUnique(t.profiles)
    ensures EmailsUnique(GoogleVerify(t, g, now, saveFails, settingsFails).1.profiles)
  {
    var r := GoogleVerify(t, g, now, saveFails, settingsFails);
    if r.0.Authenticated? {
      var k := FirstWhere(t.profiles, EmailIs(g.emails[0]));
      if k < |t.profiles| {
        forall i | 0 <= i < |t.profiles| ensures r.1.profiles[i].email == t.profiles[i].email {
        }
      }
    }
  }

  /** Signing in twice with the same Google account finds the profile the
      first sign-in left: the same user id, and no second profile. */
  lemma GoogleSignInTwice(t: Tables, g: GoogleProfile, now: nat, now2: nat, s1: bool, s2: bool)
    requires GoogleVerify(t, g, now, false, s1).0.Authenticated?
    ensures var (r1, t1) := GoogleVerify(t, g, now, false, s1);
            var (r2, t2) := GoogleVerify(t1, g, now2, false, s2);
            r2.Authenticated? && r2.user.userId == r1.user.userId && |t2.profiles| == |t1.profiles|
  {
    var (r1, t1) := GoogleVerify(t, g, now, false, s1);
    var email := g.emails[0];
    var k := FirstWhere(t.profiles, EmailIs(email));
    if k < |t.profiles| {
      FirstWhereSame(t.profiles, t1.profiles, EmailIs(email));
      assert t1.profiles[k].(fullName := g.displayName, avatar := PhotoAvatar(g.photos)) == t1.profiles[k];
    } else {
      var p := t1.profiles[|t.profiles|];
      FirstWhereAppend(t.profiles, p, EmailIs(email));
      assert p.(fullName := g.displayName, avatar := PhotoAvatar(g.photos)) == p;
    }
  }

  // ---------------------------------------------------------------------
  // Registration

  /** `Math.random().toString(36)` is "0." followed by base-36 digits. */
  predicate Base36(s: string) {
    forall i :: 0 <= i < |s| ==> IsDigit(s[i]) || 'a' <= s[i] <= 'z'
  }

  /** `.substr(2, 9)` of "0." + fraction: up to nine digits. */
  function RandomSuffix(fraction: string): (r: string)
    ensures |r| == if |fraction| < 9 then |fraction| else 9
    ensures r <= fraction
    ensures Base36(fraction) ==> Base36(r)
  {
    Substring("0." + fraction, 2, 11)
  }

  /** `user_${Date.now()}_${suffix}` */
  function RegisteredUserId(now: nat, fraction: string): (id: string)
    ensures StartsWith(id, "user_")
  {
    "user_" + NatToString(now) + "_" + RandomSuffix(fraction)
  }

  /** The id gives back the time of its registration. */
  lemma RegisteredIdTime(now: nat, fraction: string)
    ensures ParseInt(RegisteredUserId(now, fraction)[5..]) == Some(now)
  {
    var rest := "_" + RandomSuffix(fraction);
    assert RegisteredUserId(now, fraction)[5..] == NatToString(now) + rest;
    ParseIntDigitsThen(now, rest);
  }

  /** Registrations at different times get different ids. */
  lemma RegisteredIdsDistinct(now1: nat, now2: nat, f1: string, f2: string)
    requires now1 != now2
    ensures RegisteredUserId(now1, f1) != RegisteredUserId(now2, f2)
  {
    RegisteredIdTime(now1, f1);
    RegisteredIdTime(now2, f2);
  }

  datatype RegisterReply =
    | EmailTaken       // 400, "Email already exist login instead"
    | SignupError      // 500
    | Registered       // redirect to /success

  /** registerUser. The e-mail lookup, the hashing and the save share one
      `try`, so a rejecting lookup answers 500 before the e-mail is judged.
      The password is only hashed (a missing one throws); the hash is
      stored nowhere. The full name is the username. */
  function RegisterUser(t: Tables, username: string, password: Option<string>, email: string,
                        now: nat, fraction: string, lookupFails: bool, saveFails: bool): (r: (RegisterReply, Tables))
    ensures lookupFails ==> r == (SignupError, t)
    ensures r.0 == EmailTaken <==> !lookupFails && Count(t.profiles, EmailIs(email)) > 0
    ensures !r.0.Registered? ==> r.1 == t
    ensures r.0.Registered? ==>
              r.1 == t.(profiles := t.profiles + [NewProfile(RegisteredUserId(now, fraction), username, email, Some("email"), now)])
    ensures r.0.Registered? <==>
              !lookupFails && Count(t.profiles, EmailIs(email)) == 0 && password.Some? && !saveFails
              && Creatable(t.profiles, NewProfile(RegisteredUserId(now, fraction), username, email, Some("email"), now))
  {
    if lookupFails then (SignupError, t)
    else if FirstWhere(t.profiles, EmailIs(email)) < |t.profiles| then (EmailTaken, t)
    else if password.None? then (SignupError, t)
    else
      var p := NewProfile(RegisteredUserId(now, fraction), username, email, Some("email"), now);
      if saveFails || !Creatable(t.profiles, p) then (SignupError, t)
      else (Registered, t.(profiles := t.profiles + [p]))
  }

  /** Registration never gives two profiles the same e-mail. */
  lemma RegisterKeepsEmailsUnique(t: Tables, username: string, password: Option<string>, email: string,
                                  now: nat, fraction: string, lookupFails: bool, saveFails: bool)
    requires EmailsUnique(t.profiles)
    ensures EmailsUnique(RegisterUser(t, username, password, email, now, fraction, lookupFails, saveFails).1.profiles)
  {
  }

  /** The stored profile does not depend on the password. */
  lemma PasswordNotStored(t: Tables, username: string, p1: string, p2: string, email: string,
                          now: nat, fraction: string, lookupFails: bool, saveFails: bool)
    ensures RegisterUser(t, username, Some(p1), email, now, fraction, lookupFails, saveFails)
            == RegisterUser(t, username, Some(p2), email, now, fraction, lookupFails, saveFails)
  {
  }

  // ---------------------------------------------------------------------
  // Login

  datatype LoginReply =
    | NoAccount                                                  // 400, status 'error'
    | Found(username: string, userId: string, accountType: string) // status 'success'
    | LoginError                                                 // 500

  /** loginPost: the password is read and never used. */
  function LoginPost(ps: seq<Profile>, email: string, password: Option<string>, lookupFails: bool): (r: LoginReply)
    ensures r == LoginError <==> lookupFails
    ensures r == NoAccount <==> !lookupFails && Count(ps, EmailIs(email)) == 0
    ensures r.Found? <==> !lookupFails && Count(ps, EmailIs(email)) > 0
    ensures r.Found? ==>
              var k := FirstWhere(ps, EmailIs(email));
              k < |ps| && ps[k].email == email
              && r == Found(ps[k].fullName, ps[k].userId, ps[k].accountType)
  {
    if lookupFails then LoginError
    else
      var k := FirstWhere(ps, EmailIs(email));
      if k == |ps| then NoAccount
      else Found(ps[k].fullName, ps[k].userId, ps[k].accountType)
  }

  /** Any password logs in a known e-mail. */
  lemma LoginIgnoresPassword(ps: seq<Profile>, email: string, p1: Option<string>, p2: Option<string>)
    ensures LoginPost(ps, email, p1, false) == LoginPost(ps, email, p2, false)
  {
  }

  /** A freshly registered e-mail logs in, with whatever password, as the
      registered user with account type 'email'. */
  lemma RegisterThenLogin(t: Tables, username: string, password: string, email: string,
                          now: nat, fraction: string, other: Option<string>)
    requires RegisterUser(t, username, Some(password), email, now, fraction, false, false).0.Registered?
    ensures var t1 := RegisterUser(t, username, Some(password), email, now, fraction, false, false).1;
            LoginPost(t1.profiles, email, other, false)
            == Found(username, RegisteredUserId(now, fraction), "email")
  {
    var p := NewProfile(RegisteredUserId(now, fraction), username, email, Some("email"), now);
    FirstWhereAppend(t.profiles, p, EmailIs(email));
  }

  /** After a Google sign-in the e-mail login finds the same user. */
  lemma GoogleThenLogin(t: Tables, g: GoogleProfile, now: nat, s1: bool, other: Option<string>)
    requires GoogleVerify(t, g, now, false, s1).0.Authenticated?
    ensures var (r1, t1) := GoogleVerify(t, g, now, false, s1);
            LoginPost(t1.profiles, g.emails[0], other, false)
            == Found(r1.user.fullName, r1.user.userId, r1.user.accountType)
  {
    var (r1, t1) := GoogleVerify(t, g, now, false, s1);
    var email := g.emails[0];
    var k := FirstWhere(t.profiles, EmailIs(email));
    if k < |t.profiles| {
      FirstWhereSame(t.profiles, t1.profiles, EmailIs(email));
    } else {
      FirstWhereAppend(t.profiles, t1.profiles[|t.profiles|], EmailIs(email));
    }
  }
}

=== FILE: avatar_cloud.dfy ===
/** The object-store avatar handlers (api/user/profileUpload.js). The store
    is the set of public ids it holds; an upload returns the delivery URL
    `https://res.cloudinary.com/<cloud>/image/upload/v<version>/<public id>.<format>`
    (the format the handler's comment at line 195 describes). Resizing, the
    uploads, the destroys and the database write may fail and are given as
    parameters. */
module AvatarCloud {
  import opened Strings
  import opened Schemas
  import opened ProfileRules
  import opened ActivityLog
  import opened Rows
  import opened AvatarRules

  datatype CloudState = CloudState(tables: Tables, images: set<string>)

  const Folder: string := "profile-avatars"

  /** `${sizeName}_${timestamp}_${randomId}` */
  function Leaf(key: string, ts: nat, hex: string): string {
    key + "_" + NatToString(ts) + "_" + hex
  }

  /** The id an image is stored under: the folder, then the `public_id`
      the handler passes, `${userId}/${leaf}`. */
  function StoredId(userId: string, key: string, ts: nat, hex: string): (p: string)
    ensures StartsWith(p, Folder + "/" + userId + "/")
  {
    var head := Folder + "/" + userId + "/";
    StartsWithAppend(head, Leaf(key, ts, hex), head);
    head + Leaf(key, ts, hex)
  }

  /** The three ids of one upload differ from each other. */
  lemma StoredIdsDistinct(userId: string, ts: nat, hex: string)
    ensures StoredId(userId, "thumbnail", ts, hex) != StoredId(userId, "medium", ts, hex)
    ensures StoredId(userId, "medium", ts, hex) != StoredId(userId, "large", ts, hex)
    ensures StoredId(userId, "thumbnail", ts, hex) != StoredId(userId, "large", ts, hex)
  {
    var k := |Folder + "/" + userId + "/"|;
    assert StoredId(userId, "thumbnail", ts, hex)[k] == 't';
    assert StoredId(userId, "medium", ts, hex)[k] == 'm';
    assert StoredId(userId, "large", ts, hex)[k] == 'l';
  }

  function JoinSlash(a: string, b: string): string {
    a + "/" + b
  }

  /** The delivery URL of an image. */
  function CloudUrl(cloud: string, version: nat, publicId: string, format: string): string {
    JoinSlash("https:", JoinSlash("", JoinSlash("res.cloudinary.com", JoinSlash(cloud,
      JoinSlash("image", JoinSlash("upload", JoinSlash("v" + NatToString(version), publicId + "." + format)))))))
  }

  // ---------------------------------------------------------------------
  // Public-id extraction

  /** The text after the last '/' (`url.split('/')` then the last part). */
  function LastSegment(s: string): (r: string)
    ensures '/' !in r
  {
    match LastIndexOfChar(s, '/')
    case None => s
    case Some(i) => s[i + 1..]
  }

  /** The text before the first `c` (`split(c)[0]`). */
  function BeforeChar(s: string, c: char): (r: string)
    ensures c !in r && r <= s
    ensures c !in s ==> r == s
  {
    if |s| == 0 then []
    else if s[0] == c then []
    else [s[0]] + BeforeChar(s[1..], c)
  }

  /** The public id as the delete handler extracts it: the last path
      segment, cut at its first '.'. */
  function PublicIdAsWritten(url: string): (r: string)
    ensures '.' !in r && '/' !in r
  {
    var last := LastSegment(url);
    var r := BeforeChar(last, '.');
    assert forall i :: 0 <= i < |r| ==> r[i] == last[i];
    r
  }

  /** The text after the `n`-th '/'. */
  function AfterSlashes(s: string, n: nat): string {
    if n == 0 then s
    else if |s| == 0 then []
    else if s[0] == '/' then AfterSlashes(s[1..], n - 1)
    else AfterSlashes(s[1..], n)
  }

  /** The public id as intended: the path after the version segment, less
      the extension. */
  function PublicIdOf(url: string): (r: string)
    ensures |r| <= |url|
  {
    var rest := AfterSlashes(url, 7);
    AfterSlashesShorter(url, 7);
    match LastIndexOfChar(rest, '.')
    case None => rest
    case Some(d) => rest[..d]
  }

  lemma {:induction false} AfterSlashesShorter(s: string, n: nat)
    ensures |AfterSlashes(s, n)| <= |s|
  {
    if n > 0 && |s| > 0 {
      AfterSlashesShorter(s[1..], if s[0] == '/' then n - 1 else n);
    }
  }

  lemma {:induction false} AfterSlashesJoin(a: string, b: string, n: nat)
    requires '/' !in a
    ensures AfterSlashes(JoinSlash(a, b), n + 1) == AfterSlashes(b, n)
  {
    var s := JoinSlash(a, b);
    if |a| == 0 {
      assert s[1..] == b;
    } else {
      assert s[0] == a[0];
      assert s[1..] == JoinSlash(a[1..], b);
      AfterSlashesJoin(a[1..], b, n);
    }
  }

  /** The last `c` is at `k` when `c` is at `k` and not after it. */
  lemma {:induction false} LastIndexAt(s: string, c: char, k: nat)
    requires k < |s| && s[k] == c && c !in s[k + 1..]
    ensures LastIndexOfChar(s, c) == Some(k)
  {
    if s[|s| - 1] != c {
      var t := s[..|s| - 1];
      assert s[k + 1..] == t[k + 1..] + [s[|s| - 1]];
      LastIndexAt(t, c, k);
    }
  }

  lemma LastDotBeforeFormat(p: string, format: string)
    requires '.' !in format
    ensures LastIndexOfChar(p + "." + format, '.') == Some(|p|)
  {
    var s := p + "." + format;
    assert s[|p| + 1..] == format;
    LastIndexAt(s, '.', |p|);
  }

  /** The intended extraction gives back the id an image was stored under. */
  lemma PublicIdRoundTrip(cloud: string, version: nat, publicId: string)
    requires '/' !in cloud
    ensures PublicIdOf(CloudUrl(cloud, version, publicId, "jpg")) == publicId
  {
    var tail := publicId + "." + "jpg";
    CloudUrlPath(cloud, version, publicId);
    LastDotBeforeFormat(publicId, "jpg");
    assert tail[..|publicId|] == publicId;
  }

  /** The version segment "v<digits>" holds no '/'. */
  lemma VersionSegment(version: nat)
    ensures '/' !in "v" + NatToString(version)
  {
    var v := "v" + NatToString(version);
    var d := NatToString(version);
    assert AllDigits(d);
    assert forall i :: 1 <= i < |v| ==> v[i] == d[i - 1];
  }

  /** Past the seven slashes of a delivery URL comes `<publicId>.<format>`. */
  lemma CloudUrlPath(cloud: string, version: nat, publicId: string)
    requires '/' !in cloud
    ensures AfterSlashes(CloudUrl(cloud, version, publicId, "jpg"), 7) == publicId + "." + "jpg"
  {
    var v := "v" + NatToString(version);
    VersionSegment(version);
    var tail := publicId + "." + "jpg";
    AfterSlashesJoin(v, tail, 0);
    AfterSlashesJoin("upload", JoinSlash(v, tail), 1);
    AfterSlashesJoin("image", JoinSlash("upload", JoinSlash(v, tail)), 2);
    AfterSlashesJoin(cloud, JoinSlash("image", JoinSlash("upload", JoinSlash(v, tail))), 3);
    AfterSlashesJoin("res.cloudinary.com", JoinSlash(cloud, JoinSlash("image", JoinSlash("upload", JoinSlash(v, tail)))), 4);
    AfterSlashesJoin("", JoinSlash("res.cloudinary.com", JoinSlash(cloud, JoinSlash("image", JoinSlash("upload", JoinSlash(v, tail))))), 5);
    AfterSlashesJoin("https:", JoinSlash("", JoinSlash("res.cloudinary.com", JoinSlash(cloud, JoinSlash("image", JoinSlash("upload", JoinSlash(v, tail)))))), 6);
  }

  lemma LastSegmentJoin(a: string, b: string)
    requires '/' !in b
    ensures LastSegment(JoinSlash(a, b)) == b
  {
    var s := JoinSlash(a, b);
    forall j | |a| < j < |s| ensures s[j] != '/' {
      assert s[j] == b[j - |a| - 1];
    }
    LastIndexAt(s, '/', |a|);
    assert s[|a| + 1..] == b;
  }

  /** A prefix before a segment separator does not change the last segment. */
  lemma LastSegmentPrefix(a: string, b: string)
    requires '/' in b
    ensures LastSegment(JoinSlash(a, b)) == LastSegment(b)
  {
    var i := LastIndexOfChar(b, '/').value;
    var s := JoinSlash(a, b);
    var k := |a| + 1;
    forall j | k + i < j < |s| ensures s[j] != '/' {
      assert s[j] == b[j - k];
    }
    LastIndexAt(s, '/', k + i);
    assert s[k + i + 1..] == b[i + 1..];
  }

  lemma SlashIn(a: string, b: string)
    ensures '/' in JoinSlash(a, b)
  {
    assert JoinSlash(a, b)[|a|] == '/';
  }

  lemma {:induction false} BeforeCharJoin(a: string, b: string, c: char)
    requires c !in a
    ensures BeforeChar(a + [c] + b, c) == a
  {
    if |a| > 0 {
      assert (a + [c] + b)[1..] == a[1..] + [c] + b;
      BeforeCharJoin(a[1..], b, c);
    }
  }

  lemma LeafHasNoSeparator(key: string, ts: nat, hex: string)
    requires '/' !in key && '.' !in key && AllHex(hex)
    ensures '/' !in Leaf(key, ts, hex) && '.' !in Leaf(key, ts, hex)
  {
    var leaf := Leaf(key, ts, hex);
    var d := NatToString(ts);
    assert AllDigits(d);
    forall i | 0 <= i < |leaf| ensures leaf[i] != '/' && leaf[i] != '.' {
      if i < |key| {
        assert leaf[i] == key[i];
      } else if i == |key| {
      } else if i < |key| + 1 + |d| {
        assert leaf[i] == d[i - |key| - 1];
      } else if i == |key| + 1 + |d| {
      } else {
        assert leaf[i] == hex[i - |key| - 2 - |d|];
      }
    }
  }

  /** The extraction as written keeps only the leaf of an uploaded image's
      id and drops the folder and user segments, so the destroy names an id
      the store does not hold under that name. */
  lemma AsWrittenMissesUpload(cloud: string, version: nat, userId: string, key: string, ts: nat, hex: string)
    requires '/' !in key && '.' !in key && AllHex(hex)
    ensures PublicIdAsWritten(CloudUrl(cloud, version, StoredId(userId, key, ts, hex), "jpg")) == Leaf(key, ts, hex)
    ensures Leaf(key, ts, hex) != StoredId(userId, key, ts, hex)
  {
    var leaf := Leaf(key, ts, hex);
    LeafHasNoSeparator(key, ts, hex);
    var p := StoredId(userId, key, ts, hex);
    assert p == Folder + "/" + userId + "/" + leaf;
    LastSegmentOfUrl(cloud, version, Folder + "/" + userId, leaf);
    BeforeCharJoin(leaf, "jpg", '.');
    assert leaf + ".jpg" == leaf + ['.'] + "jpg";
    assert |leaf| < |p|;
  }

  /** The last segment of a delivery URL is the last segment of its id
      with the format appended. */
  lemma LastSegmentOfUrl(cloud: string, version: nat, dir: string, name: string)
    requires '/' !in name
    ensures LastSegment(CloudUrl(cloud, version, dir + "/" + name, "jpg")) == name + ".jpg"
  {
    var file := name + ".jpg";
    assert '/' !in file by {
      assert forall j :: |name| <= j < |file| ==> file[j] == ".jpg"[j - |name|];
    }
    var p := dir + "/" + name;
    var v := "v" + NatToString(version);
    var t := p + "." + "jpg";
    assert t == JoinSlash(dir, file);
    SlashIn(dir, file);
    var u1 := JoinSlash(v, t);
    var u2 := JoinSlash("upload", u1);
    var u3 := JoinSlash("image", u2);
    var u4 := JoinSlash(cloud, u3);
    var u5 := JoinSlash("res.cloudinary.com", u4);
    var u6 := JoinSlash("", u5);
    SlashIn(v, t);
    SlashIn("upload", u1);
    SlashIn("image", u2);
    SlashIn(cloud, u3);
    SlashIn("res.cloudinary.com", u4);
    SlashIn("", u5);
    LastSegmentPrefix("https:", u6);
    LastSegmentPrefix("", u5);
    LastSegmentPrefix("res.cloudinary.com", u4);
    LastSegmentPrefix(cloud, u3);
    LastSegmentPrefix("image", u2);
    LastSegmentPrefix("upload", u1);
    LastSegmentPrefix(v, t);
    LastSegmentJoin(dir, file);
  }

  // ---------------------------------------------------------------------
  // Handlers

  datatype UploadReply =
    | Refused(gate: Gate)
    | ProcessingFailed                                     // 500
    | Uploaded(urls: map<string, string>, sizes: map<string, (nat, nat)>)

  /** The delivery URL of each size of one upload: the intended extraction
      reads back, from the URL under each size key, the id that size was
      stored under. */
  function UploadUrls(cloud: string, versions: seq<nat>, userId: string, ts: nat, hex: string): (m: map<string, string>)
    requires |versions| == 3
    ensures m == VariantMap(CloudUrl(cloud, versions[0], StoredId(userId, "thumbnail", ts, hex), "jpg"),
                            CloudUrl(cloud, versions[1], StoredId(userId, "medium", ts, hex), "jpg"),
                            CloudUrl(cloud, versions[2], StoredId(userId, "large", ts, hex), "jpg"))
    ensures '/' !in cloud ==>
              forall i :: 0 <= i < 3 ==> m[SizeKeys[i]] != "" && PublicIdOf(m[SizeKeys[i]]) == StoredId(userId, SizeKeys[i], ts, hex)
  {
    var m := VariantMap(CloudUrl(cloud, versions[0], StoredId(userId, "thumbnail", ts, hex), "jpg"),
                        CloudUrl(cloud, versions[1], StoredId(userId, "medium", ts, hex), "jpg"),
                        CloudUrl(cloud, versions[2], StoredId(userId, "large", ts, hex), "jpg"));
    assert '/' !in cloud ==>
             forall i :: 0 <= i < 3 ==> m[SizeKeys[i]] != "" && PublicIdOf(m[SizeKeys[i]]) == StoredId(userId, SizeKeys[i], ts, hex) by {
      if '/' !in cloud {
        forall i | 0 <= i < 3
          ensures m[SizeKeys[i]] != "" && PublicIdOf(m[SizeKeys[i]]) == StoredId(userId, SizeKeys[i], ts, hex) {
          UrlReadsBack(cloud, versions[i], StoredId(userId, SizeKeys[i], ts, hex));
        }
      }
    }
    m
  }

  lemma UrlReadsBack(cloud: string, version: nat, publicId: string)
    requires '/' !in cloud
    ensures CloudUrl(cloud, version, publicId, "jpg") != ""
    ensures PublicIdOf(CloudUrl(cloud, version, publicId, "jpg")) == publicId
  {
    PublicIdRoundTrip(cloud, version, publicId);
    assert |JoinSlash("https:", "")| > 0;
  }

  /** The ids of the first `n` sizes of one upload. */
  function UploadedIds(userId: string, ts: nat, hex: string, n: nat): (r: set<string>)
    ensures forall i :: 0 <= i < n && i < |Sizes| ==> StoredId(userId, Sizes[i].key, ts, hex) in r
  {
    set i | 0 <= i < n && i < |Sizes| :: StoredId(userId, Sizes[i].key, ts, hex)
  }

  /** POST /api/profile/avatar: the same gates as on disk (nothing is
      stored before the handler runs); the three sizes share one timestamp
      and one random id; `failsAt` is the first size whose resize or
      upload fails. Images uploaded before a failure stay in the store. */
  function UploadAvatar(s: CloudState, user: AuthUser, f: Incoming, now: nat, random: seq<byte>,
                        cloud: string, versions: seq<nat>, failsAt: nat, dbFails: bool, logFails: bool, req: Origin): (r: (UploadReply, CloudState))
    requires |random| == 8 && |versions| == 3
    ensures r.0.Refused? <==> !CheckGates(user, f).Passed?
    ensures r.0.Refused? ==> r.0.gate == CheckGates(user, f) && r.1 == s
    ensures r.0.Uploaded? <==> CheckGates(user, f).Passed? && failsAt >= 3 && !dbFails
    ensures !r.0.Uploaded? ==> r.1.tables == s.tables
    ensures r.0 == ProcessingFailed ==>
              r.1.images == s.images + UploadedIds(RequestUserId(user).value, now, Hex(random), failsAt)
    ensures r.0.Uploaded? ==>
              var id := RequestUserId(user).value;
              r.0.urls == UploadUrls(cloud, versions, id, now, Hex(random))
              && r.0.sizes == FileSizes()
              && r.1.images == s.images + UploadedIds(id, now, Hex(random), 3)
              && r.1.tables.profiles == SetAvatar(s.tables.profiles, id, r.0.urls, now)
              && r.1.tables.activity == RecordSql(s.tables.activity, id, "avatar_upload",
                                                  "Updated profile avatar", Some(req), now, logFails)
              && r.1.tables.(profiles := s.tables.profiles, activity := s.tables.activity) == s.tables
  {
    var gate := CheckGates(user, f);
    if !gate.Passed? then (Refused(gate), s)
    else
      var id := RequestUserId(user).value;
      var hex := Hex(random);
      if failsAt < 3 then (ProcessingFailed, s.(images := s.images + UploadedIds(id, now, hex, failsAt)))
      else
        var images := s.images + UploadedIds(id, now, hex, 3);
        if dbFails then (ProcessingFailed, s.(images := images))
        else
          var urls := UploadUrls(cloud, versions, id, now, hex);
          (Uploaded(urls, FileSizes()),
           CloudState(s.tables.(profiles := SetAvatar(s.tables.profiles, id, urls, now),
                                activity := RecordSql(s.tables.activity, id, "avatar_upload",
                                                      "Updated profile avatar", Some(req), now, logFails)),
                      images))
  }

  datatype DeleteReply =
    | DeleteUnauthorized   // 401
    | NoAvatarToDelete     // 404
    | AvatarDeleted        // 200

  /** The destroys of a delete: the id `extract` reads off each truthy
      size whose destroy does not fail; a failure does not stop the
      others. The handler's extraction is `PublicIdAsWritten`. */
  function DestroyVariants(images: set<string>, m: map<string, string>, destroyFails: set<string>,
                           extract: string -> string): (r: set<string>)
    ensures r <= images
    ensures forall n :: n in images && n !in r <==>
              n in images && exists k :: k in SizeKeys && k in m && m[k] != "" && k !in destroyFails && extract(m[k]) == n
  {
    images - (set k | k in SizeKeys && k in m && m[k] != "" && k !in destroyFails :: extract(m[k]))
  }

  /** DELETE /api/profile/avatar with the id extraction `extract`: the
      handler as written passes `PublicIdAsWritten`. */
  function DeleteAvatar(s: CloudState, user: AuthUser, destroyFails: set<string>, now: int, logFails: bool, req: Origin,
                        extract: string -> string): (r: (DeleteReply, CloudState))
    ensures r.0 == DeleteUnauthorized <==> RequestUserId(user).None?
    ensures r.0 == NoAvatarToDelete <==>
              RequestUserId(user).Some? && !Present(AvatarOf(s.tables.profiles, RequestUserId(user).value))
    ensures !r.0.AvatarDeleted? ==> r.1 == s
    ensures r.0.AvatarDeleted? ==>
              var id := RequestUserId(user).value;
              var a := AvatarOf(s.tables.profiles, id);
              r.1.tables.profiles == ClearAvatar(s.tables.profiles, id, now)
              && (a.Text? ==> r.1.images == s.images)
              && (a.Variants? ==> r.1.images == DestroyVariants(s.images, a.urls, destroyFails, extract))
              && r.1.tables.activity == RecordSql(s.tables.activity, id, "avatar_delete",
                                                  if a.Text? then "Cleared profile avatar" else "Deleted profile avatar",
                                                  Some(req), now, logFails)
  {
    var id := RequestUserId(user);
    if id.None? then (DeleteUnauthorized, s)
    else
      var a := AvatarOf(s.tables.profiles, id.value);
      if !Present(a) then (NoAvatarToDelete, s)
      else
        var ps := ClearAvatar(s.tables.profiles, id.value, now);
        var note := if a.Text? then "Cleared profile avatar" else "Deleted profile avatar";
        var log := RecordSql(s.tables.activity, id.value, "avatar_delete", note, Some(req), now, logFails);
        var images := if a.Text? then s.images else DestroyVariants(s.images, a.urls, destroyFails, extract);
        (AvatarDeleted, CloudState(s.tables.(profiles := ps, activity := log), images))
  }

  /** As written, a delete destroys no image whose id has a folder: every
      image an upload stored survives it, whatever the stored map holds. */
  lemma DeleteKeepsUploadedImages(s: CloudState, user: AuthUser, destroyFails: set<string>, now: int,
                                  logFails: bool, req: Origin, ts: nat, hex: string)
    requires RequestUserId(user).Some?
    ensures var d := DeleteAvatar(s, user, destroyFails, now, logFails, req, PublicIdAsWritten);
            s.images * UploadedIds(RequestUserId(user).value, ts, hex, 3) <= d.1.images
  {
    var id := RequestUserId(user).value;
    var d := DeleteAvatar(s, user, destroyFails, now, logFails, req, PublicIdAsWritten);
    forall n | n in s.images * UploadedIds(id, ts, hex, 3) ensures n in d.1.images {
      var i :| 0 <= i < 3 && n == StoredId(id, Sizes[i].key, ts, hex);
      StoredIdHasSlash(id, Sizes[i].key, ts, hex);
      if d.0.AvatarDeleted? && AvatarOf(s.tables.profiles, id).Variants? {
        FolderIdsSurvive(s.images, AvatarOf(s.tables.profiles, id).urls, destroyFails, n);
      }
    }
  }

  lemma StoredIdHasSlash(userId: string, key: string, ts: nat, hex: string)
    ensures '/' in StoredId(userId, key, ts, hex)
  {
    assert StoredId(userId, key, ts, hex)[|Folder|] == '/';
  }

  lemma FolderIdsSurvive(images: set<string>, m: map<string, string>, destroyFails: set<string>, n: string)
    requires n in images && '/' in n
    ensures n in DestroyVariants(images, m, destroyFails, PublicIdAsWritten)
  {
  }

  /** With the intended extraction, deleting the map an upload stored, with
      no failing destroy, removes the three uploaded images. */
  lemma DeleteRemovesUploadedImages(s: CloudState, user: AuthUser, cloud: string, versions: seq<nat>,
                                    ts: nat, hex: string, now: int, logFails: bool, req: Origin)
    requires RequestUserId(user).Some? && |versions| == 3 && '/' !in cloud
    requires AvatarOf(s.tables.profiles, RequestUserId(user).value)
             == Variants(UploadUrls(cloud, versions, RequestUserId(user).value, ts, hex))
    ensures var d := DeleteAvatar(s, user, {}, now, logFails, req, PublicIdOf);
            d.0 == AvatarDeleted && d.1.images !! UploadedIds(RequestUserId(user).value, ts, hex, 3)
  {
    var id := RequestUserId(user).value;
    var m := UploadUrls(cloud, versions, id, ts, hex);
    forall i | 0 <= i < 3 ensures StoredId(id, Sizes[i].key, ts, hex) !in DestroyVariants(s.images, m, {}, PublicIdOf) {
      assert Sizes[i].key == SizeKeys[i];
    }
  }

  /** GET /api/profile/avatar: a stored map is returned as it is. */
  function GetAvatar(t: Tables, user: AuthUser): (r: Option<AvatarView>)
    ensures r.None? <==> RequestUserId(user).None?
    ensures r.Some? ==> r.value == ViewAvatar(AvatarOf(t.profiles, RequestUserId(user).value), (u: string) => u)
  {
    var id := RequestUserId(user);
    if id.None? then None
    else Some(ViewAvatar(AvatarOf(t.profiles, id.value), (u: string) => u))
  }

  /** The map comes back unchanged: no prefix is added. */
  lemma GetReturnsStoredMap(t: Tables, user: AuthUser)
    requires RequestUserId(user).Some?
    requires AvatarOf(t.profiles, RequestUserId(user).value).Variants?
    ensures GetAvatar(t, user) == Some(Shown(AvatarOf(t.profiles, RequestUserId(user).value).urls, false))
  {
    var m := AvatarOf(t.profiles, RequestUserId(user).value).urls;
    assert (map k | k in m :: ((u: string) => u)(m[k])) == m;
  }
}

=== FILE: avatar_disk.dfy ===
/** The local-disk avatar handlers (apis/user/profileUpload.js). The
    directory uploads/profile-avatars is a set of file names; resizing,
    unlinking and the database write are steps that may fail, given as
    parameters: `failsAt` is the index in `Sizes` of the first variant whose
    resize fails (3 or more: none fails). */
module AvatarDisk {
  import opened Strings
  import opened Paths
  import opened Schemas
  import opened ProfileRules
  import opened ActivityLog
  import opened Rows
  import opened AvatarRules

  datatype DiskState = DiskState(tables: Tables, files: set<string>)

  /** multer's stored name: `${userId}-${Date.now()}-${hex}${ext}`; a
      missing user id prints as "undefined". */
  function UploadFileName(userId: Option<string>, now: nat, hex: string, originalName: string): (n: string)
    ensures EndsWith(n, Extname(originalName))
    ensures StartsWith(n, JsText(userId) + "-" + NatToString(now) + "-" + hex)
  {
    var head := JsText(userId) + "-" + NatToString(now) + "-" + hex;
    StartsWithAppend(head, Extname(originalName), head);
    EndsWithPrepend(head, Extname(originalName), Extname(originalName));
    head + Extname(originalName)
  }

  /** `${path.parse(fileName).name}_${suffix}${path.extname(fileName)}` */
  function VariantFile(fileName: string, suffix: string): (v: string)
    ensures |v| == |fileName| + 1 + |suffix|
  {
    var ext := Extname(fileName);
    fileName[..|fileName| - |ext|] + "_" + suffix + ext
  }

  /** The three variant names differ from each other and from the upload. */
  lemma VariantFilesDistinct(fileName: string)
    ensures VariantFile(fileName, "thumb") != VariantFile(fileName, "medium")
    ensures VariantFile(fileName, "medium") != VariantFile(fileName, "large")
    ensures VariantFile(fileName, "thumb") != VariantFile(fileName, "large")
    ensures fileName !in {VariantFile(fileName, "thumb"), VariantFile(fileName, "medium"), VariantFile(fileName, "large")}
  {
    SuffixStartsAt(fileName, "thumb");
    SuffixStartsAt(fileName, "medium");
    SuffixStartsAt(fileName, "large");
  }

  /** The suffix of a variant name starts right after the base and its '_'. */
  lemma SuffixStartsAt(fileName: string, suffix: string)
    requires |suffix| > 0
    ensures VariantFile(fileName, suffix)[|fileName| - |Extname(fileName)| + 1] == suffix[0]
  {
    var ext := Extname(fileName);
    var base := fileName[..|fileName| - |ext|];
    var v := VariantFile(fileName, suffix);
    assert v == base + "_" + suffix + ext;
    assert v[|base| + 1] == (base + "_" + suffix)[|base| + 1];
  }

  function VariantFiles(fileName: string): seq<string> {
    [VariantFile(fileName, "thumb"), VariantFile(fileName, "medium"), VariantFile(fileName, "large")]
  }

  datatype UploadReply =
    | Refused(gate: Gate)           // 401 or one of the 400s
    | ProcessingFailed              // 500 "Failed to process uploaded image"
    | Uploaded(urls: map<string, string>, sizes: map<string, (nat, nat)>)

  /** POST /api/profile/avatar. Multer stores the file before the handler
      runs, so a refused user leaves it behind. A failing step after the
      gates ends in the 500 branch, which unlinks only the upload itself:
      variants already written stay. */
  function UploadAvatar(s: DiskState, user: AuthUser, f: Incoming, now: nat, random: seq<byte>,
                        failsAt: nat, unlinkFails: bool, dbFails: bool, logFails: bool, req: Origin): (r: (UploadReply, DiskState))
    requires |random| == 8
    ensures r.0.Refused? <==> !CheckGates(user, f).Passed?
    ensures r.0.Refused? ==> r.0.gate == CheckGates(user, f)
    ensures r.0.Uploaded? <==> CheckGates(user, f).Passed? && failsAt >= 3 && !unlinkFails && !dbFails
    ensures !r.0.Uploaded? ==> r.1.tables == s.tables
    ensures !MulterKeeps(f) ==> r.1 == s
    ensures MulterKeeps(f) && r.0.Refused? ==>
              r.1.files == s.files + {UploadFileName(RequestUserId(user), now, Hex(random), f.originalName)}
    ensures r.0.Uploaded? ==>
              var name := UploadFileName(RequestUserId(user), now, Hex(random), f.originalName);
              var v := VariantFiles(name);
              r.0.urls == VariantMap(v[0], v[1], v[2])
              && r.0.sizes == FileSizes()
              && r.1.files == (s.files + {v[0], v[1], v[2]}) - {name}
              && r.1.tables.profiles == SetAvatar(s.tables.profiles, RequestUserId(user).value, r.0.urls, now)
              && r.1.tables.activity == RecordSql(s.tables.activity, RequestUserId(user).value, "avatar_upload",
                                                  "Updated profile avatar", Some(req), now, logFails)
              && r.1.tables.(profiles := s.tables.profiles, activity := s.tables.activity) == s.tables
  {
    var id := RequestUserId(user);
    var gate := CheckGates(user, f);
    if !MulterKeeps(f) then (Refused(gate), s)
    else
      var name := UploadFileName(id, now, Hex(random), f.originalName);
      var kept := s.(files := s.files + {name});
      if !gate.Passed? then (Refused(gate), kept)
      else ProcessUpload(kept, id.value, name, now, failsAt, unlinkFails, dbFails, logFails, req)
  }

  /** The steps after the gates, on a directory that holds the upload
      `name`: write the variants in order (stopping at the first failing
      resize), unlink the upload, write the profile. */
  function ProcessUpload(s: DiskState, id: string, name: string, now: nat,
                         failsAt: nat, unlinkFails: bool, dbFails: bool, logFails: bool, req: Origin): (r: (UploadReply, DiskState))
    ensures r.0.Uploaded? <==> failsAt >= 3 && !unlinkFails && !dbFails
    ensures !r.0.Refused?
    ensures !r.0.Uploaded? ==> r.1.tables == s.tables
    ensures 0 < failsAt < 3 ==> VariantFiles(name)[0] in r.1.files
    ensures r.0.Uploaded? ==>
              var v := VariantFiles(name);
              r.0.urls == VariantMap(v[0], v[1], v[2])
              && r.0.sizes == FileSizes()
              && r.1.files == (s.files + {v[0], v[1], v[2]}) - {name}
              && r.1.tables.profiles == SetAvatar(s.tables.profiles, id, r.0.urls, now)
              && r.1.tables.activity == RecordSql(s.tables.activity, id, "avatar_upload",
                                                  "Updated profile avatar", Some(req), now, logFails)
              && r.1.tables.(profiles := s.tables.profiles, activity := s.tables.activity) == s.tables
  {
    var v := VariantFiles(name);
    var removeUpload := if unlinkFails then {} else {name};
    if failsAt < 3 then
      VariantFilesDistinct(name);
      assert 0 < failsAt ==> v[0] in (s.files + (set i | 0 <= i < failsAt :: v[i])) - removeUpload by {
        if 0 < failsAt {
          FirstWrittenStays(s.files, v, failsAt, removeUpload);
        }
      }
      (ProcessingFailed, s.(files := (s.files + (set i | 0 <= i < failsAt :: v[i])) - removeUpload))
    else
      var written := s.files + {v[0], v[1], v[2]};
      if unlinkFails || dbFails then (ProcessingFailed, s.(files := written - removeUpload))
      else
        var urls := VariantMap(v[0], v[1], v[2]);
        (Uploaded(urls, FileSizes()),
         DiskState(s.tables.(profiles := SetAvatar(s.tables.profiles, id, urls, now),
                             activity := RecordSql(s.tables.activity, id, "avatar_upload",
                                                   "Updated profile avatar", Some(req), now, logFails)),
                   written - {name}))
  }

  /** A refused user does not stop multer: the stored upload stays in the
      directory. */
  lemma UnauthorizedUploadLeaks(s: DiskState, user: AuthUser, f: Incoming, now: nat, random: seq<byte>,
                                failsAt: nat, unlinkFails: bool, dbFails: bool, logFails: bool, req: Origin)
    requires |random| == 8
    requires RequestUserId(user).None? && MulterKeeps(f)
    ensures var r := UploadAvatar(s, user, f, now, random, failsAt, unlinkFails, dbFails, logFails, req);
            r.0 == Refused(NeedsAuth)
            && UploadFileName(None, now, Hex(random), f.originalName) in r.1.files
  {
  }

  /** A resize failure leaves the variants already written on disk. */
  lemma FailedResizeKeepsVariants(s: DiskState, user: AuthUser, f: Incoming, now: nat, random: seq<byte>,
                                  failsAt: nat, unlinkFails: bool, dbFails: bool, logFails: bool, req: Origin)
    requires |random| == 8
    requires CheckGates(user, f).Passed? && 0 < failsAt < 3
    ensures var r := UploadAvatar(s, user, f, now, random, failsAt, unlinkFails, dbFails, logFails, req);
            var name := UploadFileName(RequestUserId(user), now, Hex(random), f.originalName);
            r.0 == ProcessingFailed && VariantFiles(name)[0] in r.1.files && r.1.tables == s.tables
  {
  }

  lemma FirstWrittenStays(kept: set<string>, v: seq<string>, failsAt: nat, removed: set<string>)
    requires 0 < failsAt <= |v| && v[0] !in removed
    ensures v[0] in (kept + (set i | 0 <= i < failsAt :: v[i])) - removed
  {
    assert v[0] in (set i | 0 <= i < failsAt :: v[i]);
  }

  datatype DeleteReply =
    | DeleteUnauthorized   // 401
    | NoAvatarToDelete     // 404 "No avatar found to delete"
    | AvatarDeleted        // 200

  /** The files a delete removes: each truthy entry of the three sizes
      whose unlink does not fail; a failure does not stop the others. */
  function UnlinkVariants(files: set<string>, m: map<string, string>, unlinkFails: set<string>): (r: set<string>)
    ensures r <= files
    ensures forall n :: n in files && n !in r <==>
              n in files && n !in unlinkFails && exists k :: k in SizeKeys && k in m && m[k] == n && n != ""
  {
    files - (set k | k in SizeKeys && k in m && m[k] != "" && m[k] !in unlinkFails :: m[k])
  }

  /** DELETE /api/profile/avatar */
  function DeleteAvatar(s: DiskState, user: AuthUser, unlinkFails: set<string>, now: int, logFails: bool, req: Origin): (r: (DeleteReply, DiskState))
    ensures r.0 == DeleteUnauthorized <==> RequestUserId(user).None?
    ensures r.0 == NoAvatarToDelete <==>
              RequestUserId(user).Some? && !Present(AvatarOf(s.tables.profiles, RequestUserId(user).value))
    ensures !r.0.AvatarDeleted? ==> r.1 == s
    ensures r.0.AvatarDeleted? ==>
              var id := RequestUserId(user).value;
              var a := AvatarOf(s.tables.profiles, id);
              r.1.tables.profiles == ClearAvatar(s.tables.profiles, id, now)
              && (a.Text? ==> r.1.files == s.files)
              && (a.Variants? ==> r.1.files == UnlinkVariants(s.files, a.urls, unlinkFails))
              && r.1.tables.activity == RecordSql(s.tables.activity, id, "avatar_delete",
                                                  if a.Text? then "Cleared profile avatar" else "Deleted profile avatar",
                                                  Some(req), now, logFails)
    ensures r.1.tables.settings == s.tables.settings && r.1.tables.sessions == s.tables.sessions
  {
    var id := RequestUserId(user);
    if id.None? then (DeleteUnauthorized, s)
    else
      var a := AvatarOf(s.tables.profiles, id.value);
      if !Present(a) then (NoAvatarToDelete, s)
      else
        var ps := ClearAvatar(s.tables.profiles, id.value, now);
        var note := if a.Text? then "Cleared profile avatar" else "Deleted profile avatar";
        var log := RecordSql(s.tables.activity, id.value, "avatar_delete", note, Some(req), now, logFails);
        var files := if a.Text? then s.files else UnlinkVariants(s.files, a.urls, unlinkFails);
        (AvatarDeleted, DiskState(s.tables.(profiles := ps, activity := log), files))
  }

  /** A delete always ends with no avatar, whatever the unlinks did; a
      second delete finds nothing. */
  lemma DeleteTwice(s: DiskState, user: AuthUser, unlinkFails: set<string>, now: int, logFails: bool, req: Origin)
    requires RequestUserId(user).Some?
    ensures var r := DeleteAvatar(s, user, unlinkFails, now, logFails, req);
            DeleteAvatar(r.1, user, unlinkFails, now, logFails, req).0 == NoAvatarToDelete
  {
    var id := RequestUserId(user).value;
    var r := DeleteAvatar(s, user, unlinkFails, now, logFails, req);
    if r.0.AvatarDeleted? {
      ClearedAvatarIsAbsent(s.tables.profiles, id, now);
    }
  }

  /** Uploading and then deleting, with no failing step, removes every file
      the upload created and leaves the user without an avatar. */
  lemma UploadThenDelete(s: DiskState, user: AuthUser, f: Incoming, now: nat, random: seq<byte>, logFails: bool, req: Origin)
    requires |random| == 8
    requires CheckGates(user, f).Passed?
    requires Count(s.tables.profiles, ProfileOf(RequestUserId(user).value)) > 0
    ensures var u := UploadAvatar(s, user, f, now, random, 3, false, false, logFails, req);
            var d := DeleteAvatar(u.1, user, {}, now, logFails, req);
            var name := UploadFileName(RequestUserId(user), now, Hex(random), f.originalName);
            var v := VariantFiles(name);
            d.0 == AvatarDeleted
            && v[0] !in d.1.files && v[1] !in d.1.files && v[2] !in d.1.files
            && name !in d.1.files
            && AvatarOf(d.1.tables.profiles, RequestUserId(user).value) == NoAvatar
  {
    var id := RequestUserId(user).value;
    var u := UploadAvatar(s, user, f, now, random, 3, false, false, logFails, req);
    var name := UploadFileName(RequestUserId(user), now, Hex(random), f.originalName);
    var v := VariantFiles(name);
    UploadStoresMap(s, user, f, now, random, logFails, req);
    DeleteStoredMap(u.1, user, v[0], v[1], v[2], name, now, logFails, req);
  }

  /** A successful upload leaves the variant map on the user's profile and
      the upload itself off the disk. */
  lemma UploadStoresMap(s: DiskState, user: AuthUser, f: Incoming, now: nat, random: seq<byte>, logFails: bool, req: Origin)
    requires |random| == 8
    requires CheckGates(user, f).Passed?
    requires Count(s.tables.profiles, ProfileOf(RequestUserId(user).value)) > 0
    ensures var u := UploadAvatar(s, user, f, now, random, 3, false, false, logFails, req);
            var name := UploadFileName(RequestUserId(user), now, Hex(random), f.originalName);
            var v := VariantFiles(name);
            name !in u.1.files
            && AvatarOf(u.1.tables.profiles, RequestUserId(user).value) == Variants(VariantMap(v[0], v[1], v[2]))
  {
    var u := UploadAvatar(s, user, f, now, random, 3, false, false, logFails, req);
    SetAvatarReadsBack(s.tables.profiles, RequestUserId(user).value, u.0.urls, now);
  }

  /** Deleting a stored variant map with no failing unlink removes its three
      files and clears the avatar. */
  lemma DeleteStoredMap(s: DiskState, user: AuthUser, a: string, b: string, c: string, other: string, now: int, logFails: bool, req: Origin)
    requires RequestUserId(user).Some?
    requires AvatarOf(s.tables.profiles, RequestUserId(user).value) == Variants(VariantMap(a, b, c))
    requires a != "" && b != "" && c != "" && other !in s.files
    ensures var d := DeleteAvatar(s, user, {}, now, logFails, req);
            d.0 == AvatarDeleted && a !in d.1.files && b !in d.1.files && c !in d.1.files && other !in d.1.files
            && AvatarOf(d.1.tables.profiles, RequestUserId(user).value) == NoAvatar
  {
    ClearedAvatarIsAbsent(s.tables.profiles, RequestUserId(user).value, now);
    UnlinkAllVariants(s.files, a, b, c);
  }

  /** With no failing unlink, every variant of a stored map is removed. */
  lemma UnlinkAllVariants(files: set<string>, a: string, b: string, c: string)
    requires a != "" && b != "" && c != ""
    ensures var r := UnlinkVariants(files, VariantMap(a, b, c), {});
            a !in r && b !in r && c !in r
  {
    var m := VariantMap(a, b, c);
    assert m[SizeKeys[0]] == a && m[SizeKeys[1]] == b && m[SizeKeys[2]] == c;
  }

  datatype GetReply = GetUnauthorized | AvatarInfo(view: AvatarView)

  /** The public URL of a stored file name. */
  function PublicLink(protocol: string, host: string): string -> string {
    (n: string) => protocol + "://" + host + "/uploads/profile-avatars/" + n
  }

  /** GET /api/profile/avatar: map entries become public URLs. */
  function GetAvatar(t: Tables, user: AuthUser, protocol: string, host: string): (r: GetReply)
    ensures r.GetUnauthorized? <==> RequestUserId(user).None?
    ensures r.AvatarInfo? ==> r.view == ViewAvatar(AvatarOf(t.profiles, RequestUserId(user).value), PublicLink(protocol, host))
  {
    var id := RequestUserId(user);
    if id.None? then GetUnauthorized
    else AvatarInfo(ViewAvatar(AvatarOf(t.profiles, id.value), PublicLink(protocol, host)))
  }

  /** After an upload, every size is shown at the public URL of its file. */
  lemma UploadThenGet(s: DiskState, user: AuthUser, f: Incoming, now: nat, random: seq<byte>,
                      logFails: bool, req: Origin, protocol: string, host: string)
    requires |random| == 8
    requires CheckGates(user, f).Passed?
    requires Count(s.tables.profiles, ProfileOf(RequestUserId(user).value)) > 0
    ensures var u := UploadAvatar(s, user, f, now, random, 3, false, false, logFails, req);
            var g := GetAvatar(u.1.tables, user, protocol, host);
            var name := UploadFileName(RequestUserId(user), now, Hex(random), f.originalName);
            var base := protocol + "://" + host + "/uploads/profile-avatars/";
            g.AvatarInfo? && g.view.Shown? && !g.view.isGoogle
            && g.view.urls.Keys == {"thumbnail", "medium", "large", "original"}
            && g.view.urls["thumbnail"] == base + VariantFiles(name)[0]
            && g.view.urls["original"] == g.view.urls["large"] == base + VariantFiles(name)[2]
  {
    var u := UploadAvatar(s, user, f, now, random, 3, false, false, logFails, req);
    var v := VariantFiles(UploadFileName(RequestUserId(user), now, Hex(random), f.originalName));
    UploadStoresMap(s, user, f, now, random, logFails, req);
    GetStoredMap(u.1.tables, user, protocol, host, v[0], v[1], v[2]);
  }

  /** A stored variant map is shown under its four keys at public URLs. */
  lemma GetStoredMap(t: Tables, user: AuthUser, protocol: string, host: string, a: string, b: string, c: string)
    requires RequestUserId(user).Some?
    requires AvatarOf(t.profiles, RequestUserId(user).value) == Variants(VariantMap(a, b, c))
    ensures var g := GetAvatar(t, user, protocol, host);
            var base := protocol + "://" + host + "/uploads/profile-avatars/";
            g.AvatarInfo? && g.view.Shown? && !g.view.isGoogle
            && g.view.urls.Keys == {"thumbnail", "medium", "large", "original"}
            && g.view.urls["thumbnail"] == base + a
            && g.view.urls["original"] == g.view.urls["large"] == base + c
  {
  }
}

=== FILE: avatar_rules.dfy ===
/** What the two avatar back-ends (apis/user/profileUpload.js on local disk,
    api/user/profileUpload.js on an object store) share: the upload gates,
    the three variants, how the stored avatar value is shown and cleared. */
module AvatarRules {
  import opened Strings
  import opened Schemas
  import opened ProfileRules
  import opened Rows

  const MaxAvatarBytes: nat := 5 * 1024 * 1024
  const AllowedMimes: set<string> := {"image/jpeg", "image/jpg", "image/png", "image/webp"}

  /** One derived size: its key in the stored map, its file-name suffix and
      its edge in pixels (the variants are square). */
  datatype Size = Size(key: string, suffix: string, edge: nat)

  /** The sizes, in the order they are produced. */
  const Sizes: seq<Size> := [Size("thumbnail", "thumb", 150), Size("medium", "medium", 300), Size("large", "large", 500)]

  /** The keys a delete walks, in order. */
  const SizeKeys: seq<string> := ["thumbnail", "medium", "large"]

  /** `file_sizes` of the upload reply. */
  function FileSizes(): (m: map<string, (nat, nat)>)
    ensures m.Keys == {"thumbnail", "medium", "large"}
    ensures forall i :: 0 <= i < |Sizes| ==> m[Sizes[i].key] == (Sizes[i].edge, Sizes[i].edge)
  {
    map["thumbnail" := (150, 150), "medium" := (300, 300), "large" := (500, 500)]
  }

  /** What reaches the multer middleware. */
  datatype Incoming =
    | NoUpload                                       // no multipart file at all
    | UnexpectedField                                // a file under another field name
    | Upload(originalName: string, mimeType: string, size: nat)

  datatype Gate =
    | NeedsAuth        // 401
    | FilterRejected   // 400 "Invalid file type. Only JPEG, PNG, and WebP images are allowed."
    | TooLarge         // 400 "File too large. Maximum size is 5MB."
    | UploadError      // 400 "Upload error: …"
    | NoFile           // 400 "No file uploaded"
    | Passed(originalName: string)

  /** Multer keeps the file: the filter runs first, the limit while the body
      is read. */
  predicate MulterKeeps(f: Incoming) {
    f.Upload? && f.mimeType in AllowedMimes && f.size <= MaxAvatarBytes
  }

  /** The handler runs after multer: the user is checked first, then the
      multer error, then the file. */
  function CheckGates(user: AuthUser, f: Incoming): (g: Gate)
    ensures g == NeedsAuth <==> RequestUserId(user).None?
    ensures g == FilterRejected <==> RequestUserId(user).Some? && f.Upload? && f.mimeType !in AllowedMimes
    ensures g == TooLarge <==>
              RequestUserId(user).Some? && f.Upload? && f.mimeType in AllowedMimes && f.size > MaxAvatarBytes
    ensures g == UploadError <==> RequestUserId(user).Some? && f.UnexpectedField?
    ensures g == NoFile <==> RequestUserId(user).Some? && f.NoUpload?
    ensures g.Passed? <==> RequestUserId(user).Some? && MulterKeeps(f)
    ensures g.Passed? ==> g.originalName == f.originalName
  {
    if RequestUserId(user).None? then NeedsAuth
    else match f
      case NoUpload => NoFile
      case UnexpectedField => UploadError
      case Upload(name, mime, size) =>
        if mime !in AllowedMimes then FilterRejected
        else if size > MaxAvatarBytes then TooLarge
        else Passed(name)
  }

  /** A missing user is reported even for a file multer refused. */
  lemma AuthReportedFirst(user: AuthUser, f: Incoming)
    requires RequestUserId(user).None?
    ensures CheckGates(user, f) == NeedsAuth
  {
  }

  /** The stored map of an upload: the three variants and `original`, which
      repeats `large`. */
  function VariantMap(thumb: string, medium: string, large: string): (m: map<string, string>)
    ensures m.Keys == {"thumbnail", "medium", "large", "original"}
    ensures m["original"] == m["large"] == large && m["thumbnail"] == thumb && m["medium"] == medium
  {
    map["thumbnail" := thumb, "medium" := medium, "large" := large, "original" := large]
  }

  /** A stored value is truthy: a map, or non-empty text. */
  predicate Present(a: StoredAvatar) {
    a.Variants? || (a.Text? && a.raw != "")
  }

  /** The avatar the first row of the user holds (`result[0]?.avatar_url`). */
  function AvatarOf(ps: seq<Profile>, id: string): (a: StoredAvatar)
    ensures Count(ps, ProfileOf(id)) == 0 ==> a == NoAvatar
    ensures Count(ps, ProfileOf(id)) > 0 ==> a == ps[FirstWhere(ps, ProfileOf(id))].avatar
  {
    var k := FirstWhere(ps, ProfileOf(id));
    if k < |ps| then ps[k].avatar else NoAvatar
  }

  datatype AvatarView =
    | Hidden                                          // has_avatar false
    | Shown(urls: map<string, string>, isGoogle: bool)

  /** getAvatar: a map is shown with every entry passed through `link`; text
      that starts with "http" once trimmed is shown under all four keys;
      anything else is hidden. */
  function ViewAvatar(a: StoredAvatar, link: string -> string): (v: AvatarView)
    ensures !Present(a) ==> v == Hidden
    ensures a.Variants? ==> v == Shown(map k | k in a.urls :: link(a.urls[k]), false)
    ensures a.Text? ==> (v.Shown? <==> StartsWith(Trim(a.raw), "http"))
    ensures a.Text? && v.Shown? ==> v.isGoogle && v.urls == VariantMap(Trim(a.raw), Trim(a.raw), Trim(a.raw))
  {
    match a
    case NoAvatar => Hidden
    case Variants(m) => Shown(map k | k in m :: link(m[k]), false)
    case Text(raw) =>
      var u := Trim(raw);
      if StartsWith(u, "http") then Shown(VariantMap(u, u, u), true) else Hidden
  }

  /** A view shows the keys the stored map has, and only those. */
  lemma ViewKeepsKeys(m: map<string, string>, link: string -> string)
    ensures ViewAvatar(Variants(m), link).urls.Keys == m.Keys
  {
  }

  /** `SET avatar_url = NULL, updated_at = …` on every row of the user. */
  function ClearAvatar(ps: seq<Profile>, id: string, now: int): (r: seq<Profile>)
    ensures |r| == |ps|
    ensures forall i :: 0 <= i < |ps| ==>
              r[i] == (if ps[i].userId == id then ps[i].(avatar := NoAvatar, updatedAt := now) else ps[i])
  {
    MapWhere(ps, ProfileOf(id), (p: Profile) => p.(avatar := NoAvatar, updatedAt := now))
  }

  /** updateUserAvatar: the map on every row of the user. */
  function SetAvatar(ps: seq<Profile>, id: string, m: map<string, string>, now: int): (r: seq<Profile>)
    ensures |r| == |ps|
    ensures forall i :: 0 <= i < |ps| ==>
              r[i] == (if ps[i].userId == id then ps[i].(avatar := Variants(m), updatedAt := now) else ps[i])
  {
    MapWhere(ps, ProfileOf(id), (p: Profile) => p.(avatar := Variants(m), updatedAt := now))
  }

  /** After clearing, the user's avatar reads as absent, and a later delete
      finds nothing. */
  lemma ClearedAvatarIsAbsent(ps: seq<Profile>, id: string, now: int)
    ensures AvatarOf(ClearAvatar(ps, id, now), id) == NoAvatar
    ensures !Present(AvatarOf(ClearAvatar(ps, id, now), id))
  {
    var r := ClearAvatar(ps, id, now);
    var k := FirstWhere(r, ProfileOf(id));
    if k < |r| {
      assert r[k] == ps[k].(avatar := NoAvatar, updatedAt := now);
    }
  }

  /** After an upload, the user's avatar reads as the written map. */
  lemma SetAvatarReadsBack(ps: seq<Profile>, id: string, m: map<string, string>, now: int)
    requires Count(ps, ProfileOf(id)) > 0
    ensures AvatarOf(SetAvatar(ps, id, m, now), id) == Variants(m)
  {
    var r := SetAvatar(ps, id, m, now);
    CountMapWhere(ps, ProfileOf(id), (p: Profile) => p.(avatar := Variants(m), updatedAt := now), ProfileOf(id));
    var k := FirstWhere(r, ProfileOf(id));
    assert k < |r|;
    assert r[k] == ps[k].(avatar := Variants(m), updatedAt := now);
  }
}

=== FILE: book_url.dfy ===
/** The viewer's rewriting of a stored book-file location into a URL the
    browser can open (`processBookUrlEnhanced` in public/js/bookDisplay.js). */
module BookUrl {
  import opened Strings

  /** Index of the first line terminator of `s`, or `|s|` when there is none. */
  function FirstLineEnd(s: string): (k: nat)
    ensures k <= |s|
    ensures forall i :: 0 <= i < k ==> !IsLineTerminator(s[i])
    ensures k < |s| ==> IsLineTerminator(s[k])
  {
    if |s| == 0 || IsLineTerminator(s[0]) then 0 else 1 + FirstLineEnd(s[1..])
  }

  /** `s.replace(/^.*uploads\//, '')`: the greedy `.*` reaches the last
      `uploads/` of the first line; without one the string is unchanged. */
  function StripThroughUploads(s: string): (r: string)
    ensures |r| <= |s| && r == s[|s| - |r|..]
  {
    var k := FirstLineEnd(s);
    match LastIndexOf(s[..k], "uploads/")
    case None => s
    case Some(i) => s[i + 8..]
  }

  function Normalize(url: string): (n: string)
    ensures '\\' !in n
  {
    ReplaceChar(url, '\\', '/')
  }

  predicate IsHttp(n: string) {
    StartsWith(n, "http://") || StartsWith(n, "https://")
  }

  /** processBookUrlEnhanced. `None` stands for null/undefined. */
  function ProcessBookUrl(url: Option<string>): (r: string)
    ensures url.None? || url.value == "" ==> r == ""
    ensures '\\' !in r
    ensures url.Some? && url.value != "" && !IsHttp(Normalize(url.value))
            ==> StartsWith(r, "/pdf/")
    ensures url.Some? && IsHttp(Normalize(url.value)) && !Contains(Normalize(url.value), "/uploads/")
            ==> r == Normalize(url.value)
  {
    if url.None? || url.value == "" then ""
    else
      var n := Normalize(url.value);
      if IsHttp(n) then
        if Contains(n, "/uploads/") && EndsWith(n, ".pdf") then
          "/pdf/" + SplitSecond(n, "/uploads/")
        else n
      else if Contains(n, "uploads/") then "/pdf/" + StripThroughUploads(n)
      else if !Contains(n, "/") && EndsWith(n, ".pdf") then "/pdf/" + n
      else "/pdf/" + n
  }

  /** Between its slashes "/uploads/" holds letters only. */
  lemma InnerLettersOfUploads(m: int)
    requires 1 <= m <= 7
    ensures "/uploads/"[m] != '/'
  {
    assert "/uploads/"[1..8] == "uploads";
    assert "/uploads/"[m] == "uploads"[m - 1];
    assert '/' !in "uploads";
  }

  /** The only occurrence of "/uploads/" in `pre + "/uploads/" + f` that
      starts before `|pre| + 1` is the one at `|pre|`, when `pre` does not
      contain "/uploads". */
  lemma FirstUploadsSegment(pre: string, f: string)
    requires !Contains(pre, "/uploads")
    ensures IndexOf(pre + "/uploads/" + f, "/uploads/") == Some(|pre|)
  {
    var s := pre + "/uploads/" + f;
    OccursShift(pre, "/uploads/", f, "/uploads/", 0);
    forall j | 0 <= j < |pre| ensures !OccursAt(s, "/uploads/", j) {
      if OccursAt(s, "/uploads/", j) {
        OccursChar(s, "/uploads/", |pre|, 0);
        if |pre| < j + 8 {
          OccursChar(s, "/uploads/", j, |pre| - j);
          InnerLettersOfUploads(|pre| - j);
        }
        assert j + 8 <= |pre|;
        assert s[j..j + 8] == s[j..j + 9][..8];
        assert s[j..j + 9][..8] == "/uploads";
        assert pre[j..j + 8] == s[j..j + 8];
        ContainsAt(pre, "/uploads", j);
      }
    }
  }

  /** Split semantics: the text after the first "/uploads/" up to the next. */
  lemma SplitAfterUploads(pre: string, f: string)
    requires !Contains(pre, "/uploads") && !Contains(f, "/uploads/")
    ensures Contains(pre + "/uploads/" + f, "/uploads/")
    ensures SplitSecond(pre + "/uploads/" + f, "/uploads/") == f
  {
    var s := pre + "/uploads/" + f;
    FirstUploadsSegment(pre, f);
    var st := |pre| + 9;
    assert s[st..] == f;
    match IndexOfFrom(s, "/uploads/", st)
    case None =>
    case Some(k) =>
      assert s == (pre + "/uploads/") + f + [];
      OccursUnshift(pre + "/uploads/", f, [], "/uploads/", k);
      ContainsAt(f, "/uploads/", k - st);
  }

  lemma HttpUploadsBranch(n: string)
    requires '\\' !in n && IsHttp(n) && Contains(n, "/uploads/") && EndsWith(n, ".pdf")
    ensures ProcessBookUrl(Some(n)) == "/pdf/" + SplitSecond(n, "/uploads/")
  {
    assert Normalize(n) == n;
  }

  lemma NoBackslashJoin(a: string, b: string, c: string)
    requires '\\' !in a && '\\' !in b && '\\' !in c
    ensures '\\' !in a + b + c
  {
  }

  /** An absolute URL `pre/uploads/f` with `f` ending in ".pdf" is sent to
      the PDF route with the text after the first "/uploads/". */
  lemma UploadsUrlGoesToPdfRoute(pre: string, f: string)
    requires IsHttp(pre)
    requires '\\' !in pre && '\\' !in f
    requires !Contains(pre, "/uploads")
    requires !Contains(f, "/uploads/") && EndsWith(f, ".pdf")
    ensures ProcessBookUrl(Some(pre + "/uploads/" + f)) == "/pdf/" + f
  {
    var s := pre + "/uploads/" + f;
    NoBackslashJoin(pre, "/uploads/", f);
    assert s == pre + ("/uploads/" + f);
    if StartsWith(pre, "http://") {
      StartsWithAppend(pre, "/uploads/" + f, "http://");
    } else {
      StartsWithAppend(pre, "/uploads/" + f, "https://");
    }
    EndsWithPrepend(pre + "/uploads/", f, ".pdf");
    SplitAfterUploads(pre, f);
    HttpUploadsBranch(s);
  }

  /** Any absolute URL that is not an uploads PDF is returned as it is,
      apart from backslash normalisation. */
  lemma OtherUrlKept(u: string)
    requires IsHttp(Normalize(u))
    requires !(Contains(Normalize(u), "/uploads/") && EndsWith(Normalize(u), ".pdf"))
    ensures ProcessBookUrl(Some(u)) == Normalize(u)
  {
  }

  /** The first line of `pre + "uploads/" + f` reaches past the token
      when `pre` holds no line terminator. */
  lemma FirstLineCoversToken(pre: string, f: string)
    requires forall i :: 0 <= i < |pre| ==> !IsLineTerminator(pre[i])
    ensures |pre| + 8 <= FirstLineEnd(pre + "uploads/" + f)
  {
    var s := pre + "uploads/" + f;
    var k := FirstLineEnd(s);
    if k < |pre| + 8 {
      assert false;
    }
  }

  /** No occurrence of "uploads/" in `pre + "uploads/" + f` starts after
      `|pre|` when `f` holds none. */
  lemma NoLaterUploads(pre: string, f: string, i: int)
    requires !Contains(f, "uploads/")
    requires OccursAt(pre + "uploads/" + f, "uploads/", i)
    ensures i <= |pre|
  {
    var s := pre + "uploads/" + f;
    if i > |pre| {
      OccursShift(pre, "uploads/", f, "uploads/", 0);
      OccursChar(s, "uploads/", i, 0);
      if i < |pre| + 8 {
        OccursChar(s, "uploads/", |pre|, i - |pre|);
      }
      assert i >= |pre| + 8;
      OccursUnshift(pre + "uploads/", f, [], "uploads/", i);
      ContainsAt(f, "uploads/", i - |pre| - 8);
    }
  }

  /** The last "uploads/" of the first line of `pre + "uploads/" + f` is the
      one at `|pre|` when `pre` is one line and `f` holds no "uploads/". */
  lemma LastUploadsOfFirstLine(pre: string, f: string)
    requires forall i :: 0 <= i < |pre| ==> !IsLineTerminator(pre[i])
    requires !Contains(f, "uploads/")
    ensures StripThroughUploads(pre + "uploads/" + f) == f
  {
    var s := pre + "uploads/" + f;
    LastUploadsOfLineAt(pre, f);
    assert s[|pre| + 8..] == f;
  }

  lemma LastUploadsOfLineAt(pre: string, f: string)
    requires forall i :: 0 <= i < |pre| ==> !IsLineTerminator(pre[i])
    requires !Contains(f, "uploads/")
    ensures var s := pre + "uploads/" + f;
            LastIndexOf(s[..FirstLineEnd(s)], "uploads/") == Some(|pre|)
  {
    var s := pre + "uploads/" + f;
    var k := FirstLineEnd(s);
    FirstLineCoversToken(pre, f);
    var line := s[..k];
    OccursShift(pre, "uploads/", f, "uploads/", 0);
    assert s == line + s[k..] + [];
    OccursUnshift([], line, s[k..] + [], "uploads/", |pre|);
    var i := LastIndexOf(line, "uploads/").value;
    OccursShift([], line, s[k..] + [], "uploads/", i);
    NoLaterUploads(pre, f, i);
  }

  /** A relative path `pre uploads/ f` (one line, no later "uploads/") is
      sent to the PDF route with the suffix after the LAST "uploads/". */
  lemma RelativeUploadsGoesToPdfRoute(pre: string, f: string)
    requires !IsHttp(pre + "uploads/" + f)
    requires '\\' !in pre && '\\' !in f
    requires forall i :: 0 <= i < |pre| ==> !IsLineTerminator(pre[i])
    requires !Contains(f, "uploads/")
    ensures ProcessBookUrl(Some(pre + "uploads/" + f)) == "/pdf/" + f
  {
    var s := pre + "uploads/" + f;
    assert Normalize(s) == s;
    OccursShift(pre, "uploads/", f, "uploads/", 0);
    ContainsAt(s, "uploads/", |pre|);
    LastUploadsOfFirstLine(pre, f);
  }

  /** For relative inputs without "uploads/", the ".pdf" branch and the
      catch-all branch agree: the route is "/pdf/" + the normalised input. */
  lemma PlainNameBranchesAgree(u: string)
    requires u != "" && !IsHttp(Normalize(u)) && !Contains(Normalize(u), "uploads/")
    ensures ProcessBookUrl(Some(u)) == "/pdf/" + Normalize(u)
  {
  }
}

=== FILE: category_fetch.dfy ===
/** One page of a category (api/user/categoryFetch.js) and the
    infinite-scroll client that asks for the pages in turn
    (public/js/categoryScript.js). The case-insensitive `$regex` of the
    category is a predicate on books; for a category without regular
    expression metacharacters it is case-insensitive containment. */
module CategoryFetch {
  import opened Strings
  import opened Schemas
  import opened Sorting
  import opened Rows
  import opened ActivityLog

  /** `parseInt(x) || d`: NaN and 0 both give the default. */
  function ParseOr(p: Param, d: int): (r: int)
    ensures p.Given? && p.parsed.Some? && p.parsed.value != 0 ==> r == p.parsed.value
    ensures !(p.Given? && p.parsed.Some? && p.parsed.value != 0) ==> r == d
  {
    if p.Given? && p.parsed.Some? && p.parsed.value != 0 then p.parsed.value else d
  }

  /** The characters a `$regex` pattern gives a meaning to. */
  const RegexMeta: set<char> := {'\\', '^', '$', '.', '|', '?', '*', '+', '(', ')', '[', ']', '{', '}'}

  predicate Literal(pattern: string) {
    forall i :: 0 <= i < |pattern| ==> pattern[i] !in RegexMeta
  }

  /** What `{ $regex: pattern, $options: 'i' }` selects when the pattern is
      literal. */
  ghost predicate LiteralRegex(pattern: string, regex: Book -> bool) {
    Literal(pattern)
    ==> forall b: Book :: regex(b) <==> b.category.Some? && Contains(ToLower(b.category.value), ToLower(pattern))
  }

  datatype FetchReply =
    | Fetched(books: seq<Book>, total: nat)
    | FetchFailed                             // 500: a negative skip

  /** The wildcard test as written: only '%' selects everything. */
  predicate WildcardAsWritten(category: Option<string>) {
    category == Some("%")
  }

  /** The wildcard test as the clients use it: they send '%%' for "all
      categories" (the home page list and the "Random" header). */
  predicate Wildcard(category: Option<string>) {
    category == Some("%") || category == Some("%%")
  }

  /** The books a category selects, with a given wildcard test. */
  function Selected(books: seq<Book>, wildcard: bool, regex: Book -> bool): (r: seq<Book>)
    ensures wildcard ==> r == books
    ensures !wildcard ==> r == Filter(books, regex)
  {
    if wildcard then books else Filter(books, regex)
  }

  /** categoryFetch with a given wildcard test: `showAll === 'true'` returns
      every match; otherwise skip `offset` (default 0) and take `limit`
      (default 10; a negative limit counts as its absolute value). */
  function CategoryPage(books: seq<Book>, wildcard: bool, regex: Book -> bool,
                        offset: Param, limit: Param, showAll: Option<string>): (r: FetchReply)
    ensures r.FetchFailed? <==> showAll != Some("true") && ParseOr(offset, 0) < 0
    ensures r.Fetched? ==> r.total == |Selected(books, wildcard, regex)| && |r.books| <= r.total
    ensures r.Fetched? && showAll == Some("true") ==> r.books == Selected(books, wildcard, regex)
    ensures r.Fetched? && showAll != Some("true") ==>
              r.books == Window(Selected(books, wildcard, regex), ParseOr(offset, 0), Abs(ParseOr(limit, 10)))
  {
    var m := Selected(books, wildcard, regex);
    if showAll == Some("true") then Fetched(m, |m|)
    else
      var o := ParseOr(offset, 0);
      if o < 0 then FetchFailed
      else Fetched(Window(m, o, Abs(ParseOr(limit, 10))), |m|)
  }

  /** The handler as written. */
  function CategoryFetchAsWritten(books: seq<Book>, category: Option<string>, regex: Book -> bool,
                                  offset: Param, limit: Param, showAll: Option<string>): (r: FetchReply)
    ensures category == Some("%") ==> r == CategoryPage(books, true, regex, offset, limit, showAll)
    ensures category != Some("%") ==> r == CategoryPage(books, false, regex, offset, limit, showAll)
  {
    CategoryPage(books, WildcardAsWritten(category), regex, offset, limit, showAll)
  }

  /** The handler with the wildcard the clients send. */
  function CategoryFetch(books: seq<Book>, category: Option<string>, regex: Book -> bool,
                         offset: Param, limit: Param, showAll: Option<string>): (r: FetchReply)
    ensures Wildcard(category) ==> r == CategoryPage(books, true, regex, offset, limit, showAll)
    ensures !Wildcard(category) ==> r == CategoryPage(books, false, regex, offset, limit, showAll)
  {
    CategoryPage(books, Wildcard(category), regex, offset, limit, showAll)
  }

  /** As written, the clients' '%%' is a literal pattern: a catalogue with
      no '%' in any category yields nothing at all. */
  lemma DoublePercentSelectsNothing(books: seq<Book>, regex: Book -> bool, showAll: Option<string>)
    requires LiteralRegex("%%", regex)
    requires forall i :: 0 <= i < |books| ==> books[i].category.None? || '%' !in books[i].category.value
    ensures CategoryFetchAsWritten(books, Some("%%"), regex, Absent, Absent, showAll) == Fetched([], 0)
  {
    NoPercentNoMatch(books, regex);
  }

  /** The literal pattern '%%' matches no category without a '%'. */
  lemma NoPercentNoMatch(books: seq<Book>, regex: Book -> bool)
    requires LiteralRegex("%%", regex)
    requires forall i :: 0 <= i < |books| ==> books[i].category.None? || '%' !in books[i].category.value
    ensures Filter(books, regex) == []
  {
    assert Literal("%%");
    forall i | 0 <= i < |books| ensures !regex(books[i]) {
      if books[i].category.Some? {
        NoPercentNoDouble(books[i].category.value);
      }
    }
    assert |Filter(books, regex)| == 0;
  }

  lemma NoPercentNoDouble(c: string)
    requires '%' !in c
    ensures !Contains(ToLower(c), ToLower("%%"))
  {
    var l := ToLower(c);
    assert '%' !in l by {
      forall j | 0 <= j < |l| ensures l[j] != '%' {
        assert l[j] == LowerChar(c[j]);
      }
    }
    assert ToLower("%%") == "%%";
    forall k | 0 <= k && k + 2 <= |l| ensures !OccursAt(l, "%%", k) {
      assert l[k..k + 2][0] == l[k] != '%';
    }
  }

  /** With the intended test, '%%' selects every book, page by page. */
  lemma DoublePercentSelectsAll(books: seq<Book>, regex: Book -> bool)
    ensures CategoryFetch(books, Some("%%"), regex, Absent, Absent, Some("true")) == Fetched(books, |books|)
    ensures CategoryFetch(books, Some("%%"), regex, Absent, Absent, None)
            == Fetched(Window(books, 0, 10), |books|)
  {
  }

  /** The total does not depend on the page asked for. */
  lemma TotalIndependentOfPage(books: seq<Book>, category: Option<string>, regex: Book -> bool,
                               o1: Param, l1: Param, o2: Param, l2: Param)
    requires ParseOr(o1, 0) >= 0 && ParseOr(o2, 0) >= 0
    ensures CategoryFetch(books, category, regex, o1, l1, None).total
            == CategoryFetch(books, category, regex, o2, l2, None).total
            == CategoryFetch(books, category, regex, Absent, Absent, Some("true")).total
  {
  }

  // ---------------------------------------------------------------------
  // The scroll client

  /** The page's module state: the next offset, the in-flight flag, whether
      the scroll handler is still registered, and the books shown. */
  datatype Scroll = Scroll(offset: int, isFetching: bool, listening: bool, shown: seq<Book>)

  const InitialScroll: Scroll := Scroll(0, false, true, [])

  /** The category a fetch sends: the stored one, null printed as "null". */
  function StoredText(stored: Option<string>): string {
    if stored.Some? then stored.value else "null"
  }

  /** The outcome of the request as the client sees it. */
  datatype Response = Ok(books: seq<Book>, total: nat) | NotOk

  function ResponseOf(r: FetchReply): Response {
    if r.Fetched? then Ok(r.books, r.total) else NotOk
  }

  /** fetchCategories: a call while a fetch is in flight does nothing;
      otherwise a good response appends its books and moves the offset on
      by 10 whatever their number, and the handler is removed once the
      offset reaches the total; a failure changes nothing but the flag. */
  function FetchStep(s: Scroll, response: Response): (r: Scroll)
    ensures s.isFetching ==> r == s
    ensures !s.isFetching ==> !r.isFetching
    ensures !s.isFetching && response.NotOk? ==> r == s
    ensures !s.isFetching && response.Ok? ==>
              r.offset == s.offset + 10 && r.shown == s.shown + response.books
              && r.listening == (s.listening && r.offset < response.total)
  {
    if s.isFetching then s
    else match response
      case NotOk => s.(isFetching := false)
      case Ok(books, total) =>
        var offset := s.offset + 10;
        Scroll(offset, false, s.listening && !(offset >= total), s.shown + books)
  }

  /** `n` scroll-triggered fetches against a catalogue that does not
      change; the request carries the stored category and the current
      offset, and no limit. `wild` is the server's wildcard test:
      `WildcardAsWritten` for the handler as written (`CategoryFetchAsWritten`),
      `Wildcard` for the corrected one (`CategoryFetch`). */
  function Scrolled(books: seq<Book>, stored: Option<string>, regex: Book -> bool,
                    wild: Option<string> -> bool, n: nat): (r: Scroll)
    ensures !r.isFetching && r.offset >= 0
  {
    if n == 0 then InitialScroll
    else
      var s := Scrolled(books, stored, regex, wild, n - 1);
      var reply := CategoryPage(books, wild(Some(StoredText(stored))), regex, Given(Some(s.offset)), Absent, None);
      FetchStep(s, ResponseOf(reply))
  }

  /** One good fetch at offset `a` extends the shown prefix by the next
      window. */
  lemma ScrollStep(m: seq<Book>, p: Scroll, a: nat)
    requires !p.isFetching && p.offset == a && p.shown == m[..Min(a, |m|)]
    ensures var r := FetchStep(p, Ok(Window(m, a, 10), |m|));
            r.offset == a + 10 && r.shown == m[..Min(a + 10, |m|)] && !r.isFetching
            && r.listening == (p.listening && a + 10 < |m|)
  {
    assert m[..Min(a, |m|)] + Window(m, a, 10) == m[..Min(a + 10, |m|)];
  }

  /** The scroll client's request at offset `a` returns the next window of
      the matching books and their total, under either wildcard test. */
  lemma ScrollReply(books: seq<Book>, stored: Option<string>, regex: Book -> bool, a: nat)
    ensures var m := Selected(books, Wildcard(Some(StoredText(stored))), regex);
            CategoryFetch(books, Some(StoredText(stored)), regex, Given(Some(a)), Absent, None)
            == Fetched(Window(m, a, 10), |m|)
    ensures var m := Selected(books, WildcardAsWritten(Some(StoredText(stored))), regex);
            CategoryFetchAsWritten(books, Some(StoredText(stored)), regex, Given(Some(a)), Absent, None)
            == Fetched(Window(m, a, 10), |m|)
  {
    assert ParseOr(Given(Some(a)), 0) == a;
  }

  /** One more scroll-triggered fetch is one step on the next window. */
  lemma ScrolledUnfold(books: seq<Book>, stored: Option<string>, regex: Book -> bool,
                       wild: Option<string> -> bool, n: nat)
    requires n > 0
    ensures var p := Scrolled(books, stored, regex, wild, n - 1);
            var m := Matching(books, stored, regex, wild);
            Scrolled(books, stored, regex, wild, n) == FetchStep(p, Ok(Window(m, p.offset, 10), |m|))
  {
    var p := Scrolled(books, stored, regex, wild, n - 1);
    assert ParseOr(Given(Some(p.offset)), 0) == p.offset;
  }

  /** The books the scroll client asks for: the matches of the stored
      category under the server's wildcard test. */
  function Matching(books: seq<Book>, stored: Option<string>, regex: Book -> bool,
                    wild: Option<string> -> bool): (m: seq<Book>)
    ensures wild(Some(StoredText(stored))) ==> m == books
    ensures !wild(Some(StoredText(stored))) ==> m == Filter(books, regex)
  {
    Selected(books, wild(Some(StoredText(stored))), regex)
  }

  /** The page after `n` fetches shows the first 10·n books of `m`, and
      still listens exactly while some are missing. */
  predicate ShowsPrefix(s: Scroll, m: seq<Book>, n: nat) {
    s.offset == 10 * n && s.shown == m[..Min(10 * n, |m|)]
    && (n > 0 ==> (s.listening <==> 10 * n < |m|))
  }

  /** The prefix shown after one more good fetch. */
  lemma PrefixStep(m: seq<Book>, p: Scroll, s: Scroll, n: nat)
    requires n > 0 && !p.isFetching && ShowsPrefix(p, m, n - 1)
    requires n == 1 ==> p.listening
    requires s == FetchStep(p, Ok(Window(m, p.offset, 10), |m|))
    ensures ShowsPrefix(s, m, n)
  {
    ScrollStep(m, p, 10 * (n - 1));
  }

  /** One more fetch keeps the shown prefix in step with the offset. */
  lemma ScrolledStep(books: seq<Book>, stored: Option<string>, regex: Book -> bool,
                     wild: Option<string> -> bool, n: nat)
    requires n > 0
    requires ShowsPrefix(Scrolled(books, stored, regex, wild, n - 1), Matching(books, stored, regex, wild), n - 1)
    ensures ShowsPrefix(Scrolled(books, stored, regex, wild, n), Matching(books, stored, regex, wild), n)
  {
    var p := Scrolled(books, stored, regex, wild, n - 1);
    ScrolledUnfold(books, stored, regex, wild, n);
    if n == 1 {
      assert p == InitialScroll;
    }
    PrefixStep(Matching(books, stored, regex, wild), p, Scrolled(books, stored, regex, wild, n), n);
  }

  /** After `n` fetches the page shows the first 10·n matching books, in
      order, and the handler is gone exactly when they are all shown. */
  lemma {:induction false} ScrollShowsPrefix(books: seq<Book>, stored: Option<string>, regex: Book -> bool,
                                             wild: Option<string> -> bool, n: nat)
    ensures ShowsPrefix(Scrolled(books, stored, regex, wild, n), Matching(books, stored, regex, wild), n)
  {
    if n == 0 {
      assert Matching(books, stored, regex, wild)[..0] == [];
    } else {
      ScrollShowsPrefix(books, stored, regex, wild, n - 1);
      ScrolledStep(books, stored, regex, wild, n);
    }
  }

  /** Against the handler as written, the "Random" page (stored '%%') of a
      catalogue with no '%' in any category never shows a book, and its
      scroll handler is removed after the first fetch. With the corrected
      test the same page shows the first 10·n books of the catalogue. */
  lemma RandomPageAsWritten(books: seq<Book>, regex: Book -> bool, n: nat)
    requires LiteralRegex("%%", regex)
    requires forall i :: 0 <= i < |books| ==> books[i].category.None? || '%' !in books[i].category.value
    ensures var s := Scrolled(books, Some("%%"), regex, WildcardAsWritten, n);
            s.shown == [] && (n > 0 ==> !s.listening)
    ensures Scrolled(books, Some("%%"), regex, Wildcard, n).shown == books[..Min(10 * n, |books|)]
  {
    ScrollShowsPrefix(books, Some("%%"), regex, WildcardAsWritten, n);
    ScrollShowsPrefix(books, Some("%%"), regex, Wildcard, n);
    NoPercentNoMatch(books, regex);
    assert Matching(books, Some("%%"), regex, WildcardAsWritten) == [];
  }

  /** The header: 'Random' for the stored '%%', the stored category
      otherwise (null shows as empty). */
  function Header(stored: Option<string>): (h: string)
    ensures h == "Random" <==> stored == Some("%%") || stored == Some("Random")
    ensures stored.Some? && stored != Some("%%") ==> h == stored.value
  {
    if stored == Some("%%") then "Random" else if stored.Some? then stored.value else ""
  }
}

=== FILE: category_stats.dfy ===
/** Category statistics of the catalogue (apis/user/categoryStats.js): the
    summary over the groups the aggregation returns, and the details of one
    category. Prices (averages, minima, maxima, `toFixed`) are floating
    point and are not modelled; the average books per category is kept as
    the exact fraction it rounds. */
module CategoryStats {
  import opened Strings
  import opened Schemas
  import opened Sorting
  import opened Rows
  import opened ActivityLog

  /** One `$group` result: the category value (null when absent) and the
      number of books in it. */
  datatype Group = Group(key: Option<string>, count: nat)

  datatype Formatted = Formatted(name: string, bookCount: nat, isEmpty: bool)

  /** `average_books_per_category`: 0, or total_books / total_categories. */
  datatype Average = NoAverage | Ratio(books: nat, categories: nat)

  datatype Summary = Summary(totalCategories: nat, emptyCategories: nat, populatedCategories: int,
                             totalBooks: nat, average: Average)

  /** A null or empty key is shown as 'Uncategorized'. */
  function Format(g: Group): (f: Formatted)
    ensures f.bookCount == g.count
    ensures f.isEmpty <==> g.count == 0
    ensures f.name == "Uncategorized" <==> g.key.None? || g.key.value == "" || g.key.value == "Uncategorized"
  {
    Formatted(if g.key.Some? && g.key.value != "" then g.key.value else "Uncategorized", g.count, g.count == 0)
  }

  function FormatAll(gs: seq<Group>): (r: seq<Formatted>)
    ensures |r| == |gs|
    ensures forall i :: 0 <= i < |gs| ==> r[i] == Format(gs[i])
  {
    seq(|gs|, i requires 0 <= i < |gs| => Format(gs[i]))
  }

  /** `reduce((sum, cat) => sum + cat.book_count, 0)` */
  function SumCounts(fs: seq<Formatted>): nat {
    if |fs| == 0 then 0 else SumCounts(fs[..|fs| - 1]) + fs[|fs| - 1].bookCount
  }

  /** The book counts of the groups, added up group by group. */
  function GroupTotal(gs: seq<Group>): nat {
    if |gs| == 0 then 0 else gs[0].count + GroupTotal(gs[1..])
  }

  function IsEmptyCategory(f: Formatted): bool {
    f.isEmpty
  }

  function IsPopulated(f: Formatted): bool {
    !f.isEmpty
  }

  /** getCategoryStats */
  function CategoryStats(gs: seq<Group>): (r: (seq<Formatted>, Summary))
    ensures r.0 == FormatAll(gs)
    ensures r.1.totalCategories == |gs|
    ensures r.1.emptyCategories <= r.1.totalCategories
    ensures r.1.populatedCategories == r.1.totalCategories - r.1.emptyCategories >= 0
    ensures r.1.emptyCategories == Count(r.0, IsEmptyCategory)
    ensures r.1.totalBooks == SumCounts(r.0)
    ensures r.1.average == (if |gs| > 0 then Ratio(r.1.totalBooks, |gs|) else NoAverage)
  {
    var fs := FormatAll(gs);
    var empty := Count(fs, IsEmptyCategory);
    var total := SumCounts(fs);
    (fs, Summary(|fs|, empty, |fs| - empty, total, if |fs| > 0 then Ratio(total, |fs|) else NoAverage))
  }

  lemma {:induction false} CountComplement(fs: seq<Formatted>)
    ensures Count(fs, IsEmptyCategory) + Count(fs, IsPopulated) == |fs|
  {
    if |fs| > 0 {
      CountComplement(fs[1..]);
    }
  }

  /** The populated count is the number of categories with at least one
      book. */
  lemma PopulatedCountsBooks(gs: seq<Group>)
    ensures CategoryStats(gs).1.populatedCategories == Count(FormatAll(gs), IsPopulated)
  {
    CountComplement(FormatAll(gs));
  }

  lemma {:induction false} SumCountsCons(f: Formatted, fs: seq<Formatted>)
    ensures SumCounts([f] + fs) == f.bookCount + SumCounts(fs)
  {
    if |fs| > 0 {
      assert ([f] + fs)[..|fs|] == [f] + fs[..|fs| - 1];
      SumCountsCons(f, fs[..|fs| - 1]);
    } else {
      assert ([f] + fs)[..0] == [];
    }
  }

  /** The left-to-right reduction agrees with adding up the groups. */
  lemma {:induction false} TotalBooksIsGroupTotal(gs: seq<Group>)
    ensures CategoryStats(gs).1.totalBooks == GroupTotal(gs)
  {
    if |gs| > 0 {
      TotalBooksIsGroupTotal(gs[1..]);
      assert FormatAll(gs) == [Format(gs[0])] + FormatAll(gs[1..]);
      SumCountsCons(Format(gs[0]), FormatAll(gs[1..]));
    }
  }

  /** Groups produced by `$group` hold one book at least, so none is
      empty and every category is populated. */
  lemma GroupsFromBooksArePopulated(gs: seq<Group>)
    requires forall i :: 0 <= i < |gs| ==> gs[i].count >= 1
    ensures CategoryStats(gs).1.emptyCategories == 0
    ensures CategoryStats(gs).1.populatedCategories == |gs|
  {
  }

  // ---------------------------------------------------------------------
  // One category

  function Author(b: Book): Option<string> {
    b.author
  }

  function DateAdded(b: Book): int {
    b.dateAdded
  }

  /** The values of a sequence, first occurrences only. */
  function Distinct(s: seq<Option<string>>): (r: seq<Option<string>>)
    ensures forall i, j :: 0 <= i < j < |r| ==> r[i] != r[j]
    ensures forall x :: x in r <==> x in s
    ensures |r| <= |s|
  {
    if |s| == 0 then []
    else
      var rest := Distinct(s[..|s| - 1]);
      if s[|s| - 1] in rest then rest else rest + [s[|s| - 1]]
  }

  function AuthorsOf(books: seq<Book>): (r: seq<Option<string>>)
    ensures |r| == |books|
    ensures forall i :: 0 <= i < |books| ==> r[i] == books[i].author
  {
    seq(|books|, i requires 0 <= i < |books| => books[i].author)
  }

  /** One row of `top_authors`. */
  datatype AuthorCount = AuthorCount(author: Option<string>, bookCount: nat)

  function BookCount(a: AuthorCount): int {
    a.bookCount
  }

  function ByAuthor(a: Option<string>): Book -> bool {
    (b: Book) => b.author == a
  }

  function CountsOf(books: seq<Book>, authors: seq<Option<string>>): (r: seq<AuthorCount>)
    ensures |r| == |authors|
    ensures forall i :: 0 <= i < |authors| ==> r[i] == AuthorCount(authors[i], Count(books, ByAuthor(authors[i])))
  {
    seq(|authors|, i requires 0 <= i < |authors| => AuthorCount(authors[i], Count(books, ByAuthor(authors[i]))))
  }

  /** `$group` by author, `$sort` by count descending, `$limit 10`; ties
      keep one of their orders. */
  function TopAuthors(matched: seq<Book>): (r: seq<AuthorCount>)
    ensures |r| == Min(10, |Distinct(AuthorsOf(matched))|)
    ensures SortedDesc(r, BookCount)
    ensures forall i :: 0 <= i < |r| ==> r[i].author in AuthorsOf(matched)
    ensures forall i :: 0 <= i < |r| ==> r[i].bookCount == Count(matched, ByAuthor(r[i].author)) >= 1
    ensures forall i, j :: 0 <= i < j < |r| ==> r[i].author != r[j].author
  {
    var sorted := SortDesc(AuthorCounts(matched), BookCount);
    WindowSorted(sorted, BookCount, 0, 10);
    var r := Window(sorted, 0, 10);
    TopRowsCounted(matched, r);
    TopRowsDiffer(matched, r);
    r
  }

  lemma TopRowsCounted(matched: seq<Book>, r: seq<AuthorCount>)
    requires r == Window(SortDesc(AuthorCounts(matched), BookCount), 0, 10)
    ensures forall i :: 0 <= i < |r| ==>
              r[i].author in AuthorsOf(matched) && r[i].bookCount == Count(matched, ByAuthor(r[i].author)) >= 1
  {
    var sorted := SortDesc(AuthorCounts(matched), BookCount);
    forall i | 0 <= i < |r|
      ensures r[i].author in AuthorsOf(matched) && r[i].bookCount == Count(matched, ByAuthor(r[i].author)) >= 1
    {
      assert r[i] == sorted[i] && sorted[i] in multiset(AuthorCounts(matched));
      CountedAuthor(matched, r[i]);
    }
  }

  lemma TopRowsDiffer(matched: seq<Book>, r: seq<AuthorCount>)
    requires r == Window(SortDesc(AuthorCounts(matched), BookCount), 0, 10)
    ensures forall i, j :: 0 <= i < j < |r| ==> r[i].author != r[j].author
  {
    forall i, j | 0 <= i < j < |r| ensures r[i].author != r[j].author {
      SortedAuthorsDiffer(matched, i, j);
    }
  }

  /** No author has two rows once the grouped rows are sorted. */
  lemma SortedAuthorsDiffer(matched: seq<Book>, i: nat, j: nat)
    requires i < j < |SortDesc(AuthorCounts(matched), BookCount)|
    ensures SortDesc(AuthorCounts(matched), BookCount)[i].author != SortDesc(AuthorCounts(matched), BookCount)[j].author
  {
    var sorted := SortDesc(AuthorCounts(matched), BookCount);
    if sorted[i].author == sorted[j].author {
      assert sorted[i] in multiset(AuthorCounts(matched)) && sorted[j] in multiset(AuthorCounts(matched));
      CountedAuthor(matched, sorted[i]);
      CountedAuthor(matched, sorted[j]);
      assert sorted[i] == sorted[j];
      RepeatCountsTwice(sorted, i, j);
      AuthorCountsOnce(matched, sorted[i]);
      assert false;
    }
  }

  /** One row per distinct author, with that author's number of books. */
  function AuthorCounts(matched: seq<Book>): (r: seq<AuthorCount>)
    ensures r == CountsOf(matched, Distinct(AuthorsOf(matched)))
  {
    CountsOf(matched, Distinct(AuthorsOf(matched)))
  }

  lemma CountedAuthor(matched: seq<Book>, x: AuthorCount)
    requires x in multiset(AuthorCounts(matched))
    ensures x.author in AuthorsOf(matched) && x.bookCount == Count(matched, ByAuthor(x.author)) >= 1
  {
    var all := AuthorCounts(matched);
    var j :| 0 <= j < |all| && all[j] == x;
    var names := AuthorsOf(matched);
    assert x.author == Distinct(names)[j];
    assert x.author in names;
    var k :| 0 <= k < |names| && names[k] == x.author;
    assert ByAuthor(x.author)(matched[k]);
  }

  /** Each author's row occurs once among the grouped rows. */
  lemma AuthorCountsOnce(matched: seq<Book>, x: AuthorCount)
    ensures multiset(AuthorCounts(matched))[x] <= 1
  {
    var all := AuthorCounts(matched);
    var d := Distinct(AuthorsOf(matched));
    forall i, j | 0 <= i < j < |all| ensures all[i] != all[j] {
      assert all[i].author == d[i] && all[j].author == d[j];
    }
    OnceEach(all, x);
  }

  lemma {:induction false} OnceEach<T>(s: seq<T>, x: T)
    requires forall i, j :: 0 <= i < j < |s| ==> s[i] != s[j]
    ensures multiset(s)[x] <= 1
  {
    if |s| > 0 {
      assert s == [s[0]] + s[1..];
      OnceEach(s[1..], x);
      if s[0] == x {
        assert x !in s[1..];
      }
    }
  }

  lemma RepeatCountsTwice<T>(s: seq<T>, i: nat, j: nat)
    requires i < j < |s| && s[i] == s[j]
    ensures multiset(s)[s[i]] >= 2
  {
    assert s == s[..j] + s[j..];
    assert s[i] == s[..j][i];
    assert s[j] == s[j..][0];
    assert multiset(s) == multiset(s[..j]) + multiset(s[j..]);
  }

  /** An author left out of the top ten has no more books than the tenth:
      the list is cut at ten only after every author was counted. */
  lemma TopAuthorsAreTop(matched: seq<Book>, a: Option<string>)
    requires a in AuthorsOf(matched)
    requires forall i :: 0 <= i < |TopAuthors(matched)| ==> TopAuthors(matched)[i].author != a
    ensures |TopAuthors(matched)| == 10 < |Distinct(AuthorsOf(matched))|
    ensures Count(matched, ByAuthor(a)) <= TopAuthors(matched)[9].bookCount
  {
    var d := Distinct(AuthorsOf(matched));
    var all := AuthorCounts(matched);
    var sorted := SortDesc(all, BookCount);
    var j :| 0 <= j < |d| && d[j] == a;
    var x := all[j];
    assert x.author == a && x.bookCount == Count(matched, ByAuthor(a));
    assert x in multiset(sorted) by { assert x in multiset(all); }
    var k :| 0 <= k < |sorted| && sorted[k] == x;
    var r := TopAuthors(matched);
    assert r == Window(sorted, 0, 10);
    forall i | 0 <= i < |sorted| && i < 10 ensures sorted[i].author != a {
      assert r[i] == sorted[i];
    }
    CutBelowTenth(sorted, k);
  }

  /** A sorted row outside the first ten comes after ten rows that are
      counted at least as high. */
  lemma CutBelowTenth(sorted: seq<AuthorCount>, k: nat)
    requires SortedDesc(sorted, BookCount) && k < |sorted|
    requires forall i :: 0 <= i < |sorted| && i < 10 ==> sorted[i].author != sorted[k].author
    ensures |Window(sorted, 0, 10)| == 10 < |sorted|
    ensures sorted[k].bookCount <= Window(sorted, 0, 10)[9].bookCount
  {
    var own := sorted[k];
    assert 10 <= k;
    assert BookCount(sorted[9]) >= BookCount(own);
  }

  /** Every author is listed when there are ten or fewer. */
  lemma FewAuthorsAllListed(matched: seq<Book>, a: Option<string>)
    requires a in AuthorsOf(matched)
    requires |Distinct(AuthorsOf(matched))| <= 10
    ensures exists i :: 0 <= i < |TopAuthors(matched)| && TopAuthors(matched)[i].author == a
  {
    var r := TopAuthors(matched);
    if !exists i :: 0 <= i < |r| && r[i].author == a {
      TopAuthorsAreTop(matched, a);
    }
  }

  /** `statistics` of one category (prices left out). */
  datatype Statistics = Statistics(category: string, bookCount: nat, uniqueAuthors: nat, isEmpty: bool)

  /** The fields `.select('_id title author image price dateAdded')` keeps
      of a recent book (books carry no document id in this model). */
  datatype RecentBook = RecentBook(title: Option<string>, author: Option<string>, image: Option<string>,
                                   price: int, dateAdded: int)

  function Recent(b: Book): RecentBook {
    RecentBook(b.title, b.author, b.image, b.price, b.dateAdded)
  }

  datatype DetailsReply =
    | CategoryRequired                 // 400
    | DetailsFailed                    // 500: a refused skip
    | Details(statistics: Statistics, recentBooks: seq<RecentBook>, topAuthors: seq<AuthorCount>)

  /** The distinct authors `$addToSet` collects: missing authors are not
      added. */
  function UniqueAuthors(matched: seq<Book>): (r: set<string>)
    ensures forall a :: a in r <==> Some(a) in AuthorsOf(matched)
  {
    set i | 0 <= i < |matched| && matched[i].author.Some? :: matched[i].author.value
  }

  /** The newest of the matched books, newest first, then skipped and
      limited. */
  function Newest(matched: seq<Book>, skip: nat, take: nat): (r: seq<Book>)
    ensures SortedDesc(r, DateAdded)
    ensures |r| == Min(take, |matched| - Min(skip, |matched|))
    ensures multiset(r) <= multiset(matched)
  {
    var newest := SortDesc(matched, DateAdded);
    WindowSorted(newest, DateAdded, skip, take);
    var r := Window(newest, skip, take);
    WindowWithin(newest, skip, take);
    r
  }

  lemma WindowWithin<T>(s: seq<T>, offset: nat, limit: nat)
    ensures multiset(Window(s, offset, limit)) <= multiset(s)
  {
    var a := Min(offset, |s|);
    var b := Min(a + limit, |s|);
    assert Window(s, offset, limit) == s[a..b];
    assert s == s[..a] + s[a..b] + s[b..];
  }

  /** Taking every book from the start gives back all the matched books. */
  lemma NewestHoldsAll(matched: seq<Book>)
    ensures multiset(Newest(matched, 0, |matched|)) == multiset(matched)
  {
    assert Window(SortDesc(matched, DateAdded), 0, |matched|) == SortDesc(matched, DateAdded);
  }

  /** Consecutive pages of recent books make up the longer page when no
      two different matches share a `dateAdded`. Each page is its own
      query, and each may order books of equal date its own way (`first`,
      `second`); without such ties every order is the model's. */
  lemma NewestPagesJoin(matched: seq<Book>, skip: nat, a: nat, b: nat, first: seq<Book>, second: seq<Book>)
    requires TiesIdentical(matched, DateAdded)
    requires OrderOf(first, matched, DateAdded) && OrderOf(second, matched, DateAdded)
    ensures Window(first, skip, a) + Window(second, skip + a, b) == Newest(matched, skip, a + b)
  {
    var t := SortDesc(matched, DateAdded);
    OrdersAgree(first, t, matched, DateAdded);
    OrdersAgree(second, t, matched, DateAdded);
    WindowJoin(t, skip, a, b);
  }

  /** Every book a page skips is at least as new as every book it shows. */
  lemma SkippedAreNewer(matched: seq<Book>, skip: nat, take: nat, i: nat, j: nat)
    requires i < |Newest(matched, 0, skip)| && j < |Newest(matched, skip, take)|
    ensures DateAdded(Newest(matched, 0, skip)[i]) >= DateAdded(Newest(matched, skip, take)[j])
  {
    var t := SortDesc(matched, DateAdded);
    assert Newest(matched, 0, skip)[i] == t[i];
    assert Newest(matched, skip, take)[j] == t[skip + j];
  }

  /** getCategoryDetails: `regex` is the case-insensitive `$regex` match
      of the category; the recent books are newest first, then skipped and
      limited (defaults 0 and 10) with the document store's rules. */
  function CategoryDetails(books: seq<Book>, category: Option<string>, limit: Param, offset: Param,
                           regex: Book -> bool): (r: DetailsReply)
    ensures r == CategoryRequired <==> !(category.Some? && category.value != "")
    ensures r == DetailsFailed <==>
              category.Some? && category.value != ""
              && (ParamOr(limit, 10).None? || ParamOr(offset, 0).None? || ParamOr(offset, 0).value < 0)
    ensures r.Details? ==>
              var matched := Filter(books, regex);
              r.statistics.category == category.value
              && r.statistics.bookCount == |matched|
              && (r.statistics.isEmpty <==> |matched| == 0)
              && r.statistics.uniqueAuthors == |UniqueAuthors(matched)|
              && r.recentBooks == Project(Newest(matched, ParamOr(offset, 0).value,
                                                 if ParamOr(limit, 10).value == 0 then |matched| else Abs(ParamOr(limit, 10).value)),
                                          Recent)
              && (forall i :: 0 <= i < |r.recentBooks| ==>
                    exists b :: b in books && regex(b) && r.recentBooks[i] == Recent(b))
              && r.topAuthors == TopAuthors(matched)
  {
    if !(category.Some? && category.value != "") then CategoryRequired
    else
      var l := ParamOr(limit, 10);
      var o := ParamOr(offset, 0);
      if l.None? || o.None? || o.value < 0 then DetailsFailed
      else
        var matched := Filter(books, regex);
        var take := if l.value == 0 then |matched| else Abs(l.value);
        var recent := Newest(matched, o.value, take);
        RecentAreMatches(books, regex, recent);
        var n := |matched|;
        Details(Statistics(category.value, n, |UniqueAuthors(matched)|, n == 0), Project(recent, Recent), TopAuthors(matched))
  }

  /** Each recent book shows the fields of a book the category matches. */
  lemma RecentAreMatches(books: seq<Book>, regex: Book -> bool, recent: seq<Book>)
    requires multiset(recent) <= multiset(Filter(books, regex))
    ensures forall i :: 0 <= i < |Project(recent, Recent)| ==>
              exists b :: b in books && regex(b) && Project(recent, Recent)[i] == Recent(b)
  {
    var matched := Filter(books, regex);
    var p := Project(recent, Recent);
    forall i | 0 <= i < |p| ensures exists b :: b in books && regex(b) && p[i] == Recent(b) {
      assert recent[i] in multiset(matched);
      var k :| 0 <= k < |matched| && matched[k] == recent[i];
      assert matched[k] in books && regex(matched[k]);
      assert p[i] == Recent(matched[k]);
    }
  }

  /** A category nothing matches reports the zero statistics the handler
      falls back to. */
  lemma NoMatchZeroStats(books: seq<Book>, category: string, regex: Book -> bool)
    requires category != ""
    requires forall i :: 0 <= i < |books| ==> !regex(books[i])
    ensures var r := CategoryDetails(books, Some(category), Absent, Absent, regex);
            r.Details? && r.statistics == Statistics(category, 0, 0, true)
            && r.recentBooks == [] && r.topAuthors == []
  {
    var matched := Filter(books, regex);
    assert |matched| == 0;
    assert UniqueAuthors(matched) == {};
  }
}

=== FILE: details_page.dfy ===
/** The book details page (public/js/details.js): the title and price
    labels it renders and parses back, which of the two buttons it hides,
    and what the two buttons leave in session storage. The page's storage
    is a map from keys to the strings `setItem` stores. */
module DetailsPage {
  import opened Strings
  import opened ProfileRules
  import BookUrl

  const TitlePrefix: string := "Title: "
  const Cedi: string := "\U{20B5}"

  /** `Title: ${title}` */
  function TitleLabel(title: Option<string>): string {
    TitlePrefix + JsText(title)
  }

  /** `₵${price}.00`, with the price as it prints. */
  function PriceLabel(price: string): string {
    Cedi + price + ".00"
  }

  /** `innerText.replace("Title: ", "")` */
  function ParseTitle(text: string): string {
    ReplaceFirst(text, TitlePrefix, "")
  }

  /** `innerText.replace("₵", "").replace(".00", "")` */
  function ParsePrice(text: string): string {
    ReplaceFirst(ReplaceFirst(text, Cedi, ""), ".00", "")
  }

  lemma ReplacePrefix(p: string, s: string)
    requires |p| > 0
    ensures ReplaceFirst(p + s, p, "") == s
  {
    assert OccursAt(p + s, p, 0) by {
      assert (p + s)[0..|p|] == p;
    }
    assert (p + s)[|p|..] == s;
  }

  /** The title label parses back to the title it shows. */
  lemma TitleRoundTrip(title: string)
    ensures ParseTitle(TitleLabel(Some(title))) == title
  {
    ReplacePrefix(TitlePrefix, title);
  }

  lemma FirstDotZeroZero(p: string)
    requires !Contains(p, ".00")
    ensures IndexOf(p + ".00", ".00") == Some(|p|)
  {
    var s := p + ".00";
    assert OccursAt(s, ".00", |p|) by {
      assert s[|p|..|p| + 3] == ".00";
    }
    assert IndexOf(p, ".00").None?;
    forall j | 0 <= j < |p| ensures !OccursAt(s, ".00", j) {
      if j + 3 <= |p| {
        assert s[j..j + 3] == p[j..j + 3];
        assert !OccursAt(p, ".00", j);
      } else if j == |p| - 1 {
        assert s[j + 1] == '.';
      } else {
        assert s[j + 2] == '.';
      }
    }
  }

  /** The price label parses back to the price when the price text holds
      no ".00" of its own. */
  lemma PriceRoundTrip(price: string)
    requires !Contains(price, ".00")
    ensures ParsePrice(PriceLabel(price)) == price
  {
    assert PriceLabel(price) == Cedi + (price + ".00");
    ReplacePrefix(Cedi, price + ".00");
    FirstDotZeroZero(price);
    assert (price + ".00")[..|price|] == price;
  }

  /** A price text with ".00" inside parses to something else: the first
      ".00" removed is the price's own. */
  lemma PriceWithOwnDotZeroZero(a: string, b: string)
    requires !Contains(a, ".00")
    ensures ParsePrice(PriceLabel(a + ".00" + b)) == a + b + ".00"
  {
    var price := a + ".00" + b;
    assert PriceLabel(price) == Cedi + (price + ".00");
    ReplacePrefix(Cedi, price + ".00");
    var s := price + ".00";
    assert s == (a + ".00") + (b + ".00");
    FirstDotZeroZero(a);
    FirstOccurrenceExtends(a + ".00", b + ".00", ".00", |a|);
    assert s[..|a|] == a;
    assert s[|a| + 3..] == b + ".00";
  }

  /** A first occurrence in `s` stays first in `s + t`. */
  lemma FirstOccurrenceExtends(s: string, t: string, p: string, k: nat)
    requires IndexOf(s, p) == Some(k)
    ensures IndexOf(s + t, p) == Some(k)
  {
    var st := s + t;
    assert OccursAt(st, p, k) by {
      assert st[k..k + |p|] == s[k..k + |p|];
    }
    forall j | 0 <= j < k ensures !OccursAt(st, p, j) {
      assert !OccursAt(s, p, j);
      assert j + |p| <= k + |p| <= |s|;
      assert st[j..j + |p|] == s[j..j + |p|];
    }
  }

  // ---------------------------------------------------------------------
  // Buttons

  datatype Button = Buy | GetBook

  /** `status.toLowerCase() == "free"` hides the buy button; any other
      status hides the get-book button. An absent status throws before
      either is hidden. */
  function HiddenButton(status: Option<string>): (r: Option<Button>)
    ensures r.None? <==> status.None?
    ensures r == Some(Buy) <==> status.Some? && ToLower(status.value) == "free"
    ensures r == Some(GetBook) <==> status.Some? && ToLower(status.value) != "free"
  {
    if status.None? then None
    else if ToLower(status.value) == "free" then Some(Buy)
    else Some(GetBook)
  }

  /** Statuses that differ only in letter case hide the same button. */
  lemma StatusCaseIgnored(a: string, b: string)
    requires ToLower(a) == ToLower(b)
    ensures HiddenButton(Some(a)) == HiddenButton(Some(b))
  {
  }

  type Storage = map<string, string>

  /** `setItem` stores the text of its value: null as "null". */
  function NullText(s: Option<string>): string {
    if s.Some? then s.value else "null"
  }

  datatype Navigation = Navigation(storage: Storage, location: string)

  /** The buy button's own listener, then the document's. The first stores
      the book's price and title and then stops: the `bookId` it reads is
      not in its scope, so it throws before storing an id or navigating.
      The second stores what it parses off the page and the selected book,
      and goes to the payment choice. */
  function BuyClick(store: Storage, title: Option<string>, price: string, selectedBook: Option<string>): (r: Navigation)
    ensures r.location == "/choosePayment"
    ensures r.storage.Keys == store.Keys + {"bookPrice", "bookTitle", "bookId"}
    ensures r.storage["bookPrice"] == ParsePrice(PriceLabel(price))
    ensures r.storage["bookTitle"] == ParseTitle(TitleLabel(title))
    ensures r.storage["bookId"] == NullText(selectedBook)
    ensures forall k :: k in store && k !in {"bookPrice", "bookTitle", "bookId"} ==> r.storage[k] == store[k]
  {
    var own := store["bookPrice" := price]["bookTitle" := JsText(title)];
    var page := own["bookPrice" := ParsePrice(PriceLabel(price))]["bookTitle" := ParseTitle(TitleLabel(title))]
                   ["bookId" := NullText(selectedBook)];
    Navigation(page, "/choosePayment")
  }

  /** For a price without ".00" of its own, the two listeners agree: the
      payment page finds the book's own title, price and id. */
  lemma BuyClickStoresBook(store: Storage, title: string, price: string, id: string)
    requires !Contains(price, ".00")
    ensures var r := BuyClick(store, Some(title), price, Some(id));
            r.storage["bookPrice"] == price && r.storage["bookTitle"] == title && r.storage["bookId"] == id
  {
    PriceRoundTrip(price);
    TitleRoundTrip(title);
  }

  /** The get-book button hands the book document's file path to the
      reader; a document without one stores "undefined". */
  function GetBookClick(store: Storage, book: Option<string>): (r: Navigation)
    ensures r.location == "read"
    ensures r.storage.Keys == store.Keys + {"book"}
    ensures book.Some? ==> r.storage["book"] == book.value
    ensures book.None? ==> r.storage["book"] == "undefined"
    ensures forall k :: k in store && k != "book" ==> r.storage[k] == store[k]
  {
    Navigation(store["book" := JsText(book)], "read")
  }

  /** A stored path "uploads/<f>" handed to the reader is opened through
      the PDF route as "/pdf/<f>". */
  lemma GetBookOpensPdfRoute(store: Storage, f: string)
    requires '\\' !in f && !Contains(f, "uploads/")
    ensures var r := GetBookClick(store, Some("uploads/" + f));
            BookUrl.ProcessBookUrl(Some(r.storage["book"])) == "/pdf/" + f
  {
    assert "uploads/" + f == [] + "uploads/" + f;
    assert ("uploads/" + f)[0] == 'u';
    BookUrl.RelativeUploadsGoesToPdfRoute([], f);
  }
}

=== FILE: image_upload.dfy ===
/** The disk upload middleware of middlewares/multer.js: a file filter on
    extension and MIME type, a 2,000,000-byte limit and the stored name. */
module ImageUpload {
  import opened Strings
  import opened Paths

  const SizeLimit: nat := 2000000

  /** The unanchored pattern /jpeg|jpg|png|gif/. */
  predicate MatchesImagePattern(s: string) {
    Contains(s, "jpeg") || Contains(s, "jpg") || Contains(s, "png") || Contains(s, "gif")
  }

  /** checkFileType: the lower-cased extension and the MIME type as given
      must both match. */
  predicate CheckFileType(originalName: string, mimeType: string) {
    MatchesImagePattern(ToLower(Extname(originalName))) && MatchesImagePattern(mimeType)
  }

  datatype IncomingFile = IncomingFile(fieldName: string, originalName: string, mimeType: string, size: nat)

  datatype UploadOutcome =
    | ImagesOnly          // the filter's "Error: Images Only!"
    | FileTooLarge        // LIMIT_FILE_SIZE
    | Stored(name: string)

  /** The stored name: field name, '-', the clock, the original extension. */
  function StoredName(fieldName: string, now: nat, originalName: string): string {
    fieldName + "-" + NatToString(now) + Extname(originalName)
  }

  /** The filter runs before the body is read; the limit while it is. */
  function Upload(file: IncomingFile, now: nat): (r: UploadOutcome)
    ensures r.ImagesOnly? <==> !CheckFileType(file.originalName, file.mimeType)
    ensures r.FileTooLarge? <==> CheckFileType(file.originalName, file.mimeType) && file.size > SizeLimit
    ensures r.Stored? ==> StartsWith(r.name, file.fieldName + "-")
                          && EndsWith(r.name, Extname(file.originalName))
  {
    if !CheckFileType(file.originalName, file.mimeType) then ImagesOnly
    else if file.size > SizeLimit then FileTooLarge
    else
      var name := StoredName(file.fieldName, now, file.originalName);
      assert name == (file.fieldName + "-") + (NatToString(now) + Extname(file.originalName));
      StartsWithAppend(file.fieldName + "-", NatToString(now) + Extname(file.originalName), file.fieldName + "-");
      assert name == (file.fieldName + "-" + NatToString(now)) + Extname(file.originalName);
      EndsWithPrepend(file.fieldName + "-" + NatToString(now), Extname(file.originalName), Extname(file.originalName));
      Stored(name)
  }

  /** The extension test ignores case: upper-casing letters of the name
      does not change the verdict. */
  lemma ExtensionTestIgnoresCase(originalName: string, mimeType: string)
    ensures CheckFileType(ToLower(originalName), mimeType) == CheckFileType(originalName, mimeType)
  {
    ExtnameLower(originalName);
    ToLowerIdempotent(Extname(originalName));
  }

  lemma ToLowerIdempotent(s: string)
    ensures ToLower(ToLower(s)) == ToLower(s)
  {
    assert forall i :: 0 <= i < |s| ==> LowerChar(LowerChar(s[i])) == LowerChar(s[i]);
  }

  /** The MIME test does not ignore case: a MIME type written without
      lower-case letters ("IMAGE/PNG") is refused whatever the name. */
  lemma UpperCaseMimeRefused(originalName: string, mimeType: string)
    requires forall i :: 0 <= i < |mimeType| ==> !('a' <= mimeType[i] <= 'z')
    ensures !CheckFileType(originalName, mimeType)
  {
    NoOccurrence(mimeType, "jpeg");
    NoOccurrence(mimeType, "jpg");
    NoOccurrence(mimeType, "png");
    NoOccurrence(mimeType, "gif");
  }

  /** A pattern whose first character never appears in `s` does not occur in it. */
  lemma NoOccurrence(s: string, p: string)
    requires |p| > 0 && p[0] !in s
    ensures !Contains(s, p)
  {
    if Contains(s, p) {
      OccursChar(s, p, IndexOf(s, p).value, 0);
    }
  }

  /** Two uploads of the same field and extension at different times get
      different stored names. */
  lemma StoredNamesDistinct(fieldName: string, t1: nat, t2: nat, originalName: string)
    requires t1 != t2
    ensures StoredName(fieldName, t1, originalName) != StoredName(fieldName, t2, originalName)
  {
    var a := NatToString(t1);
    var b := NatToString(t2);
    var e := Extname(originalName);
    var pre := fieldName + "-";
    var sa := StoredName(fieldName, t1, originalName);
    var sb := StoredName(fieldName, t2, originalName);
    assert sa == pre + a + e && sb == pre + b + e;
    if sa == sb {
      assert sa[|pre|..|sa| - |e|] == a;
      assert sb[|pre|..|sb| - |e|] == b;
      NatToStringInjective(t1, t2);
    }
  }
}

=== FILE: maintenance.dfy ===
/** The two maintenance scripts over the book collection: the JSON import
    (import-books.js), which validates the file, maps its capitalised keys
    onto the schema's and replaces the whole collection; and the category
    clean-up (update-categories.js), which renames five legacy categories
    and appends two sample books. Reading the file, the clock and a failing
    store are parameters. */
module Maintenance {
  import opened Strings
  import opened Schemas
  import opened Rows

  // ---------------------------------------------------------------------
  // Import

  /** One entry of books.json under its own keys (`Discription` as spelt
      there). `dateAdded` is `None` when absent or falsy. */
  datatype RawBook = RawBook(
    title: Option<string>,
    author: Option<string>,
    discription: Option<string>,
    category: Option<string>,
    excerpt: Option<string>,
    bookClass: Option<string>,
    image: Option<string>,
    book: Option<string>,
    dateAdded: Option<int>)

  /** The parsed file: `books` an array, or anything else. */
  datatype BooksFile = NotBooksArray | BooksArray(entries: seq<RawBook>)

  /** The mapping to the schema's fields; the price takes its default and a
      missing date the time of the import. */
  function Transform(b: RawBook, now: int): (r: Book)
    ensures r.price == 0
    ensures r.dateAdded == if b.dateAdded.Some? then b.dateAdded.value else now
  {
    Book(b.title, b.author, b.discription, b.category, b.excerpt, b.bookClass, b.image, b.book, 0,
         if b.dateAdded.Some? then b.dateAdded.value else now)
  }

  /** The reverse mapping, back to the file's keys. */
  function Export(b: Book): (r: RawBook)
    ensures r.dateAdded == Some(b.dateAdded)
  {
    RawBook(b.title, b.author, b.description, b.category, b.excerpt, b.bookClass, b.image, b.book, Some(b.dateAdded))
  }

  /** The mapping loses nothing but a missing date. */
  lemma TransformRoundTrip(b: RawBook, now: int)
    ensures b.dateAdded.Some? ==> Export(Transform(b, now)) == b
    ensures Transform(Export(Transform(b, now)), now) == Transform(b, now)
  {
  }

  function TransformAll(entries: seq<RawBook>, now: int): (r: seq<Book>)
    ensures |r| == |entries|
    ensures forall i :: 0 <= i < |entries| ==> r[i] == Transform(entries[i], now)
  {
    seq(|entries|, i requires 0 <= i < |entries| => Transform(entries[i], now))
  }

  predicate AllValid(books: seq<Book>) {
    forall i :: 0 <= i < |books| ==> ValidBook(books[i])
  }

  datatype ImportResult = ImportFailed | Imported(count: nat)

  /** importBooks: a file without a books array fails before anything is
      deleted; otherwise the collection is cleared, and the ordered
      `insertMany` validates every document first, so one invalid entry
      (or a failing write) leaves the collection empty. */
  function ImportBooks(file: BooksFile, stored: seq<Book>, now: int, deleteFails: bool, insertFails: bool): (r: (ImportResult, seq<Book>))
    ensures r.0.Imported? <==> file.BooksArray? && !deleteFails && !insertFails && AllValid(TransformAll(file.entries, now))
    ensures file.NotBooksArray? || deleteFails ==> r.1 == stored
    ensures r.0.ImportFailed? && file.BooksArray? && !deleteFails ==> r.1 == []
    ensures r.0.Imported? ==> r.1 == TransformAll(file.entries, now) && r.0.count == |file.entries|
  {
    match file
    case NotBooksArray => (ImportFailed, stored)
    case BooksArray(entries) =>
      if deleteFails then (ImportFailed, stored)
      else
        var docs := TransformAll(entries, now);
        if insertFails || !AllValid(docs) then (ImportFailed, [])
        else (Imported(|docs|), docs)
  }

  /** After an import that got past the deletion the collection no longer
      depends on what it held before; importing the same file twice is the
      same as importing it once. */
  lemma ImportReplaces(file: BooksFile, s1: seq<Book>, s2: seq<Book>, now: int, insertFails: bool)
    requires file.BooksArray?
    ensures ImportBooks(file, s1, now, false, insertFails) == ImportBooks(file, s2, now, false, insertFails)
    ensures var once := ImportBooks(file, s1, now, false, insertFails);
            ImportBooks(file, once.1, now, false, insertFails) == once
  {
  }

  /** An imported collection satisfies the book schema. */
  lemma ImportedBooksValid(file: BooksFile, stored: seq<Book>, now: int, deleteFails: bool, insertFails: bool)
    requires ImportBooks(file, stored, now, deleteFails, insertFails).0.Imported?
    ensures forall b :: b in ImportBooks(file, stored, now, deleteFails, insertFails).1 ==> ValidBook(b)
  {
  }

  // ---------------------------------------------------------------------
  // Category clean-up

  /** `UPDATE books SET category = ? WHERE category = ?` matches by plain
      equality; a NULL category matches nothing. */
  function CategoryIs(c: string): Book -> bool {
    (b: Book) => b.category == Some(c)
  }

  function SetCategory(c: string): Book -> Book {
    (b: Book) => b.(category := Some(c))
  }

  datatype Rename = Rename(from: string, to: string)

  const Renames: seq<Rename> := [
    Rename("Textbook", "Textbooks"),
    Rename("Text book", "Textbooks"),
    Rename("novels", "Storybooks"),
    Rename("Stories", "Storybooks"),
    Rename("Novel", "Storybooks")]

  const Sources: set<string> := {"Textbook", "Text book", "novels", "Stories", "Novel"}

  /** The category a legacy one is renamed to. */
  function Target(c: Option<string>): (r: Option<string>)
    ensures r.Some? && r.value in Sources ==> false
    ensures c.None? || c.value !in Sources ==> r == c
  {
    if c == Some("Textbook") || c == Some("Text book") then Some("Textbooks")
    else if c == Some("novels") || c == Some("Stories") || c == Some("Novel") then Some("Storybooks")
    else c
  }

  /** The five updates in order, each over the table the last one left. */
  function RenameAll(books: seq<Book>, rs: seq<Rename>): (r: seq<Book>)
    ensures |r| == |books|
    decreases |rs|
  {
    if |rs| == 0 then books
    else RenameAll(MapWhere(books, CategoryIs(rs[0].from), SetCategory(rs[0].to)), rs[1..])
  }

  /** What the updates do to one book. */
  function RenameOne(b: Book, rs: seq<Rename>): Book
    decreases |rs|
  {
    if |rs| == 0 then b
    else RenameOne(Step(b, rs[0]), rs[1..])
  }

  lemma {:induction false} RenameAllPointwise(books: seq<Book>, rs: seq<Rename>)
    ensures forall i :: 0 <= i < |books| ==> RenameAll(books, rs)[i] == RenameOne(books[i], rs)
    decreases |rs|
  {
    if |rs| > 0 {
      RenameAllPointwise(MapWhere(books, CategoryIs(rs[0].from), SetCategory(rs[0].to)), rs[1..]);
    }
  }

  lemma RenameOneTarget(b: Book)
    ensures RenameOne(b, Renames) == b.(category := Target(b.category))
  {
    var rs := Renames;
    var b1 := Step(b, rs[0]);
    var b2 := Step(b1, rs[1]);
    var b3 := Step(b2, rs[2]);
    var b4 := Step(b3, rs[3]);
    var b5 := Step(b4, rs[4]);
    assert RenameOne(b, rs) == RenameOne(b1, rs[1..]);
    assert RenameOne(b1, rs[1..]) == RenameOne(b2, rs[2..]) by { assert rs[1..][1..] == rs[2..]; }
    assert RenameOne(b2, rs[2..]) == RenameOne(b3, rs[3..]) by { assert rs[2..][1..] == rs[3..]; }
    assert RenameOne(b3, rs[3..]) == RenameOne(b4, rs[4..]) by { assert rs[3..][1..] == rs[4..]; }
    assert RenameOne(b4, rs[4..]) == RenameOne(b5, []) by { assert rs[4..][1..] == []; }
  }

  /** One update applied to one book. */
  function Step(b: Book, u: Rename): Book {
    if CategoryIs(u.from)(b) then SetCategory(u.to)(b) else b
  }

  /** The sequence of updates renames every book by the legacy map: no
      legacy category is left, and every other book keeps its category. */
  lemma RenameMatchesTarget(books: seq<Book>)
    ensures forall i :: 0 <= i < |books| ==>
              RenameAll(books, Renames)[i] == books[i].(category := Target(books[i].category))
  {
    RenameAllPointwise(books, Renames);
    forall i | 0 <= i < |books| ensures RenameOne(books[i], Renames) == books[i].(category := Target(books[i].category)) {
      RenameOneTarget(books[i]);
    }
  }

  /** Renaming again changes nothing. */
  lemma RenameIdempotent(books: seq<Book>)
    ensures RenameAll(RenameAll(books, Renames), Renames) == RenameAll(books, Renames)
  {
    var once := RenameAll(books, Renames);
    RenameMatchesTarget(books);
    RenameMatchesTarget(once);
  }

  /** Each update reports the books that had its source category before
      the script ran: no earlier update produces or removes it. */
  lemma UpdateCountsOriginal(books: seq<Book>, k: nat)
    requires k < |Renames|
    ensures Count(RenameAll(books, Renames[..k]), CategoryIs(Renames[k].from)) == Count(books, CategoryIs(Renames[k].from))
  {
    CountsThrough(books, Renames[..k], Renames[k].from);
  }

  lemma {:induction false} CountsThrough(books: seq<Book>, rs: seq<Rename>, c: string)
    requires forall j :: 0 <= j < |rs| ==> rs[j].from != c && rs[j].to != c
    ensures Count(RenameAll(books, rs), CategoryIs(c)) == Count(books, CategoryIs(c))
    decreases |rs|
  {
    if |rs| > 0 {
      var next := MapWhere(books, CategoryIs(rs[0].from), SetCategory(rs[0].to));
      CountMapWhere(books, CategoryIs(rs[0].from), SetCategory(rs[0].to), CategoryIs(c));
      CountsThrough(next, rs[1..], c);
    }
  }

  /** The two sample books the script appends on every run; the table's
      date column takes the insertion time. */
  function Additions(now: int): (r: seq<Book>)
    ensures |r| == 2 && r[0].category == Some("Poetry Books")
    ensures r[1].category == Some("Informational / Non-Fiction Books")
    ensures forall i :: 0 <= i < 2 ==> Target(r[i].category) == r[i].category
  {
    [Book(Some("Poems of Nature"), Some("Nature Poet"), Some("Beautiful poetry collection"), Some("Poetry Books"),
          Some("Poems that celebrate nature"), Some("All Ages"), Some("images/download.png"),
          Some("uploads/sample-poetry.pdf"), 12, now),
     Book(Some("How Things Work"), Some("Science Author"), Some("Educational book about science"),
          Some("Informational / Non-Fiction Books"), Some("Learn how things work"), Some("All Ages"),
          Some("images/download.png"), Some("uploads/sample-science.pdf"), 15, now)]
  }

  /** updateCategories: the five updates, then the two inserts, each query
      on its own; the first failing query (number `failsAt`, counting from
      0; 7 or more for none) ends the run with the earlier ones kept. The
      reply lists the rows each completed update matched. */
  function UpdateCategories(books: seq<Book>, now: int, failsAt: nat): (r: (seq<nat>, seq<Book>))
    ensures |r.0| == if failsAt < 5 then failsAt else 5
    ensures forall k :: 0 <= k < |r.0| ==> r.0[k] == Count(books, CategoryIs(Renames[k].from))
    ensures |books| <= |r.1| <= |books| + 2
    ensures failsAt >= 7 ==> |r.1| == |books| + 2 && r.1[|books|..] == Additions(now)
    ensures failsAt >= 5 ==> forall i :: 0 <= i < |books| ==> r.1[i] == books[i].(category := Target(books[i].category))
  {
    var updates := if failsAt < 5 then failsAt else 5;
    var inserts := if failsAt <= 5 then 0 else if failsAt - 5 < 2 then failsAt - 5 else 2;
    CompleteRename(books);
    var renamed := RenameAll(books, Renames[..updates]);
    (UpdateCounts(books, updates), renamed + Additions(now)[..inserts])
  }

  /** The rows the first `n` updates report. */
  function UpdateCounts(books: seq<Book>, n: nat): (r: seq<nat>)
    requires n <= |Renames|
    ensures |r| == n
    ensures forall k :: 0 <= k < n ==> r[k] == Count(books, CategoryIs(Renames[k].from))
  {
    var counts := seq(n, k requires 0 <= k < n => Count(RenameAll(books, Renames[..k]), CategoryIs(Renames[k].from)));
    forall k | 0 <= k < n ensures counts[k] == Count(books, CategoryIs(Renames[k].from)) {
      UpdateCountsOriginal(books, k);
    }
    counts
  }

  lemma CompleteRename(books: seq<Book>)
    ensures forall i :: 0 <= i < |books| ==>
              RenameAll(books, Renames[..5])[i] == books[i].(category := Target(books[i].category))
  {
    assert Renames[..5] == Renames;
    RenameMatchesTarget(books);
  }

  /** After a complete run no legacy category is left. */
  lemma NoLegacyCategoryLeft(books: seq<Book>, now: int, failsAt: nat)
    requires failsAt >= 7
    ensures forall i :: 0 <= i < |UpdateCategories(books, now, failsAt).1| ==>
              var c := UpdateCategories(books, now, failsAt).1[i].category;
              c.None? || c.value !in Sources
  {
  }

  /** The rename part is idempotent but the script is not: every complete
      run appends two more books. */
  lemma ScriptNotIdempotent(books: seq<Book>, now: int)
    ensures var once := UpdateCategories(books, now, 7).1;
            |UpdateCategories(once, now, 7).1| == |once| + 2 != |once|
  {
  }
}

=== FILE: paths.dfy ===
/** The two functions of Node's POSIX `path` module the server relies on:
    `basename` and `extname`. */
module Paths {
  import opened Strings

  /** Length of `p` once its trailing '/' characters are dropped. */
  function TrimmedLength(p: string): (k: nat)
    ensures k <= |p|
    ensures forall i :: k <= i < |p| ==> p[i] == '/'
    ensures k > 0 ==> p[k - 1] != '/'
  {
    if |p| == 0 || p[|p| - 1] != '/' then |p| else TrimmedLength(p[..|p| - 1])
  }

  /** What follows the last '/' of `t`; all of `t` when it has none. */
  function LastSegment(t: string): (b: string)
    ensures '/' !in b && EndsWith(t, b)
    ensures '/' !in t ==> b == t
  {
    match LastIndexOfChar(t, '/')
    case None => t
    case Some(i) => t[i + 1..]
  }

  /** path.basename: the last segment once trailing slashes are dropped. */
  function Basename(p: string): (b: string)
    ensures '/' !in b && |b| <= |p|
    ensures '/' !in p ==> b == p
    ensures |p| > 0 && p[|p| - 1] != '/' ==> EndsWith(p, b)
  {
    var k := TrimmedLength(p);
    assert '/' !in p ==> k == |p|;
    assert p[..|p|] == p;
    LastSegment(p[..k])
  }

  /** The extension of one path segment, as path.extname computes it: from
      the last '.' on, except when that dot opens the segment or the
      segment is "..". */
  function SegmentExtension(b: string): (e: string)
    ensures e == [] || (StartsWith(e, ".") && EndsWith(b, e) && |e| < |b|)
    ensures '.' !in b ==> e == []
  {
    match LastIndexOfChar(b, '.')
    case None => []
    case Some(d) => if d == 0 || b == ".." then [] else b[d..]
  }

  /** path.extname */
  function Extname(p: string): (e: string)
    ensures '/' !in e && |e| <= |p|
    ensures e == [] || StartsWith(e, ".")
  {
    SegmentExtension(Basename(p))
  }

  /** Without a trailing '/', basename is the last segment of the whole path. */
  lemma BasenameUntrimmed(p: string)
    requires |p| > 0 && p[|p| - 1] != '/'
    ensures Basename(p) == LastSegment(p)
  {
    assert p[..TrimmedLength(p)] == p;
  }

  /** A '/'-free suffix of `t` is also a suffix of its last segment. */
  lemma LastSegmentKeepsSuffix(t: string, x: string)
    requires EndsWith(t, x) && '/' !in x
    ensures EndsWith(LastSegment(t), x)
  {
    var j := LastIndexOfChar(t, '/');
    if j.Some? {
      var i := j.value;
      var n := |t| - |x|;
      assert forall k :: n <= k < |t| ==> t[k] == x[k - n];
      var b := t[i + 1..];
      assert b[|b| - |x|..] == t[n..];
    }
  }

  /** Lower-casing a path commutes with taking its extension: the
      separators '/' and '.' are not letters. */
  lemma {:induction false} TrimmedLengthLower(p: string)
    ensures TrimmedLength(ToLower(p)) == TrimmedLength(p)
  {
    if |p| > 0 && p[|p| - 1] == '/' {
      ToLowerSlice(p, 0, |p| - 1);
      assert ToLower(p)[..|p| - 1] == ToLower(p[..|p| - 1]);
      TrimmedLengthLower(p[..|p| - 1]);
    }
  }

  lemma {:induction false} LastCharLower(s: string, c: char)
    requires c == '/' || c == '.'
    ensures LastIndexOfChar(ToLower(s), c) == LastIndexOfChar(s, c)
  {
    if |s| > 0 {
      ToLowerSlice(s, 0, |s| - 1);
      assert ToLower(s)[..|s| - 1] == ToLower(s[..|s| - 1]);
      LastCharLower(s[..|s| - 1], c);
    }
  }

  lemma LastSegmentLower(t: string)
    ensures LastSegment(ToLower(t)) == ToLower(LastSegment(t))
  {
    LastCharLower(t, '/');
    var j := LastIndexOfChar(t, '/');
    if j.Some? {
      LastSegmentSuffixLower(t, j.value);
    }
  }

  lemma LastSegmentSuffixLower(t: string, i: nat)
    requires LastIndexOfChar(t, '/') == Some(i)
    requires LastIndexOfChar(ToLower(t), '/') == Some(i)
    ensures LastSegment(ToLower(t)) == ToLower(LastSegment(t))
  {
    var a := LastSegment(ToLower(t));
    var b := LastSegment(t);
    assert a == ToLower(t)[i + 1..];
    assert b == t[i + 1..];
    ToLowerSuffix(t, i + 1);
  }

  lemma BasenameLower(p: string)
    ensures Basename(ToLower(p)) == ToLower(Basename(p))
  {
    TrimmedLengthLower(p);
    var k := TrimmedLength(p);
    ToLowerSlice(p, 0, k);
    assert ToLower(p)[..k] == ToLower(p[..k]);
    LastSegmentLower(p[..k]);
  }

  lemma SegmentExtensionLower(b: string)
    ensures SegmentExtension(ToLower(b)) == ToLower(SegmentExtension(b))
  {
    var lb := ToLower(b);
    LastCharLower(b, '.');
    var j := LastIndexOfChar(b, '.');
    if j.Some? {
      var d := j.value;
      ToLowerSlice(b, d, |b|);
      assert lb == ".." <==> b == ".." by {
        if lb == ".." {
          assert b[0] == '.' && b[1] == '.';
        }
      }
      if d == 0 || b == ".." {
        assert SegmentExtension(lb) == [];
      } else {
        assert SegmentExtension(lb) == lb[d..];
      }
    } else {
      assert SegmentExtension(lb) == [];
    }
  }

  lemma ExtnameLower(p: string)
    ensures Extname(ToLower(p)) == ToLower(Extname(p))
  {
    BasenameLower(p);
    SegmentExtensionLower(Basename(p));
  }
}

=== FILE: pdf_route.dfy ===
/** The `/pdf/:filename` route (routes/pdf.js): a PDF stored under the
    uploads directory is streamed back; nothing outside it is reachable. */
module PdfRoute {
  import opened Strings
  import opened Paths
  import BookUrl

  /** The uploads directory: file name to size in bytes. */
  type Uploads = map<string, nat>

  datatype PdfReply =
    | InvalidType                  // 400 { error: 'Invalid file type' }
    | PdfNotFound                  // 404 { error: 'PDF not found' }
    | Stream(path: string, contentType: string, contentLength: nat)

  /** A directory entry that names a file of the directory itself. */
  predicate IsPlainEntry(name: string) {
    name != "" && name != "." && name != ".." && '/' !in name
  }

  function ServePdf(filename: string, uploads: Uploads): (r: PdfReply)
    ensures r.InvalidType? <==> !EndsWith(filename, ".pdf")
    ensures r.PdfNotFound? <==> EndsWith(filename, ".pdf") && Basename(filename) !in uploads
    ensures r.Stream? ==> StartsWith(r.path, "uploads/") && IsPlainEntry(r.path[8..])
    ensures r.Stream? ==> r.path[8..] in uploads && r.contentLength == uploads[r.path[8..]]
    ensures r.Stream? ==> r.contentType == "application/pdf"
  {
    if !EndsWith(filename, ".pdf") then InvalidType
    else
      var clean := Basename(filename);
      if clean !in uploads then PdfNotFound
      else
        BasenameOfPdfIsPlain(filename);
        Stream("uploads/" + clean, "application/pdf", uploads[clean])
  }

  /** A name ending in ".pdf" keeps that suffix through basename, and the
      basename is a plain entry: never empty, "." or "..". */
  lemma BasenameOfPdfIsPlain(filename: string)
    requires EndsWith(filename, ".pdf")
    ensures EndsWith(Basename(filename), ".pdf")
    ensures IsPlainEntry(Basename(filename))
  {
    assert filename[|filename| - 1] == 'f';
    BasenameUntrimmed(filename);
    LastSegmentKeepsSuffix(filename, ".pdf");
  }

  /** Two names with the same basename and suffix get the same reply. */
  lemma SameBasenameSameReply(a: string, b: string, uploads: Uploads)
    requires EndsWith(a, ".pdf") && EndsWith(b, ".pdf")
    requires Basename(a) == Basename(b)
    ensures ServePdf(a, uploads) == ServePdf(b, uploads)
  {
  }

  /** The viewer sends a stored path "uploads/<f>" to "/pdf/<f>". */
  lemma ViewerRewritesStoredPath(f: string)
    requires '\\' !in f && !Contains(f, "uploads/")
    ensures BookUrl.ProcessBookUrl(Some("uploads/" + f)) == "/pdf/" + f
  {
    assert "uploads/" + f == [] + "uploads/" + f;
    assert ("uploads/" + f)[0] == 'u';
    BookUrl.RelativeUploadsGoesToPdfRoute([], f);
  }

  /** The whole pipeline: a stored path "uploads/<n>.pdf" is rewritten by
      the viewer to "/pdf/<n>.pdf", and the route resolves that name back to
      "uploads/<n>.pdf". */
  lemma StoredPathRoundTrip(n: string, uploads: Uploads)
    requires '/' !in n && '\\' !in n
    requires !Contains(n + ".pdf", "uploads/")
    requires n + ".pdf" in uploads
    ensures BookUrl.ProcessBookUrl(Some("uploads/" + (n + ".pdf"))) == "/pdf/" + (n + ".pdf")
    ensures ServePdf(n + ".pdf", uploads)
            == Stream("uploads/" + (n + ".pdf"), "application/pdf", uploads[n + ".pdf"])
  {
    ViewerRewritesStoredPath(n + ".pdf");
    ServePlainPdf(n + ".pdf", uploads);
  }

  /** A '/'-free name ending in ".pdf" that the directory holds is streamed
      from "uploads/<name>". */
  lemma ServePlainPdf(f: string, uploads: Uploads)
    requires '/' !in f && EndsWith(f, ".pdf") && f in uploads
    ensures ServePdf(f, uploads) == Stream("uploads/" + f, "application/pdf", uploads[f])
  {
    assert Basename(f) == f;
  }
}

=== FILE: profile_docs.dfy ===
/** The profile handlers of the document-store back-end
    (api/user/profileManage.js). `findOneAndUpdate` rewrites the first
    matching document only, runs neither the schema validators nor the
    pre-save hooks (so `updated_at` is not stamped), and with `upsert`
    inserts a document built from the schema defaults when none matches.
    `logActivity` goes through the validating `create`. */
module ProfileDocs {
  import opened Strings
  import opened Schemas
  import opened ProfileRules
  import opened ActivityLog
  import opened Rows
  import ProfileSql

  type Reply = ProfileSql.Reply

  /** The update document of PUT /api/profile (no `updated_at`). */
  function WriteFields(f: ProfileFields): Profile -> Profile {
    (p: Profile) => p.(fullName := f.fullName, bio := f.bio, phone := f.phone, location := f.location)
  }

  /** PUT /api/profile: the same checks, in the same order, as the
      relational handler; no upsert, so a user without a profile changes
      nothing but still gets a success reply. `failsAt` is the first of
      the two queries (`findOneAndUpdate`, then `findOne`) that throws. */
  function UpdateProfile(t: Tables, user: AuthUser, body: ProfileBody, now: int, failsAt: nat, logFails: bool): (r: (Reply, Tables))
    ensures r.0.Updated? <==> ProfileSql.UpdateProfile(t, user, body, now, failsAt, logFails).0.Updated?
    ensures !r.0.Updated? ==> r.0 == ProfileSql.UpdateProfile(t, user, body, now, failsAt, logFails).0
    ensures r.0.Updated? ==> r.0.data == ProfileSql.ReadProfile(r.1.profiles, RequestUserId(user).value)
    ensures !(RequestUserId(user).Some? && CheckProfileUpdate(body).Accepted? && failsAt >= 1) ==> r.1 == t
    ensures RequestUserId(user).Some? && CheckProfileUpdate(body).Accepted? && failsAt >= 1 ==>
              var id := RequestUserId(user).value;
              var f := CheckProfileUpdate(body).fields;
              var k := FirstWhere(t.profiles, ProfileOf(id));
              |r.1.profiles| == |t.profiles|
              && (forall i :: 0 <= i < |t.profiles| && i != k ==> r.1.profiles[i] == t.profiles[i])
              && (k < |t.profiles| ==>
                    r.1.profiles[k].fullName == f.fullName && r.1.profiles[k].bio == f.bio
                    && r.1.profiles[k].phone == f.phone && r.1.profiles[k].location == f.location
                    && r.1.profiles[k].userId == id && r.1.profiles[k].email == t.profiles[k].email
                    && r.1.profiles[k].accountType == t.profiles[k].accountType
                    && r.1.profiles[k].avatar == t.profiles[k].avatar)
              && (forall i :: 0 <= i < |t.profiles| ==> r.1.profiles[i].updatedAt == t.profiles[i].updatedAt)
              && r.1.activity == RecordDoc(t.activity, id, "profile_update", "Updated profile information", None, now, logFails)
    ensures r.1.settings == t.settings && r.1.sessions == t.sessions && r.1.books == t.books
  {
    var id := RequestUserId(user);
    if id.None? then (ProfileSql.Unauthorized, t)
    else
      var c := CheckProfileUpdate(body);
      if !c.Accepted? then (ProfileSql.Rejected(c), t)
      else if failsAt == 0 then (ProfileSql.Failed, t)
      else
        var ps := UpdateFirst(t.profiles, ProfileOf(id.value), WriteFields(c.fields));
        var log := RecordDoc(t.activity, id.value, "profile_update", "Updated profile information", None, now, logFails);
        var t2 := t.(profiles := ps, activity := log);
        if failsAt == 1 then (ProfileSql.Failed, t2) else (ProfileSql.Updated(ProfileSql.ReadProfile(ps, id.value)), t2)
  }

  /** Because the update skips the validators, an accepted update can leave
      a valid profile outside the schema: a trimmed name over 255
      characters is stored as is. */
  lemma UpdateCanBreakSchema(t: Tables, user: AuthUser, body: ProfileBody, now: int, failsAt: nat, logFails: bool)
    requires RequestUserId(user).Some? && failsAt >= 1
    requires Count(t.profiles, ProfileOf(RequestUserId(user).value)) > 0
    requires Truthy(body.fullName) && |Trim(body.fullName.value)| > 255
    requires !BioExceeds(body) && !PhoneRejected(body)
    ensures var r := UpdateProfile(t, user, body, now, failsAt, logFails);
            exists i :: 0 <= i < |r.1.profiles| && !ValidProfile(r.1.profiles[i])
  {
    LongNameAccepted(body);
    var id := RequestUserId(user).value;
    var k := FirstWhere(t.profiles, ProfileOf(id));
    var r := UpdateProfile(t, user, body, now, failsAt, logFails);
    assert k < |t.profiles|;
    assert !ValidProfile(r.1.profiles[k]);
  }

  /** The update neither creates nor removes a profile. */
  lemma UpdateProfileKeepsOwners(t: Tables, user: AuthUser, body: ProfileBody, now: int, failsAt: nat, logFails: bool, id: string)
    ensures Count(UpdateProfile(t, user, body, now, failsAt, logFails).1.profiles, ProfileOf(id)) == Count(t.profiles, ProfileOf(id))
  {
    var uid := RequestUserId(user);
    var c := CheckProfileUpdate(body);
    if uid.Some? && c.Accepted? && failsAt >= 1 {
      CountUpdateFirst(t.profiles, ProfileOf(uid.value), WriteFields(c.fields), ProfileOf(id));
    }
  }

  /** `findOneAndUpdate({ user_id }, values, { upsert: true })` on settings:
      the first document gets the values (its `updated_at` is kept); with
      none, one is inserted from the defaults. */
  function UpsertSettings(rows: seq<Settings>, id: string, v: SettingsValues, now: int): (r: seq<Settings>)
    ensures Count(r, SettingsOf(id)) == if Count(rows, SettingsOf(id)) == 0 then 1 else Count(rows, SettingsOf(id))
    ensures |rows| <= |r| <= |rows| + 1
    ensures Count(rows, SettingsOf(id)) > 0 ==>
              var k := FirstWhere(rows, SettingsOf(id));
              |r| == |rows| && Carries(r[k], v) && r[k].updatedAt == rows[k].updatedAt
              && r[k].sessionCount == rows[k].sessionCount
              && forall i :: 0 <= i < |rows| && i != k ==> r[i] == rows[i]
    ensures Count(rows, SettingsOf(id)) == 0 ==>
              r[..|rows|] == rows && Carries(r[|rows|], v) && r[|rows|].userId == id
              && r[|rows|].sessionCount == 0 && !r[|rows|].twoFactorEnabled
  {
    if Count(rows, SettingsOf(id)) == 0 then
      var s := SetValues(DefaultSettingsRecord(id, now), v);
      CountAppend(rows, s, SettingsOf(id));
      assert (rows + [s])[..|rows|] == rows;
      rows + [s]
    else
      var f := (s: Settings) => SetValues(s, v);
      CountUpdateFirst(rows, SettingsOf(id), f, SettingsOf(id));
      UpdateFirst(rows, SettingsOf(id), f)
  }

  /** A user with at most one settings document has exactly one afterwards,
      as on the relational side. */
  lemma UpsertLeavesOneRow(rows: seq<Settings>, id: string, v: SettingsValues, now: int)
    requires Count(rows, SettingsOf(id)) <= 1
    ensures Count(UpsertSettings(rows, id, v, now), SettingsOf(id)) == 1
    ensures Count(ProfileSql.UpsertSettings(rows, id, v, now), SettingsOf(id)) == 1
  {
  }

  /** PUT /api/profile/settings: one upsert, which may throw (`failsAt`
      is 0). */
  function UpdateSettings(t: Tables, user: AuthUser, body: SettingsBody, now: int, failsAt: nat, logFails: bool): (r: (ProfileSql.SettingsReply, Tables))
    ensures r.0.SettingsUnauthorized? <==> RequestUserId(user).None?
    ensures r.0.SettingsFailed? <==> RequestUserId(user).Some? && failsAt == 0
    ensures r.0.SettingsSaved? ==> r.0.data == NormalizeSettings(body)
    ensures !r.0.SettingsSaved? ==> r.1 == t
    ensures r.0.SettingsSaved? ==>
              var id := RequestUserId(user).value;
              r.1.settings == UpsertSettings(t.settings, id, NormalizeSettings(body), now)
              && r.1.activity == RecordDoc(t.activity, id, "settings_change", "Updated account settings", None, now, logFails)
    ensures r.1.profiles == t.profiles && r.1.sessions == t.sessions && r.1.books == t.books
  {
    var id := RequestUserId(user);
    if id.None? then (ProfileSql.SettingsUnauthorized, t)
    else if failsAt == 0 then (ProfileSql.SettingsFailed, t)
    else
      var v := NormalizeSettings(body);
      (ProfileSql.SettingsSaved(v),
       t.(settings := UpsertSettings(t.settings, id.value, v, now),
          activity := RecordDoc(t.activity, id.value, "settings_change", "Updated account settings", None, now, logFails)))
  }

  /** Both back-ends answer a saved update with the same normalised values. */
  lemma SettingsRepliesAgree(t: Tables, user: AuthUser, body: SettingsBody, now: int, logFails: bool)
    requires RequestUserId(user).Some?
    ensures UpdateSettings(t, user, body, now, 2, logFails).0 == ProfileSql.UpdateSettings(t, user, body, now, 2, logFails).0
  {
  }

  /** The profile upsert of createProfileFromGoogle: the derived fields and
      account type 'google' overwrite the first document, or a new one is
      inserted; nothing is validated. */
  function UpsertGoogleProfile(ps: seq<Profile>, d: ProfileData, now: int): (r: seq<Profile>)
    ensures Count(r, ProfileOf(d.userId)) == if Count(ps, ProfileOf(d.userId)) == 0 then 1 else Count(ps, ProfileOf(d.userId))
    ensures |ps| <= |r| <= |ps| + 1
    ensures var k := FirstWhere(r, ProfileOf(d.userId));
            k < |r| && r[k].fullName == d.fullName && r[k].email == d.email && r[k].accountType == "google"
    ensures forall i :: 0 <= i < |ps| && ps[i].userId != d.userId ==> r[i] == ps[i]
  {
    if Count(ps, ProfileOf(d.userId)) == 0 then
      var p := NewProfile(d.userId, d.fullName, d.email, Some("google"), now);
      CountAppend(ps, p, ProfileOf(d.userId));
      assert FirstWhere(ps + [p], ProfileOf(d.userId)) == |ps| by {
        FirstWhereAppend(ps, p, ProfileOf(d.userId));
      }
      ps + [p]
    else
      var f := (p: Profile) => p.(fullName := d.fullName, email := d.email, accountType := "google");
      CountUpdateFirst(ps, ProfileOf(d.userId), f, ProfileOf(d.userId));
      var r := UpdateFirst(ps, ProfileOf(d.userId), f);
      FirstWhereSame(ps, r, ProfileOf(d.userId));
      r
  }

  /** The settings upsert with an empty update: inserts the defaults when
      there is no document, touches nothing otherwise. */
  function EnsureSettings(rows: seq<Settings>, id: string, now: int): (r: seq<Settings>)
    ensures Count(r, SettingsOf(id)) >= 1
    ensures Count(rows, SettingsOf(id)) > 0 ==> r == rows
    ensures Count(rows, SettingsOf(id)) == 0 ==> r == rows + [DefaultSettingsRecord(id, now)]
  {
    if Count(rows, SettingsOf(id)) == 0 then
      CountAppend(rows, DefaultSettingsRecord(id, now), SettingsOf(id));
      rows + [DefaultSettingsRecord(id, now)]
    else rows
  }

  /** createProfileFromGoogle on the document store; `failsAt` is the
      first of the two upserts that throws, and a failing settings upsert
      leaves the profile behind. */
  function CreateProfileFromGoogle(t: Tables, u: AuthUser, uuid: string, now: int, failsAt: nat, logFails: bool): (r: (Option<ProfileData>, Tables))
    ensures r.0.Some? <==> failsAt >= 2
    ensures r.0.Some? ==> r.0.value == GoogleProfileData(u, uuid)
    ensures failsAt == 0 ==> r.1 == t
    ensures failsAt >= 1 ==>
              var d := GoogleProfileData(u, uuid);
              r.1.profiles == UpsertGoogleProfile(t.profiles, d, now)
              && Count(r.1.profiles, ProfileOf(d.userId)) >= 1
    ensures failsAt == 1 ==> r.1.settings == t.settings && r.1.activity == t.activity
    ensures failsAt >= 2 ==>
              var d := GoogleProfileData(u, uuid);
              r.1.settings == EnsureSettings(t.settings, d.userId, now)
              && Count(r.1.settings, SettingsOf(d.userId)) >= 1
              && r.1.activity == RecordDoc(t.activity, d.userId, "login", "User logged in via Google", None, now, logFails)
    ensures r.1.sessions == t.sessions && r.1.books == t.books
  {
    var d := GoogleProfileData(u, uuid);
    if failsAt == 0 then (None, t)
    else
      var t1 := t.(profiles := UpsertGoogleProfile(t.profiles, d, now));
      if failsAt == 1 then (None, t1)
      else
        (Some(d), t1.(settings := EnsureSettings(t.settings, d.userId, now),
                      activity := RecordDoc(t.activity, d.userId, "login", "User logged in via Google", None, now, logFails)))
  }

  /** Without any email the upsert stores a profile the schema refuses
      (email is required): the upsert does not validate. */
  lemma EmptyEmailStored(t: Tables, u: AuthUser, uuid: string, now: int, failsAt: nat, logFails: bool)
    requires GoogleEmail(u) == "" && failsAt >= 1
    ensures var r := CreateProfileFromGoogle(t, u, uuid, now, failsAt, logFails);
            var k := FirstWhere(r.1.profiles, ProfileOf(CreatedUserId(u, uuid)));
            k < |r.1.profiles| && r.1.profiles[k].email == "" && !ValidProfile(r.1.profiles[k])
  {
  }

  /** Both back-ends store the derived name and email; only the document
      store also resets an existing account type to 'google'. */
  lemma AccountTypeDiffers(ps: seq<Profile>, d: ProfileData, now: int, i: nat)
    requires i < |ps| && ps[i].userId == d.userId && ps[i].accountType == "email"
    requires forall j :: 0 <= j < i ==> ps[j].userId != d.userId
    ensures ProfileSql.UpsertGoogleProfile(ps, d, now)[i].accountType == "email"
    ensures UpsertGoogleProfile(ps, d, now)[i].accountType == "google"
  {
    assert ProfileOf(d.userId)(ps[i]);
  }

  /** ensureProfile on the document store: `failsAt` counts the
      `findOne` first and then the two upserts of the creation. */
  function EnsureProfile(t: Tables, user: AuthUser, uuid: string, now: int, failsAt: nat, logFails: bool): (r: (Reply, Tables))
    ensures r.0 == ProfileSql.EnsureProfile(t, user, uuid, now, failsAt, logFails).0
    ensures RequestUserId(user).None? || failsAt == 0 || Count(t.profiles, ProfileOf(RequestUserId(user).value)) > 0
            ==> r.1 == t
    ensures RequestUserId(user).Some? && failsAt > 0 && Count(t.profiles, ProfileOf(RequestUserId(user).value)) == 0
            ==> r.1 == CreateProfileFromGoogle(t, user, uuid, now, failsAt - 1, logFails).1
  {
    var id := RequestUserId(user);
    if id.None? then (ProfileSql.Unauthorized, t)
    else if failsAt == 0 then (ProfileSql.Failed, t)
    else if Count(t.profiles, ProfileOf(id.value)) > 0 then (ProfileSql.Done, t)
    else
      var c := CreateProfileFromGoogle(t, user, uuid, now, failsAt - 1, logFails);
      (if c.0.Some? then ProfileSql.Done else ProfileSql.Failed, c.1)
  }

  /** Once the profile upsert has gone through, a second pass of the
      middleware changes nothing when the id is on `id` or `user_id`,
      whatever fails in it. */
  lemma EnsureProfileIdempotent(t: Tables, user: AuthUser, uuid: string, uuid2: string, now: int, now2: int,
                                failsAt: nat, failsAt2: nat, logFails: bool)
    requires Truthy(user.id) || Truthy(user.userId)
    requires failsAt >= 2
    ensures var t1 := EnsureProfile(t, user, uuid, now, failsAt, logFails).1;
            EnsureProfile(t1, user, uuid2, now2, failsAt2, logFails).1 == t1
  {
  }
}

=== FILE: profile_rules.dfy ===
/** The rules both profile back-ends share (apis/user/profileManage.js and
    api/user/profileManage.js): update validation, the phone pattern,
    settings normalisation, the default settings, and the fields derived for
    a profile created from a Google sign-in. */
module ProfileRules {
  import opened Strings
  import opened Schemas

  /** JavaScript truthiness of an optional string: present and not ''. */
  predicate Truthy(s: Option<string>) {
    s.Some? && s.value != ""
  }

  /** `s || null` */
  function OrNull(s: Option<string>): (r: Option<string>)
    ensures r.None? <==> !Truthy(s)
    ensures r.Some? ==> r == s
  {
    if Truthy(s) then s else None
  }

  // ---------------------------------------------------------------------
  // Phone numbers

  /** `^[\+]?[1-9][\d]{0,15}$`: an optional '+', then one to sixteen
      digits of which the first is not '0'. */
  predicate PhonePattern(s: string) {
    var digits := if |s| > 0 && s[0] == '+' then s[1..] else s;
    1 <= |digits| <= 16 && digits[0] != '0' && AllDigits(digits)
  }

  /** A left-to-right matcher for the phone pattern. */
  method MatchPhone(s: string) returns (ok: bool)
    ensures ok <==> PhonePattern(s)
  {
    var start := if |s| > 0 && s[0] == '+' then 1 else 0;
    if |s| - start < 1 || |s| - start > 16 || s[start] == '0' {
      return false;
    }
    var i := start;
    while i < |s|
      invariant start <= i <= |s|
      invariant AllDigits(s[start..i])
    {
      if !IsDigit(s[i]) {
        assert !AllDigits(s[start..]) by { assert s[start..][i - start] == s[i]; }
        return false;
      }
      assert s[start..i + 1] == s[start..i] + [s[i]];
      i := i + 1;
    }
    assert s[start..i] == s[start..];
    return true;
  }

  // ---------------------------------------------------------------------
  // Profile updates

  /** The fields of a PUT /api/profile body; `None` for an absent field. */
  datatype ProfileBody = ProfileBody(
    fullName: Option<string>, bio: Option<string>, phone: Option<string>, location: Option<string>)

  /** The values an accepted update writes. */
  datatype ProfileFields = ProfileFields(
    fullName: string, bio: Option<string>, phone: Option<string>, location: Option<string>)

  datatype ProfileCheck =
    | NameRequired      // 400 "Full name is required"
    | BioTooLong        // 400 "Bio cannot exceed 500 characters"
    | InvalidPhone      // 400 "Invalid phone number format"
    | Accepted(fields: ProfileFields)

  const MaxBio: nat := 500

  predicate NameMissing(b: ProfileBody) {
    !Truthy(b.fullName) || |Trim(b.fullName.value)| == 0
  }

  predicate BioExceeds(b: ProfileBody) {
    Truthy(b.bio) && |b.bio.value| > MaxBio
  }

  predicate PhoneRejected(b: ProfileBody) {
    Truthy(b.phone) && !PhonePattern(RemoveSpace(b.phone.value))
  }

  /** The checks run in the order name, bio, phone; the first failure
      decides the reply. */
  function CheckProfileUpdate(b: ProfileBody): (r: ProfileCheck)
    ensures r == NameRequired <==> NameMissing(b)
    ensures r == BioTooLong <==> !NameMissing(b) && BioExceeds(b)
    ensures r == InvalidPhone <==> !NameMissing(b) && !BioExceeds(b) && PhoneRejected(b)
    ensures r.Accepted? <==> !NameMissing(b) && !BioExceeds(b) && !PhoneRejected(b)
    ensures r.Accepted? ==> r.fields == AcceptedFields(b)
  {
    if NameMissing(b) then NameRequired
    else if BioExceeds(b) then BioTooLong
    else if PhoneRejected(b) then InvalidPhone
    else Accepted(AcceptedFields(b))
  }

  /** What a body that passes the three checks writes. */
  function AcceptedFields(b: ProfileBody): (f: ProfileFields)
    requires !NameMissing(b) && !BioExceeds(b) && !PhoneRejected(b)
    ensures |f.fullName| > 0 && !IsJsSpace(f.fullName[0]) && !IsJsSpace(f.fullName[|f.fullName| - 1])
    ensures f.bio.None? || (f.bio.value != "" && |f.bio.value| <= MaxBio)
    ensures f.phone.None? || PhonePattern(RemoveSpace(f.phone.value))
    ensures f.fullName == Trim(b.fullName.value)
    ensures f.bio == OrNull(b.bio) && f.phone == OrNull(b.phone) && f.location == OrNull(b.location)
  {
    ProfileFields(TrimmedName(b), OrNull(b.bio), CheckedPhone(b), OrNull(b.location))
  }

  /** `fullName.trim()`, for a name that passed the check. */
  function TrimmedName(b: ProfileBody): (n: string)
    requires !NameMissing(b)
    ensures |n| > 0 && !IsJsSpace(n[0]) && !IsJsSpace(n[|n| - 1])
  {
    Trim(b.fullName.value)
  }

  /** `phone || null`, for a phone that passed the pattern. */
  function CheckedPhone(b: ProfileBody): (p: Option<string>)
    requires !PhoneRejected(b)
    ensures p == OrNull(b.phone)
    ensures p.None? || PhonePattern(RemoveSpace(p.value))
  {
    OrNull(b.phone)
  }

  /** Sending back the fields an update wrote is accepted and writes the
      same fields again. */
  lemma ResubmitAccepted(b: ProfileBody)
    requires CheckProfileUpdate(b).Accepted?
    ensures var f := CheckProfileUpdate(b).fields;
            CheckProfileUpdate(ProfileBody(Some(f.fullName), f.bio, f.phone, f.location)) == Accepted(f)
  {
    var f := CheckProfileUpdate(b).fields;
    var nb := ProfileBody(Some(f.fullName), f.bio, f.phone, f.location);
    TrimmedNameKept(b.fullName.value);
    assert !NameMissing(nb) && !BioExceeds(nb) && !PhoneRejected(nb);
    assert AcceptedFields(nb) == f;
  }

  /** A trimmed, non-empty name is its own trim and so passes the name check. */
  lemma TrimmedNameKept(n: string)
    requires |Trim(n)| > 0
    ensures Truthy(Some(Trim(n))) && Trim(Trim(n)) == Trim(n)
  {
    TrimIdempotent(n);
  }

  /** A name of more than 255 characters, once trimmed, passes the checks:
      the handlers do not enforce the schema's length bounds. */
  lemma LongNameAccepted(b: ProfileBody)
    requires Truthy(b.fullName) && |Trim(b.fullName.value)| > 255
    requires !BioExceeds(b) && !PhoneRejected(b)
    ensures CheckProfileUpdate(b).Accepted?
    ensures |CheckProfileUpdate(b).fields.fullName| > 255
  {
  }

  // ---------------------------------------------------------------------
  // Settings

  /** The fields of a PUT /api/profile/settings body: the truthiness of the
      flags, and the enum fields when they are strings. */
  datatype SettingsBody = SettingsBody(
    emailNotifications: bool, pushNotifications: bool, marketingCommunications: bool,
    profileVisibility: Option<string>, readingActivity: bool,
    theme: Option<string>, fontSize: Option<string>)

  /** The normalised settings the handlers write and echo. */
  datatype SettingsValues = SettingsValues(
    emailNotifications: bool, pushNotifications: bool, marketingCommunications: bool,
    profileVisibility: string, readingActivity: bool, theme: string, fontSize: string)

  /** The themes the normaliser accepts; the schema itself has no enum. */
  const Themes: set<string> := {"auto", "light", "dark", "gradient"}

  /** `allowed.includes(v) ? v : fallback` */
  function Pick(v: Option<string>, allowed: set<string>, fallback: string): (r: string)
    requires fallback in allowed
    ensures r in allowed
    ensures v.Some? && v.value in allowed ==> r == v.value
    ensures !(v.Some? && v.value in allowed) ==> r == fallback
  {
    if v.Some? && v.value in allowed then v.value else fallback
  }

  function NormalizeSettings(b: SettingsBody): (v: SettingsValues)
    ensures v.profileVisibility in Visibilities && v.theme in Themes && v.fontSize in FontSizes
    ensures v.emailNotifications == b.emailNotifications && v.pushNotifications == b.pushNotifications
    ensures v.marketingCommunications == b.marketingCommunications && v.readingActivity == b.readingActivity
    ensures b.profileVisibility.Some? && b.profileVisibility.value in Visibilities
            ==> v.profileVisibility == b.profileVisibility.value
    ensures !(b.profileVisibility.Some? && b.profileVisibility.value in Visibilities)
            ==> v.profileVisibility == "public"
    ensures b.theme.Some? && b.theme.value in Themes ==> v.theme == b.theme.value
    ensures !(b.theme.Some? && b.theme.value in Themes) ==> v.theme == "gradient"
    ensures b.fontSize.Some? && b.fontSize.value in FontSizes ==> v.fontSize == b.fontSize.value
    ensures !(b.fontSize.Some? && b.fontSize.value in FontSizes) ==> v.fontSize == "medium"
  {
    SettingsValues(
      b.emailNotifications, b.pushNotifications, b.marketingCommunications,
      Pick(b.profileVisibility, Visibilities, "public"),
      b.readingActivity,
      Pick(b.theme, Themes, "gradient"),
      Pick(b.fontSize, FontSizes, "medium"))
  }

  /** The body that sends the given values back. */
  function AsBody(v: SettingsValues): SettingsBody {
    SettingsBody(v.emailNotifications, v.pushNotifications, v.marketingCommunications,
                 Some(v.profileVisibility), v.readingActivity, Some(v.theme), Some(v.fontSize))
  }

  /** Normalising twice is normalising once. */
  lemma NormalizeIdempotent(b: SettingsBody)
    ensures NormalizeSettings(AsBody(NormalizeSettings(b))) == NormalizeSettings(b)
  {
  }

  /** getDefaultSettings */
  function DefaultSettings(): (v: SettingsValues)
    ensures v.emailNotifications && v.readingActivity
    ensures !v.pushNotifications && !v.marketingCommunications
  {
    SettingsValues(true, false, false, "public", true, "gradient", "medium")
  }

  /** The normaliser's fallbacks are the default settings' enum values, and
      the defaults are left alone by the normaliser. */
  lemma FallbacksAreDefaults(b: SettingsBody)
    requires b.profileVisibility.None? && b.theme.None? && b.fontSize.None?
    ensures NormalizeSettings(b).profileVisibility == DefaultSettings().profileVisibility
    ensures NormalizeSettings(b).theme == DefaultSettings().theme
    ensures NormalizeSettings(b).fontSize == DefaultSettings().fontSize
    ensures NormalizeSettings(AsBody(DefaultSettings())) == DefaultSettings()
  {
  }

  /** The defaults agree with the schema defaults of a new settings document. */
  lemma DefaultsMatchSchema(userId: string, now: int)
    ensures Carries(DefaultSettingsRecord(userId, now), DefaultSettings())
    ensures SetValues(DefaultSettingsRecord(userId, now), DefaultSettings()) == DefaultSettingsRecord(userId, now)
  {
  }

  /** The row holds exactly the given values in the settings fields. */
  predicate Carries(row: Settings, v: SettingsValues) {
    row.emailNotifications == v.emailNotifications && row.pushNotifications == v.pushNotifications
    && row.marketingCommunications == v.marketingCommunications
    && row.profileVisibility == v.profileVisibility && row.readingActivity == v.readingActivity
    && row.theme == v.theme && row.fontSize == v.fontSize
  }

  /** Writes normalised values into a settings row (an update that runs no
      save hook): the other fields are kept. */
  function SetValues(row: Settings, v: SettingsValues): (r: Settings)
    ensures Carries(r, v)
    ensures r.userId == row.userId && r.twoFactorEnabled == row.twoFactorEnabled
    ensures r.sessionCount == row.sessionCount && r.createdAt == row.createdAt
    ensures r.updatedAt == row.updatedAt
  {
    row.(emailNotifications := v.emailNotifications,
         pushNotifications := v.pushNotifications,
         marketingCommunications := v.marketingCommunications,
         profileVisibility := v.profileVisibility,
         readingActivity := v.readingActivity,
         theme := v.theme,
         fontSize := v.fontSize)
  }

  /** The relational update, which also stamps `updated_at`. */
  function Apply(row: Settings, v: SettingsValues, now: int): (r: Settings)
    ensures Carries(r, v)
    ensures r.userId == row.userId && r.twoFactorEnabled == row.twoFactorEnabled
    ensures r.sessionCount == row.sessionCount && r.createdAt == row.createdAt
    ensures r.updatedAt == now
  {
    SetValues(row, v).(updatedAt := now)
  }

  /** Every normalised value satisfies the settings schema. */
  lemma NormalizedSettingsValid(row: Settings, b: SettingsBody)
    requires Required(row.userId, 255)
    ensures ValidSettings(SetValues(row, NormalizeSettings(b)))
  {
    var v := NormalizeSettings(b);
    assert |v.theme| <= 50;
  }

  // ---------------------------------------------------------------------
  // Profiles created from a Google sign-in

  /** The parts of `req.user` the handlers read. */
  datatype AuthUser = AuthUser(
    id: Option<string>, userId: Option<string>, profileUserId: Option<string>,
    displayName: Option<string>, givenName: Option<string>, familyName: Option<string>,
    emails: seq<string>, email: Option<string>)

  /** `req.user.id || req.user.user_id || req.user.profile?.user_id` */
  function RequestUserId(u: AuthUser): (r: Option<string>)
    ensures r.Some? ==> r.value != ""
    ensures r.None? <==> !Truthy(u.id) && !Truthy(u.userId) && !Truthy(u.profileUserId)
  {
    if Truthy(u.id) then u.id else if Truthy(u.userId) then u.userId
    else if Truthy(u.profileUserId) then u.profileUserId else None
  }

  /** `user.id || user.user_id || crypto.randomUUID()` */
  function CreatedUserId(u: AuthUser, uuid: string): (r: string)
    ensures Truthy(u.id) || Truthy(u.userId) ==> Some(r) == RequestUserId(u)
    ensures !Truthy(u.id) && !Truthy(u.userId) ==> r == uuid
  {
    if Truthy(u.id) then u.id.value else if Truthy(u.userId) then u.userId.value else uuid
  }

  /** How a template or `+` prints an absent value. */
  function JsText(s: Option<string>): string {
    if s.Some? then s.value else "undefined"
  }

  /** The full name as written:
      `displayName || givenName + ' ' + familyName || 'User'`. The middle
      operand is never '' so the last one is never reached. */
  function GoogleFullNameAsWritten(u: AuthUser): (r: string)
    ensures r != ""
  {
    if Truthy(u.displayName) then u.displayName.value
    else
      var joined := JsText(u.givenName) + " " + JsText(u.familyName);
      assert joined[|JsText(u.givenName)|] == ' ';
      joined
  }

  /** The fallback "User" is unreachable and a profile without any name
      part is called "undefined undefined". */
  lemma GoogleFullNameWithoutNames(u: AuthUser)
    requires !Truthy(u.displayName) && u.givenName.None? && u.familyName.None?
    ensures GoogleFullNameAsWritten(u) == "undefined undefined"
    ensures GoogleFullNameAsWritten(u) != "User"
  {
  }

  /** The full name as intended: the display name, else the name parts that
      are present, else "User". */
  function GoogleFullName(u: AuthUser): (r: string)
    ensures r != ""
    ensures Truthy(u.displayName) ==> r == u.displayName.value
    ensures !Truthy(u.displayName) && !Truthy(u.givenName) && !Truthy(u.familyName) ==> r == "User"
  {
    if Truthy(u.displayName) then u.displayName.value
    else if Truthy(u.givenName) && Truthy(u.familyName) then u.givenName.value + " " + u.familyName.value
    else if Truthy(u.givenName) then u.givenName.value
    else if Truthy(u.familyName) then u.familyName.value
    else "User"
  }

  /** The corrected name agrees with the written one whenever the written
      one does not print an absent part. */
  lemma GoogleFullNameAgrees(u: AuthUser)
    requires Truthy(u.displayName) || (Truthy(u.givenName) && Truthy(u.familyName))
    ensures GoogleFullName(u) == GoogleFullNameAsWritten(u)
  {
  }

  /** The profile fields derived from a Google sign-in. */
  datatype ProfileData = ProfileData(userId: string, fullName: string, email: string)

  /** `user.emails?.[0]?.value || user.email || ''` */
  function GoogleEmail(u: AuthUser): (r: string)
    ensures |u.emails| > 0 && u.emails[0] != "" ==> r == u.emails[0]
    ensures !(|u.emails| > 0 && u.emails[0] != "") && Truthy(u.email) ==> r == u.email.value
    ensures r == "" <==> !(|u.emails| > 0 && u.emails[0] != "") && !Truthy(u.email)
  {
    if |u.emails| > 0 && u.emails[0] != "" then u.emails[0]
    else if Truthy(u.email) then u.email.value
    else ""
  }

  /** `profileData` of createProfileFromGoogle, with the name as the
      handler computes it. */
  function GoogleProfileData(u: AuthUser, uuid: string): (d: ProfileData)
    ensures d.userId == CreatedUserId(u, uuid)
    ensures d.fullName == GoogleFullNameAsWritten(u) && d.email == GoogleEmail(u)
    ensures d.fullName != ""
  {
    ProfileData(CreatedUserId(u, uuid), GoogleFullNameAsWritten(u), GoogleEmail(u))
  }
}

=== FILE: profile_sql.dfy ===
/** The profile handlers of the relational back-end
    (apis/user/profileManage.js): profile update, settings insert-or-update,
    the profile created on a Google sign-in and the middleware that creates
    it when missing. Every `UPDATE … WHERE user_id = ?` rewrites all rows of
    the user; `CURRENT_TIMESTAMP` is the parameter `now`. */
module ProfileSql {
  import opened Strings
  import opened Schemas
  import opened ProfileRules
  import opened ActivityLog
  import opened Rows

  datatype Reply =
    | Unauthorized                   // 401 "User authentication required"
    | Rejected(check: ProfileCheck)  // 400 with the check's message
    | Failed                         // 500: a query threw
    | Updated(data: Option<Profile>) // 200 with the profile read back
    | Done                           // `next()` of the middleware

  /** `SET full_name = ?, bio = ?, phone = ?, location = ?, updated_at = …` */
  function WriteFields(f: ProfileFields, now: int): Profile -> Profile {
    (p: Profile) => p.(fullName := f.fullName, bio := f.bio, phone := f.phone,
                       location := f.location, updatedAt := now)
  }

  /** `SELECT * FROM user_profiles WHERE user_id = ?` then `[0]`: the user's
      first row, or undefined. */
  function ReadProfile(ps: seq<Profile>, id: string): (r: Option<Profile>)
    ensures r.None? <==> Count(ps, ProfileOf(id)) == 0
    ensures r.Some? ==> r.value.userId == id && r.value == ps[FirstWhere(ps, ProfileOf(id))]
  {
    var k := FirstWhere(ps, ProfileOf(id));
    if k < |ps| then Some(ps[k]) else None
  }

  /** PUT /api/profile. `failsAt` is the first of the handler's two queries
      (the UPDATE, then the SELECT that reads the profile back) that throws;
      a failing SELECT answers 500 after the update and its log entry are
      written. */
  function UpdateProfile(t: Tables, user: AuthUser, body: ProfileBody, now: int, failsAt: nat, logFails: bool): (r: (Reply, Tables))
    ensures r.0 == Unauthorized <==> RequestUserId(user).None?
    ensures r.0.Rejected? <==> RequestUserId(user).Some? && !CheckProfileUpdate(body).Accepted?
    ensures r.0.Rejected? ==> r.0.check == CheckProfileUpdate(body)
    ensures r.0 == Failed <==> RequestUserId(user).Some? && CheckProfileUpdate(body).Accepted? && failsAt < 2
    ensures r.0.Updated? <==> RequestUserId(user).Some? && CheckProfileUpdate(body).Accepted? && failsAt >= 2
    ensures r.0.Updated? ==> r.0.data == ReadProfile(r.1.profiles, RequestUserId(user).value)
    ensures !(RequestUserId(user).Some? && CheckProfileUpdate(body).Accepted? && failsAt >= 1) ==> r.1 == t
    ensures RequestUserId(user).Some? && CheckProfileUpdate(body).Accepted? && failsAt >= 1 ==>
              var id := RequestUserId(user).value;
              var f := CheckProfileUpdate(body).fields;
              |r.1.profiles| == |t.profiles|
              && (forall i :: 0 <= i < |t.profiles| && t.profiles[i].userId == id ==>
                    r.1.profiles[i].fullName == f.fullName && r.1.profiles[i].bio == f.bio
                    && r.1.profiles[i].phone == f.phone && r.1.profiles[i].location == f.location
                    && r.1.profiles[i].updatedAt == now
                    && r.1.profiles[i].userId == id && r.1.profiles[i].email == t.profiles[i].email
                    && r.1.profiles[i].avatar == t.profiles[i].avatar
                    && r.1.profiles[i].accountType == t.profiles[i].accountType
                    && r.1.profiles[i].createdAt == t.profiles[i].createdAt)
              && (forall i :: 0 <= i < |t.profiles| && t.profiles[i].userId != id ==>
                    r.1.profiles[i] == t.profiles[i])
              && r.1.activity == RecordSql(t.activity, id, "profile_update", "Updated profile information", None, now, logFails)
    ensures r.1.settings == t.settings && r.1.sessions == t.sessions && r.1.books == t.books
  {
    var id := RequestUserId(user);
    if id.None? then (Unauthorized, t)
    else
      var c := CheckProfileUpdate(body);
      if !c.Accepted? then (Rejected(c), t)
      else if failsAt == 0 then (Failed, t)
      else
        var ps := MapWhere(t.profiles, ProfileOf(id.value), WriteFields(c.fields, now));
        var log := RecordSql(t.activity, id.value, "profile_update", "Updated profile information", None, now, logFails);
        var t2 := t.(profiles := ps, activity := log);
        if failsAt == 1 then (Failed, t2) else (Updated(ReadProfile(ps, id.value)), t2)
  }

  /** A user with a profile reads back the accepted fields. */
  lemma UpdateReadsBack(t: Tables, user: AuthUser, body: ProfileBody, now: int, failsAt: nat, logFails: bool)
    requires RequestUserId(user).Some? && CheckProfileUpdate(body).Accepted? && failsAt >= 2
    requires Count(t.profiles, ProfileOf(RequestUserId(user).value)) > 0
    ensures var r := UpdateProfile(t, user, body, now, failsAt, logFails);
            var f := CheckProfileUpdate(body).fields;
            r.0.Updated? && r.0.data.Some?
            && r.0.data.value.fullName == f.fullName && r.0.data.value.bio == f.bio
            && r.0.data.value.phone == f.phone && r.0.data.value.location == f.location
            && r.0.data.value.updatedAt == now
  {
    var id := RequestUserId(user).value;
    var r := UpdateProfile(t, user, body, now, failsAt, logFails);
    CountMapWhere(t.profiles, ProfileOf(id), WriteFields(CheckProfileUpdate(body).fields, now), ProfileOf(id));
    var k := FirstWhere(r.1.profiles, ProfileOf(id));
    assert r.1.profiles[k].userId == id;
  }

  /** The update neither creates nor removes a profile. */
  lemma UpdateProfileKeepsOwners(t: Tables, user: AuthUser, body: ProfileBody, now: int, failsAt: nat, logFails: bool, id: string)
    ensures Count(UpdateProfile(t, user, body, now, failsAt, logFails).1.profiles, ProfileOf(id)) == Count(t.profiles, ProfileOf(id))
  {
    var uid := RequestUserId(user);
    var c := CheckProfileUpdate(body);
    if uid.Some? && c.Accepted? && failsAt >= 1 {
      CountMapWhere(t.profiles, ProfileOf(uid.value), WriteFields(c.fields, now), ProfileOf(id));
    }
  }

  /** `SELECT id … ; INSERT` when there is no row, `UPDATE … WHERE user_id`
      otherwise; the inserted row takes the column defaults. */
  function UpsertSettings(rows: seq<Settings>, id: string, v: SettingsValues, now: int): (r: seq<Settings>)
    ensures Count(r, SettingsOf(id)) == if Count(rows, SettingsOf(id)) == 0 then 1 else Count(rows, SettingsOf(id))
    ensures |rows| <= |r| <= |rows| + 1
    ensures forall i :: 0 <= i < |rows| && rows[i].userId != id ==> r[i] == rows[i]
    ensures forall i :: 0 <= i < |r| && r[i].userId == id ==> Carries(r[i], v) && r[i].updatedAt == now
    ensures forall i :: 0 <= i < |rows| && rows[i].userId == id ==>
              r[i].sessionCount == rows[i].sessionCount && r[i].twoFactorEnabled == rows[i].twoFactorEnabled
  {
    if Count(rows, SettingsOf(id)) == 0 then
      CountAppend(rows, Apply(DefaultSettingsRecord(id, now), v, now), SettingsOf(id));
      rows + [Apply(DefaultSettingsRecord(id, now), v, now)]
    else
      var f := (s: Settings) => Apply(s, v, now);
      CountMapWhere(rows, SettingsOf(id), f, SettingsOf(id));
      MapWhere(rows, SettingsOf(id), f)
  }

  /** A user with at most one settings row has exactly one afterwards. */
  lemma UpsertLeavesOneRow(rows: seq<Settings>, id: string, v: SettingsValues, now: int)
    requires Count(rows, SettingsOf(id)) <= 1
    ensures Count(UpsertSettings(rows, id, v, now), SettingsOf(id)) == 1
  {
  }

  datatype SettingsReply = SettingsUnauthorized | SettingsFailed | SettingsSaved(data: SettingsValues)

  /** PUT /api/profile/settings. `failsAt` is the first of the two queries
      (the SELECT, then the INSERT or UPDATE) that throws; either failure
      answers 500 with nothing written. */
  function UpdateSettings(t: Tables, user: AuthUser, body: SettingsBody, now: int, failsAt: nat, logFails: bool): (r: (SettingsReply, Tables))
    ensures r.0.SettingsUnauthorized? <==> RequestUserId(user).None?
    ensures r.0.SettingsFailed? <==> RequestUserId(user).Some? && failsAt < 2
    ensures !r.0.SettingsSaved? ==> r.1 == t
    ensures r.0.SettingsSaved? ==>
              var id := RequestUserId(user).value;
              r.0.data == NormalizeSettings(body)
              && r.1.settings == UpsertSettings(t.settings, id, NormalizeSettings(body), now)
              && r.1.activity == RecordSql(t.activity, id, "settings_change", "Updated account settings", None, now, logFails)
    ensures r.1.profiles == t.profiles && r.1.sessions == t.sessions && r.1.books == t.books
  {
    var id := RequestUserId(user);
    if id.None? then (SettingsUnauthorized, t)
    else if failsAt < 2 then (SettingsFailed, t)
    else
      var v := NormalizeSettings(body);
      (SettingsSaved(v), t.(settings := UpsertSettings(t.settings, id.value, v, now),
                            activity := RecordSql(t.activity, id.value, "settings_change", "Updated account settings", None, now, logFails)))
  }

  /** Saving settings keeps a schema-valid settings table schema-valid. */
  lemma UpdateSettingsKeepsValid(t: Tables, user: AuthUser, body: SettingsBody, now: int, failsAt: nat, logFails: bool)
    requires forall i :: 0 <= i < |t.settings| ==> ValidSettings(t.settings[i])
    requires RequestUserId(user).Some? ==> |RequestUserId(user).value| <= 255
    ensures var s := UpdateSettings(t, user, body, now, failsAt, logFails).1.settings;
            forall i :: 0 <= i < |s| ==> ValidSettings(s[i])
  {
    var r := UpdateSettings(t, user, body, now, failsAt, logFails);
    if RequestUserId(user).Some? && failsAt >= 2 {
      var id := RequestUserId(user).value;
      var v := NormalizeSettings(body);
      var s := r.1.settings;
      forall i | 0 <= i < |s| ensures ValidSettings(s[i]) {
        if s[i].userId == id {
          assert Carries(s[i], v);
          assert |v.theme| <= 50;
        }
      }
    }
  }

  /** `INSERT … ON DUPLICATE KEY UPDATE full_name, email, updated_at`: an
      existing row keeps its account type. */
  function UpsertGoogleProfile(ps: seq<Profile>, d: ProfileData, now: int): (r: seq<Profile>)
    ensures Count(r, ProfileOf(d.userId)) == if Count(ps, ProfileOf(d.userId)) == 0 then 1 else Count(ps, ProfileOf(d.userId))
    ensures |ps| <= |r| <= |ps| + 1
    ensures forall i :: 0 <= i < |ps| && ps[i].userId != d.userId ==> r[i] == ps[i]
    ensures forall i :: 0 <= i < |r| && r[i].userId == d.userId ==>
              r[i].fullName == d.fullName && r[i].email == d.email && r[i].updatedAt == now
    ensures forall i :: 0 <= i < |ps| ==> r[i].accountType == ps[i].accountType
    ensures |r| > |ps| ==> r[|ps|].accountType == "google" && r[|ps|].avatar.NoAvatar?
  {
    if Count(ps, ProfileOf(d.userId)) == 0 then
      var p := NewProfile(d.userId, d.fullName, d.email, Some("google"), now);
      CountAppend(ps, p, ProfileOf(d.userId));
      ps + [p]
    else
      var f := (p: Profile) => p.(fullName := d.fullName, email := d.email, updatedAt := now);
      CountMapWhere(ps, ProfileOf(d.userId), f, ProfileOf(d.userId));
      MapWhere(ps, ProfileOf(d.userId), f)
  }

  /** `INSERT INTO user_settings (user_id) … ON DUPLICATE KEY UPDATE updated_at` */
  function TouchSettings(rows: seq<Settings>, id: string, now: int): (r: seq<Settings>)
    ensures Count(r, SettingsOf(id)) == if Count(rows, SettingsOf(id)) == 0 then 1 else Count(rows, SettingsOf(id))
    ensures |rows| <= |r|
    ensures forall i :: 0 <= i < |rows| ==> r[i] == (if rows[i].userId == id then rows[i].(updatedAt := now) else rows[i])
    ensures |r| > |rows| ==> |r| == |rows| + 1 && r[|rows|] == DefaultSettingsRecord(id, now)
  {
    if Count(rows, SettingsOf(id)) == 0 then
      CountAppend(rows, DefaultSettingsRecord(id, now), SettingsOf(id));
      rows + [DefaultSettingsRecord(id, now)]
    else
      var f := (s: Settings) => s.(updatedAt := now);
      CountMapWhere(rows, SettingsOf(id), f, SettingsOf(id));
      MapWhere(rows, SettingsOf(id), f)
  }

  /** createProfileFromGoogle: the profile upsert, the settings row, then a
      'login' entry; the derived fields are returned. `failsAt` is the
      first of the two queries that throws: the error reaches the caller,
      and a failing settings insert leaves the upserted profile behind. */
  function CreateProfileFromGoogle(t: Tables, u: AuthUser, uuid: string, now: int, failsAt: nat, logFails: bool): (r: (Option<ProfileData>, Tables))
    ensures r.0.Some? <==> failsAt >= 2
    ensures r.0.Some? ==> r.0.value == GoogleProfileData(u, uuid)
    ensures failsAt == 0 ==> r.1 == t
    ensures failsAt >= 1 ==>
              var d := GoogleProfileData(u, uuid);
              r.1.profiles == UpsertGoogleProfile(t.profiles, d, now)
              && Count(r.1.profiles, ProfileOf(d.userId)) >= 1
    ensures failsAt == 1 ==> r.1.settings == t.settings && r.1.activity == t.activity
    ensures failsAt >= 2 ==>
              var d := GoogleProfileData(u, uuid);
              r.1.settings == TouchSettings(t.settings, d.userId, now)
              && Count(r.1.settings, SettingsOf(d.userId)) >= 1
              && r.1.activity == RecordSql(t.activity, d.userId, "login", "User logged in via Google", None, now, logFails)
    ensures r.1.sessions == t.sessions && r.1.books == t.books
  {
    var d := GoogleProfileData(u, uuid);
    if failsAt == 0 then (None, t)
    else
      var t1 := t.(profiles := UpsertGoogleProfile(t.profiles, d, now));
      if failsAt == 1 then (None, t1)
      else
        (Some(d), t1.(settings := TouchSettings(t.settings, d.userId, now),
                      activity := RecordSql(t.activity, d.userId, "login", "User logged in via Google", None, now, logFails)))
  }

  /** ensureProfile: a 401 without a user id, nothing when the user already
      has a profile, otherwise createProfileFromGoogle. `failsAt` counts
      the SELECT first and then the two queries of the creation. */
  function EnsureProfile(t: Tables, user: AuthUser, uuid: string, now: int, failsAt: nat, logFails: bool): (r: (Reply, Tables))
    ensures r.0 == Unauthorized <==> RequestUserId(user).None?
    ensures r.0 == Failed <==>
              RequestUserId(user).Some?
              && (failsAt == 0 || (Count(t.profiles, ProfileOf(RequestUserId(user).value)) == 0 && failsAt < 3))
    ensures r.0 != Unauthorized && r.0 != Failed ==> r.0 == Done
    ensures RequestUserId(user).None? || failsAt == 0 || Count(t.profiles, ProfileOf(RequestUserId(user).value)) > 0
            ==> r.1 == t
    ensures RequestUserId(user).Some? && failsAt > 0 && Count(t.profiles, ProfileOf(RequestUserId(user).value)) == 0
            ==> r.1 == CreateProfileFromGoogle(t, user, uuid, now, failsAt - 1, logFails).1
  {
    var id := RequestUserId(user);
    if id.None? then (Unauthorized, t)
    else if failsAt == 0 then (Failed, t)
    else if Count(t.profiles, ProfileOf(id.value)) > 0 then (Done, t)
    else
      var c := CreateProfileFromGoogle(t, user, uuid, now, failsAt - 1, logFails);
      (if c.0.Some? then Done else Failed, c.1)
  }

  /** When the request carries its id on `id` or `user_id` and the lookup
      and the profile upsert succeed, the middleware leaves a profile for
      that id behind, even if the settings insert then fails. */
  lemma EnsureProfileCreates(t: Tables, user: AuthUser, uuid: string, now: int, failsAt: nat, logFails: bool)
    requires Truthy(user.id) || Truthy(user.userId)
    requires failsAt >= 2
    ensures var id := RequestUserId(user).value;
            Count(EnsureProfile(t, user, uuid, now, failsAt, logFails).1.profiles, ProfileOf(id)) >= 1
  {
  }

  /** A settings insert that fails after the profile upsert answers 500
      but keeps the new profile, so the next request passes the middleware
      without a settings row. */
  lemma FailedSettingsKeepProfile(t: Tables, user: AuthUser, uuid: string, now: int, logFails: bool, failsAt2: nat)
    requires Truthy(user.id) || Truthy(user.userId)
    requires Count(t.profiles, ProfileOf(RequestUserId(user).value)) == 0
    requires failsAt2 > 0
    ensures var id := RequestUserId(user).value;
            var r := EnsureProfile(t, user, uuid, now, 2, logFails);
            r.0 == Failed && Count(r.1.profiles, ProfileOf(id)) >= 1 && r.1.settings == t.settings
            && EnsureProfile(r.1, user, uuid, now, failsAt2, logFails) == (Done, r.1)
  {
  }

  /** When the id is found only on `profile.user_id`, the profile is created
      under the fresh id instead, so the checked id still has none and every
      later request creates another one. */
  lemma EnsureProfileNestedId(t: Tables, user: AuthUser, uuid: string, now: int, failsAt: nat, logFails: bool)
    requires !Truthy(user.id) && !Truthy(user.userId) && Truthy(user.profileUserId)
    requires Count(t.profiles, ProfileOf(user.profileUserId.value)) == 0
    requires uuid != user.profileUserId.value
    requires failsAt >= 2
    ensures var r := EnsureProfile(t, user, uuid, now, failsAt, logFails).1;
            Count(r.profiles, ProfileOf(user.profileUserId.value)) == 0
            && |r.profiles| == |t.profiles| + (if Count(t.profiles, ProfileOf(uuid)) == 0 then 1 else 0)
  {
    var id := user.profileUserId.value;
    var r := EnsureProfile(t, user, uuid, now, failsAt, logFails).1;
    var d := GoogleProfileData(user, uuid);
    assert d.userId == uuid;
    if Count(t.profiles, ProfileOf(uuid)) == 0 {
      var p := NewProfile(uuid, d.fullName, d.email, Some("google"), now);
      assert r.profiles == t.profiles + [p];
      CountAppend(t.profiles, p, ProfileOf(id));
    } else {
      CountMapWhere(t.profiles, ProfileOf(uuid),
                    (p: Profile) => p.(fullName := d.fullName, email := d.email, updatedAt := now), ProfileOf(id));
    }
  }
}

=== FILE: quiz.dfy ===
/** The quiz page's submit handler (exp/quiz.js): every posted form entry
    whose value equals the answer recorded under its name scores one
    point; the total is the number of recorded answers. */
module Quiz {
  import opened Strings
  import opened Rows

  /** A form entry: field name and submitted value. */
  datatype Entry = Entry(name: string, value: string)

  /** The answer key: one question so far. */
  const Answers: map<string, string> := map["q1" := "c"]

  /** `value === answers[name]`: a name without an answer reads
      `undefined`, which no submitted text equals. */
  function IsCorrect(answers: map<string, string>): Entry -> bool {
    (e: Entry) => e.name in answers && answers[e.name] == e.value
  }

  /** The handler: the score, the total and the text it shows. */
  method Submit(answers: map<string, string>, entries: seq<Entry>) returns (score: nat, total: nat, text: string)
    ensures score == Count(entries, IsCorrect(answers))
    ensures score <= |entries|
    ensures total == |answers.Keys|
    ensures text == "You scored " + NatToString(score) + " out of " + NatToString(total)
  {
    score := 0;
    var i := 0;
    while i < |entries|
      invariant 0 <= i <= |entries|
      invariant score == Count(entries[..i], IsCorrect(answers))
    {
      CountAppend(entries[..i], entries[i], IsCorrect(answers));
      assert entries[..i + 1] == entries[..i] + [entries[i]];
      if entries[i].name in answers && answers[entries[i].name] == entries[i].value {
        score := score + 1;
      }
      i := i + 1;
    }
    assert entries[..i] == entries;
    total := |answers.Keys|;
    text := "You scored " + NatToString(score) + " out of " + NatToString(total);
  }

  /** Entries under names with no answer never score. */
  lemma {:induction false} UnknownNamesScoreNothing(answers: map<string, string>, entries: seq<Entry>)
    requires forall i :: 0 <= i < |entries| ==> entries[i].name !in answers
    ensures Count(entries, IsCorrect(answers)) == 0
  {
    if |entries| > 0 {
      UnknownNamesScoreNothing(answers, entries[1..]);
    }
  }

  /** Adding an entry under an unknown name leaves the score as it was. */
  lemma UnknownNameAddsNothing(answers: map<string, string>, entries: seq<Entry>, e: Entry)
    requires e.name !in answers
    ensures Count(entries + [e], IsCorrect(answers)) == Count(entries, IsCorrect(answers))
  {
    CountAppend(entries, e, IsCorrect(answers));
  }

  /** The shipped key has one question, and its right answer scores it. */
  lemma ShippedQuiz()
    ensures |Answers.Keys| == 1
    ensures Count([Entry("q1", "c")], IsCorrect(Answers)) == 1
    ensures Count([Entry("q1", "C")], IsCorrect(Answers)) == 0
  {
    assert Answers.Keys == {"q1"};
  }

  /** Nothing bounds the score by the total: a form posting the same
      question twice scores 2 out of 1. */
  lemma RepeatedEntryOutscoresTotal()
    ensures Count([Entry("q1", "c"), Entry("q1", "c")], IsCorrect(Answers)) == 2 > |Answers.Keys|
  {
    assert Answers.Keys == {"q1"};
    assert [Entry("q1", "c"), Entry("q1", "c")][1..] == [Entry("q1", "c")];
  }
}

=== FILE: rows.dfy ===
/** Row-level operations shared by the table handlers: counting the rows a
    condition selects, `UPDATE … WHERE` (every selected row), the document
    store's `findOneAndUpdate` (the first selected row only) and
    `DELETE … WHERE`. */
module Rows {

  function Count<T>(s: seq<T>, p: T -> bool): (n: nat)
    ensures n <= |s|
    ensures n == 0 <==> forall i :: 0 <= i < |s| ==> !p(s[i])
  {
    if |s| == 0 then 0 else (if p(s[0]) then 1 else 0) + Count(s[1..], p)
  }

  lemma {:induction false} CountAppend<T>(s: seq<T>, x: T, p: T -> bool)
    ensures Count(s + [x], p) == Count(s, p) + (if p(x) then 1 else 0)
  {
    if |s| > 0 {
      assert (s + [x])[1..] == s[1..] + [x];
      CountAppend(s[1..], x, p);
    }
  }

  /** `UPDATE … SET … WHERE p`: every selected row is rewritten by `f`. */
  function MapWhere<T>(s: seq<T>, p: T -> bool, f: T -> T): (r: seq<T>)
    ensures |r| == |s|
    ensures forall i :: 0 <= i < |s| ==> r[i] == (if p(s[i]) then f(s[i]) else s[i])
  {
    seq(|s|, i requires 0 <= i < |s| => if p(s[i]) then f(s[i]) else s[i])
  }

  /** Rewriting rows without changing whether they are selected keeps the
      number of selected rows. */
  lemma {:induction false} CountMapWhere<T>(s: seq<T>, p: T -> bool, f: T -> T, q: T -> bool)
    requires forall x :: p(x) ==> q(f(x)) == q(x)
    ensures Count(MapWhere(s, p, f), q) == Count(s, q)
  {
    if |s| > 0 {
      assert MapWhere(s, p, f)[1..] == MapWhere(s[1..], p, f);
      CountMapWhere(s[1..], p, f, q);
    }
  }

  /** Index of the first selected row. */
  function FirstWhere<T>(s: seq<T>, p: T -> bool): (r: nat)
    ensures r <= |s|
    ensures r < |s| ==> p(s[r])
    ensures forall i :: 0 <= i < r ==> !p(s[i])
  {
    if |s| == 0 || p(s[0]) then 0 else 1 + FirstWhere(s[1..], p)
  }

  /** The first match of `s + [x]` is `x` when `s` holds none. */
  lemma {:induction false} FirstWhereAppend<T>(s: seq<T>, x: T, p: T -> bool)
    requires forall i :: 0 <= i < |s| ==> !p(s[i])
    requires p(x)
    ensures FirstWhere(s + [x], p) == |s|
  {
    if |s| > 0 {
      assert (s + [x])[1..] == s[1..] + [x];
      FirstWhereAppend(s[1..], x, p);
    }
  }

  /** Sequences that match at the same places have the same first match. */
  lemma {:induction false} FirstWhereSame<T>(s: seq<T>, t: seq<T>, p: T -> bool)
    requires |s| == |t|
    requires forall i :: 0 <= i < |s| ==> p(s[i]) == p(t[i])
    ensures FirstWhere(s, p) == FirstWhere(t, p)
  {
    if |s| > 0 {
      FirstWhereSame(s[1..], t[1..], p);
    }
  }

  /** `findOneAndUpdate` without upsert: the first selected row only. */
  function UpdateFirst<T>(s: seq<T>, p: T -> bool, f: T -> T): (r: seq<T>)
    ensures |r| == |s|
    ensures forall i :: 0 <= i < |s| && i != FirstWhere(s, p) ==> r[i] == s[i]
    ensures FirstWhere(s, p) < |s| ==> r[FirstWhere(s, p)] == f(s[FirstWhere(s, p)])
  {
    var k := FirstWhere(s, p);
    if k < |s| then s[k := f(s[k])] else s
  }

  lemma CountUpdateFirst<T>(s: seq<T>, p: T -> bool, f: T -> T, q: T -> bool)
    requires forall x :: p(x) ==> q(f(x)) == q(x)
    ensures Count(UpdateFirst(s, p, f), q) == Count(s, q)
  {
    var k := FirstWhere(s, p);
    if k < |s| {
      CountSame(s, UpdateFirst(s, p, f), q);
    }
  }

  /** Two sequences that select the same positions select as many rows. */
  lemma {:induction false} CountSame<T>(s: seq<T>, t: seq<T>, q: T -> bool)
    requires |s| == |t|
    requires forall i :: 0 <= i < |s| ==> q(s[i]) == q(t[i])
    ensures Count(s, q) == Count(t, q)
  {
    if |s| > 0 {
      CountSame(s[1..], t[1..], q);
    }
  }

  /** `DELETE … WHERE p`: the unselected rows, in order. */
  function Filter<T>(s: seq<T>, keep: T -> bool): (r: seq<T>)
    ensures |r| <= |s|
    ensures forall i :: 0 <= i < |r| ==> keep(r[i]) && r[i] in s
    ensures forall i :: 0 <= i < |s| && keep(s[i]) ==> s[i] in r
    ensures Count(r, keep) == |r| == Count(s, keep)
  {
    if |s| == 0 then []
    else
      var rest := Filter(s[1..], keep);
      if keep(s[0]) then [s[0]] + rest else rest
  }
}

=== FILE: schemas.dfy ===
/** The records of the five collections (models/UserProfile.js,
    models/UserSettings.js, models/UserSession.js, models/UserActivityLog.js,
    models/Book.js), their validity predicates, their defaults, and the
    tables both storage back-ends keep them in. Times are milliseconds. */
module Schemas {
  import opened Strings

  /** The avatar column: absent (null or ''), a map of variant names to
      file names or URLs as written by an upload, or any other text. */
  datatype StoredAvatar = NoAvatar | Variants(urls: map<string, string>) | Text(raw: string)

  datatype Profile = Profile(
    userId: string,
    fullName: string,
    email: string,
    bio: Option<string>,
    phone: Option<string>,
    location: Option<string>,
    avatar: StoredAvatar,
    accountType: string,
    lastLogin: Option<int>,
    createdAt: int,
    updatedAt: int)

  datatype Settings = Settings(
    userId: string,
    emailNotifications: bool,
    pushNotifications: bool,
    marketingCommunications: bool,
    profileVisibility: string,
    readingActivity: bool,
    theme: string,
    fontSize: string,
    twoFactorEnabled: bool,
    sessionCount: int,
    createdAt: int,
    updatedAt: int)

  datatype Session = Session(
    id: nat,
    userId: string,
    token: string,
    ipAddress: Option<string>,
    userAgent: Option<string>,
    deviceInfo: Option<string>,
    isActive: bool,
    createdAt: int,
    lastAccessed: int,
    expiresAt: int)

  datatype Activity = Activity(
    userId: string,
    activityType: string,
    description: Option<string>,
    ipAddress: Option<string>,
    userAgent: Option<string>,
    createdAt: int)

  datatype Book = Book(
    title: Option<string>,
    author: Option<string>,
    description: Option<string>,
    category: Option<string>,
    excerpt: Option<string>,
    bookClass: Option<string>,
    image: Option<string>,
    book: Option<string>,
    price: int,
    dateAdded: int)

  /** All tables of one deployment. */
  datatype Tables = Tables(
    profiles: seq<Profile>,
    settings: seq<Settings>,
    sessions: seq<Session>,
    activity: seq<Activity>,
    books: seq<Book>)

  /** A `required: true` string: present and not empty. */
  predicate Required(s: string, max: nat) {
    0 < |s| <= max
  }

  predicate AtMost(s: Option<string>, max: nat) {
    s.None? || |s.value| <= max
  }

  predicate RequiredOpt(s: Option<string>, max: nat) {
    s.Some? && Required(s.value, max)
  }

  const AccountTypes: set<string> := {"google", "email", "admin"}
  const Visibilities: set<string> := {"public", "friends", "private"}
  const FontSizes: set<string> := {"small", "medium", "large", "extra-large"}
  const ActivityTypes: set<string> :=
    {"login", "logout", "profile_update", "settings_change", "avatar_upload", "book_view", "category_view"}

  /** models/UserProfile.js. The bound on avatar_url is applied to plain
      text only: the JSON text of a variant map is not modelled. */
  predicate ValidProfile(p: Profile) {
    Required(p.userId, 255) && Required(p.fullName, 255) && Required(p.email, 255)
    && AtMost(p.phone, 50) && AtMost(p.location, 255)
    && (p.avatar.Text? ==> |p.avatar.raw| <= 500)
    && p.accountType in AccountTypes
  }

  /** models/UserSettings.js: theme has a length bound but no enum. */
  predicate ValidSettings(s: Settings) {
    Required(s.userId, 255)
    && s.profileVisibility in Visibilities
    && |s.theme| <= 50
    && s.fontSize in FontSizes
  }

  /** models/UserSession.js */
  predicate ValidSession(s: Session) {
    Required(s.userId, 255) && Required(s.token, 255)
    && AtMost(s.ipAddress, 45) && AtMost(s.deviceInfo, 255)
  }

  /** models/UserActivityLog.js */
  predicate ValidActivity(a: Activity) {
    Required(a.userId, 255) && a.activityType in ActivityTypes && AtMost(a.ipAddress, 45)
  }

  /** models/Book.js */
  predicate ValidBook(b: Book) {
    RequiredOpt(b.title, 500) && RequiredOpt(b.author, 255) && RequiredOpt(b.category, 255)
    && AtMost(b.bookClass, 100) && AtMost(b.image, 500) && AtMost(b.book, 500)
    && b.price >= 0
  }

  /** The schema defaults of a new settings document. */
  function DefaultSettingsRecord(userId: string, now: int): (s: Settings)
    ensures Required(userId, 255) ==> ValidSettings(s)
    ensures s.userId == userId && s.createdAt == now && s.updatedAt == now
    ensures s.emailNotifications && s.readingActivity
    ensures !s.pushNotifications && !s.marketingCommunications && !s.twoFactorEnabled
    ensures s.profileVisibility == "public" && s.theme == "gradient" && s.fontSize == "medium"
    ensures s.sessionCount == 0
  {
    Settings(userId, true, false, false, "public", true, "gradient", "medium", false, 0, now, now)
  }

  /** A new profile document: account type defaults to 'email'. */
  function NewProfile(userId: string, fullName: string, email: string, accountType: Option<string>, now: int): (p: Profile)
    ensures p.userId == userId && p.fullName == fullName && p.email == email
    ensures accountType.None? ==> p.accountType == "email"
    ensures Required(userId, 255) && Required(fullName, 255) && Required(email, 255)
            && (accountType.None? || accountType.value in AccountTypes)
            ==> ValidProfile(p)
  {
    Profile(userId, fullName, email, None, None, None, NoAvatar,
            if accountType.Some? then accountType.value else "email", None, now, now)
  }

  /** A new session document: active unless stated otherwise. */
  function NewSession(id: nat, userId: string, token: string, expiresAt: int, now: int): (s: Session)
    ensures s.isActive && s.userId == userId && s.token == token && s.expiresAt == expiresAt
    ensures s.lastAccessed == now && s.createdAt == now
  {
    Session(id, userId, token, None, None, None, true, now, now, expiresAt)
  }

  /** The pre-save hooks stamp the save time and touch nothing else. */
  function SaveProfile(p: Profile, now: int): (q: Profile)
    ensures q.updatedAt == now && q.(updatedAt := p.updatedAt) == p
    ensures ValidProfile(q) <==> ValidProfile(p)
  {
    p.(updatedAt := now)
  }

  function SaveSession(s: Session, now: int): (q: Session)
    ensures q.lastAccessed == now && q.(lastAccessed := s.lastAccessed) == s
    ensures ValidSession(q) <==> ValidSession(s)
  {
    s.(lastAccessed := now)
  }

  /** The row selectors `{ user_id: id }` / `WHERE user_id = ?`. */
  function ProfileOf(id: string): Profile -> bool {
    (p: Profile) => p.userId == id
  }

  function SettingsOf(id: string): Settings -> bool {
    (s: Settings) => s.userId == id
  }

  function SessionOf(id: string): Session -> bool {
    (s: Session) => s.userId == id
  }

  /** The activity types the relational handlers log that the document
      schema's enum refuses. */
  lemma OutOfEnumTypesInvalid(a: Activity)
    requires a.activityType in {"avatar_delete", "session_create", "session_terminate",
                                "sessions_terminate_all", "account_delete"}
    ensures !ValidActivity(a)
  {
  }
}

=== FILE: sessions.dfy ===
/** The session table of the relational back-end as a state machine
    (apis/user/profileSessions.js): listing, terminating one session or all
    others, creating one, cleaning up expired ones, and deleting the
    account. `session_count` in the settings rows is the bookkeeping the
    handlers keep beside the table. Query failures (500) are not modelled. */
module Sessions {
  import opened Strings
  import opened Paths
  import opened Schemas
  import opened ProfileRules
  import opened ActivityLog
  import opened Rows
  import opened Sorting
  import opened AvatarRules

  const DayMillis: nat := 24 * 60 * 60 * 1000

  /** `req.sessionID || req.user.sessionToken || req.headers['x-session-token']`:
      the first truthy value, else the last one as it is. */
  function CurrentToken(sessionId: Option<string>, userToken: Option<string>, header: Option<string>): (r: Option<string>)
    ensures Truthy(sessionId) ==> r == sessionId
    ensures !Truthy(sessionId) && Truthy(userToken) ==> r == userToken
    ensures !Truthy(sessionId) && !Truthy(userToken) ==> r == header
  {
    if Truthy(sessionId) then sessionId else if Truthy(userToken) then userToken else header
  }

  // ---------------------------------------------------------------------
  // Pure helpers

  const DeviceLabels: set<string> :=
    {"Mobile Device", "Tablet Device", "Windows Desktop", "Mac Desktop", "Linux Desktop", "Unknown Device"}

  /** getDeviceInfo: the first marker found, in the order Mobile, Tablet,
      Windows, Mac, Linux. */
  function DeviceInfo(userAgent: Option<string>): (r: string)
    ensures r in DeviceLabels && |r| <= 255
    ensures r == "Mobile Device" <==> Truthy(userAgent) && Contains(userAgent.value, "Mobile")
    ensures r == "Tablet Device" <==>
              Truthy(userAgent) && !Contains(userAgent.value, "Mobile") && Contains(userAgent.value, "Tablet")
    ensures r == "Windows Desktop" <==>
              Truthy(userAgent) && !Contains(userAgent.value, "Mobile") && !Contains(userAgent.value, "Tablet")
              && Contains(userAgent.value, "Windows")
    ensures r == "Mac Desktop" <==>
              Truthy(userAgent) && !Contains(userAgent.value, "Mobile") && !Contains(userAgent.value, "Tablet")
              && !Contains(userAgent.value, "Windows") && Contains(userAgent.value, "Mac")
    ensures r == "Linux Desktop" <==>
              Truthy(userAgent) && !Contains(userAgent.value, "Mobile") && !Contains(userAgent.value, "Tablet")
              && !Contains(userAgent.value, "Windows") && !Contains(userAgent.value, "Mac")
              && Contains(userAgent.value, "Linux")
  {
    if !Truthy(userAgent) then "Unknown Device"
    else
      var ua := userAgent.value;
      if Contains(ua, "Mobile") then "Mobile Device"
      else if Contains(ua, "Tablet") then "Tablet Device"
      else if Contains(ua, "Windows") then "Windows Desktop"
      else if Contains(ua, "Mac") then "Mac Desktop"
      else if Contains(ua, "Linux") then "Linux Desktop"
      else "Unknown Device"
  }

  /** The listed form of a token: its first eight characters, "...", and
      its last four, each cut clamped to the token. */
  function MaskToken(token: string): (r: string)
    ensures |token| >= 12 ==> |r| == 15 && r == token[..8] + "..." + token[|token| - 4..]
    ensures |token| <= 4 ==> r == token + "..." + token
  {
    SubstringWhole(token, 0, 8);
    SubstringWhole(token, |token| - 4, |token|);
    Substring(token, 0, 8) + "..." + Substring(token, |token| - 4, |token|)
  }

  lemma SubstringWhole(s: string, start: int, end: int)
    ensures start <= 0 && end >= |s| ==> Substring(s, start, end) == s
  {
    assert s[0..|s|] == s;
  }

  /** A token of at least twelve characters is never shown whole: the
      eight characters after the first four stay hidden, so the masked form
      is shared by every token with the same ends. */
  lemma MaskHidesMiddle(a: string, b: string)
    requires |a| == |b| >= 12
    requires a[..8] == b[..8] && a[|a| - 4..] == b[|b| - 4..]
    ensures MaskToken(a) == MaskToken(b)
  {
  }

  /** The tokens the handler creates: 32 random bytes as hex. */
  lemma CreatedTokenMask(random: seq<byte>)
    requires |random| == 32
    ensures |Hex(random)| == 64 && AllHex(Hex(random))
    ensures MaskToken(Hex(random)) == Hex(random)[..8] + "..." + Hex(random)[60..]
  {
  }

  // ---------------------------------------------------------------------
  // Listing

  /** A row the list shows: the table row with its token masked, and its
      status. */
  datatype Listed = Listed(row: Session, maskedToken: string, isCurrent: bool)

  datatype ListReply =
    | ListUnauthorized                                           // 401
    | SessionList(sessions: seq<Listed>, currentId: Option<nat>, total: nat)

  /** `WHERE user_id = ? AND is_active = 1 AND expires_at > NOW()` */
  function LiveOf(id: string, now: int): Session -> bool {
    (s: Session) => s.userId == id && s.isActive && s.expiresAt > now
  }

  function LastAccessed(s: Session): int {
    s.lastAccessed
  }

  /** `session_token = ?` is true only for a present current token. */
  function Mark(s: Session, current: Option<string>): (l: Listed)
    ensures l.row == s && l.maskedToken == MaskToken(s.token)
    ensures l.isCurrent <==> current == Some(s.token)
  {
    Listed(s, MaskToken(s.token), current == Some(s.token))
  }

  function MarkAll(rows: seq<Session>, current: Option<string>): (r: seq<Listed>)
    ensures |r| == |rows|
    ensures forall i :: 0 <= i < |rows| ==> r[i] == Mark(rows[i], current)
  {
    seq(|rows|, i requires 0 <= i < |rows| => Mark(rows[i], current))
  }

  /** `sessions.find(s => s.session_status === 'current')?.id` */
  function FirstCurrent(l: seq<Listed>): (r: Option<nat>)
    ensures r.None? <==> forall i :: 0 <= i < |l| ==> !l[i].isCurrent
    ensures r.Some? ==> exists i :: 0 <= i < |l| && l[i].isCurrent && l[i].row.id == r.value
                                    && forall j :: 0 <= j < i ==> !l[j].isCurrent
  {
    if |l| == 0 then None
    else if l[0].isCurrent then Some(l[0].row.id)
    else
      var r := FirstCurrent(l[1..]);
      if r.Some? then
        var i :| 0 <= i < |l[1..]| && l[1..][i].isCurrent && l[1..][i].row.id == r.value
                 && forall j :: 0 <= j < i ==> !l[1..][j].isCurrent;
        assert l[i + 1] == l[1..][i];
        assert forall j :: 0 <= j < i + 1 ==> !l[j].isCurrent by {
          forall j | 0 <= j < i + 1 ensures !l[j].isCurrent {
            if j > 0 { assert l[j] == l[1..][j - 1]; }
          }
        }
        r
      else r
  }

  /** The user's live rows, most recently used first; ties keep one of
      their orders. */
  function LiveSessions(rows: seq<Session>, id: string, now: int): (r: seq<Session>)
    ensures SortedDesc(r, LastAccessed)
    ensures multiset(r) == multiset(Filter(rows, LiveOf(id, now)))
  {
    SortDesc(Filter(rows, LiveOf(id, now)), LastAccessed)
  }

  /** getActiveSessions */
  function ListSessions(t: Tables, user: AuthUser, current: Option<string>, now: int): (r: ListReply)
    ensures r == ListUnauthorized <==> RequestUserId(user).None?
    ensures r.SessionList? ==>
              var live := LiveSessions(t.sessions, RequestUserId(user).value, now);
              r.sessions == MarkAll(live, current) && r.total == |live|
              && r.currentId == FirstCurrent(r.sessions)
  {
    var id := RequestUserId(user);
    if id.None? then ListUnauthorized
    else
      var live := LiveSessions(t.sessions, id.value, now);
      var l := MarkAll(live, current);
      SessionList(l, FirstCurrent(l), |live|)
  }

  /** A row is listed exactly when it is one of the user's active,
      unexpired rows. */
  lemma ListedIffLive(t: Tables, user: AuthUser, current: Option<string>, now: int, s: Session)
    requires RequestUserId(user).Some? && s in t.sessions
    ensures var r := ListSessions(t, user, current, now);
            (exists i :: 0 <= i < |r.sessions| && r.sessions[i].row == s)
            <==> s.userId == RequestUserId(user).value && s.isActive && s.expiresAt > now
  {
    var id := RequestUserId(user).value;
    var f := Filter(t.sessions, LiveOf(id, now));
    var live := LiveSessions(t.sessions, id, now);
    var r := ListSessions(t, user, current, now);
    assert s in live <==> s in f by {
      assert s in live <==> s in multiset(live);
      assert s in f <==> s in multiset(f);
    }
    if s in live {
      var i :| 0 <= i < |live| && live[i] == s;
      assert r.sessions[i].row == s;
    }
    if exists i :: 0 <= i < |r.sessions| && r.sessions[i].row == s {
      var i :| 0 <= i < |r.sessions| && r.sessions[i].row == s;
      assert live[i] == s;
    }
    if s.userId == id && s.isActive && s.expiresAt > now {
      var j :| 0 <= j < |t.sessions| && t.sessions[j] == s;
      assert LiveOf(id, now)(t.sessions[j]);
    }
  }

  // ---------------------------------------------------------------------
  // Terminating

  datatype TerminateReply =
    | TerminateUnauthorized   // 401
    | SessionNotFound         // 404
    | CannotTerminateCurrent  // 400
    | Terminated              // 200

  /** `WHERE id = ? AND user_id = ? AND is_active = 1` */
  function ActiveWithId(id: string, sessionId: nat): Session -> bool {
    (s: Session) => s.id == sessionId && s.userId == id && s.isActive
  }

  function Deactivate(s: Session): Session {
    s.(isActive := false)
  }

  /** `SET session_count = session_count + delta WHERE user_id = ?` */
  function AddToCount(rows: seq<Settings>, id: string, delta: int): (r: seq<Settings>)
    ensures |r| == |rows|
    ensures forall i :: 0 <= i < |rows| ==>
              r[i] == (if rows[i].userId == id then rows[i].(sessionCount := rows[i].sessionCount + delta) else rows[i])
  {
    MapWhere(rows, SettingsOf(id), (s: Settings) => s.(sessionCount := s.sessionCount + delta))
  }

  /** `SET session_count = n WHERE user_id = ?` */
  function SetCount(rows: seq<Settings>, id: string, n: int): (r: seq<Settings>)
    ensures |r| == |rows|
    ensures forall i :: 0 <= i < |rows| ==>
              r[i] == (if rows[i].userId == id then rows[i].(sessionCount := n) else rows[i])
  {
    MapWhere(rows, SettingsOf(id), (s: Settings) => s.(sessionCount := n))
  }

  /** terminateSession: the first row found decides; the update then
      deactivates every row with that id of the user and decrements the
      count without a lower bound. */
  function TerminateSession(t: Tables, user: AuthUser, sessionId: nat, current: Option<string>,
                            req: Origin, now: int, logFails: bool): (r: (TerminateReply, Tables))
    ensures r.0 == TerminateUnauthorized <==> RequestUserId(user).None?
    ensures r.0 == SessionNotFound <==>
              RequestUserId(user).Some? && Count(t.sessions, ActiveWithId(RequestUserId(user).value, sessionId)) == 0
    ensures r.0 == CannotTerminateCurrent <==>
              RequestUserId(user).Some?
              && FirstWhere(t.sessions, ActiveWithId(RequestUserId(user).value, sessionId)) < |t.sessions|
              && current == Some(t.sessions[FirstWhere(t.sessions, ActiveWithId(RequestUserId(user).value, sessionId))].token)
    ensures r.0 != Terminated ==> r.1 == t
    ensures r.0 == Terminated ==>
              var id := RequestUserId(user).value;
              |r.1.sessions| == |t.sessions|
              && (forall i :: 0 <= i < |t.sessions| ==>
                    r.1.sessions[i] == (if t.sessions[i].id == sessionId && t.sessions[i].userId == id
                                        then t.sessions[i].(isActive := false) else t.sessions[i]))
              && r.1.settings == AddToCount(t.settings, id, -1)
              && r.1.activity == RecordSql(t.activity, id, "session_terminate",
                                           "Terminated session " + NatToString(sessionId), Some(req), now, logFails)
              && r.1.profiles == t.profiles && r.1.books == t.books
  {
    var id := RequestUserId(user);
    if id.None? then (TerminateUnauthorized, t)
    else
      var k := FirstWhere(t.sessions, ActiveWithId(id.value, sessionId));
      if k == |t.sessions| then (SessionNotFound, t)
      else if current == Some(t.sessions[k].token) then (CannotTerminateCurrent, t)
      else
        var sessions := MapWhere(t.sessions, (s: Session) => s.id == sessionId && s.userId == id.value, Deactivate);
        (Terminated, t.(sessions := sessions,
                        settings := AddToCount(t.settings, id.value, -1),
                        activity := RecordSql(t.activity, id.value, "session_terminate",
                                              "Terminated session " + NatToString(sessionId), Some(req), now, logFails)))
  }

  /** A terminated session leaves the list. */
  lemma TerminatedNotListed(t: Tables, user: AuthUser, sessionId: nat, current: Option<string>,
                            req: Origin, now: int, logFails: bool, later: int)
    requires TerminateSession(t, user, sessionId, current, req, now, logFails).0 == Terminated
    ensures var t2 := TerminateSession(t, user, sessionId, current, req, now, logFails).1;
            var r := ListSessions(t2, user, current, later);
            forall i :: 0 <= i < |r.sessions| ==> r.sessions[i].row.id != sessionId
  {
    var id := RequestUserId(user).value;
    var t2 := TerminateSession(t, user, sessionId, current, req, now, logFails).1;
    assert forall j :: 0 <= j < |t2.sessions| && t2.sessions[j].id == sessionId && t2.sessions[j].userId == id
                       ==> !t2.sessions[j].isActive;
    NoLiveWithId(t2.sessions, id, sessionId, later);
  }

  lemma NoLiveWithId(rows: seq<Session>, id: string, sessionId: nat, now: int)
    requires forall j :: 0 <= j < |rows| && rows[j].id == sessionId && rows[j].userId == id ==> !rows[j].isActive
    ensures var live := LiveSessions(rows, id, now);
            forall i :: 0 <= i < |live| ==> live[i].id != sessionId
  {
    var f := Filter(rows, LiveOf(id, now));
    var live := LiveSessions(rows, id, now);
    forall i | 0 <= i < |live| ensures live[i].id != sessionId {
      assert live[i] in multiset(f);
      var j :| 0 <= j < |rows| && rows[j] == live[i];
    }
  }

  datatype TerminateAllReply =
    | TerminateAllUnauthorized          // 401
    | NoOtherSessions                   // 200, nothing changes
    | TerminatedOthers(count: nat)      // 200

  /** `WHERE user_id = ? AND session_token != ? AND is_active = 1`: with no
      current token the comparison is with NULL and selects nothing. */
  function ActiveOther(id: string, current: Option<string>): Session -> bool {
    (s: Session) => s.userId == id && current.Some? && s.token != current.value && s.isActive
  }

  /** `WHERE user_id = ? AND session_token != ?`, active or not. */
  function Other(id: string, current: Option<string>): Session -> bool {
    (s: Session) => s.userId == id && current.Some? && s.token != current.value
  }

  /** terminateAllOtherSessions */
  function TerminateAllOthers(t: Tables, user: AuthUser, current: Option<string>,
                              req: Origin, now: int, logFails: bool): (r: (TerminateAllReply, Tables))
    ensures r.0 == TerminateAllUnauthorized <==> RequestUserId(user).None?
    ensures r.0 == NoOtherSessions <==>
              RequestUserId(user).Some? && Count(t.sessions, ActiveOther(RequestUserId(user).value, current)) == 0
    ensures !r.0.TerminatedOthers? ==> r.1 == t
    ensures r.0.TerminatedOthers? ==>
              var id := RequestUserId(user).value;
              r.0.count == Count(t.sessions, ActiveOther(id, current)) > 0
              && r.1.sessions == MapWhere(t.sessions, Other(id, current), Deactivate)
              && r.1.settings == SetCount(t.settings, id, 1)
              && r.1.activity == RecordSql(t.activity, id, "sessions_terminate_all",
                                           "Terminated " + NatToString(r.0.count) + " other sessions", Some(req), now, logFails)
              && r.1.profiles == t.profiles && r.1.books == t.books
  {
    var id := RequestUserId(user);
    if id.None? then (TerminateAllUnauthorized, t)
    else
      var n := Count(t.sessions, ActiveOther(id.value, current));
      if n == 0 then (NoOtherSessions, t)
      else
        (TerminatedOthers(n),
         t.(sessions := MapWhere(t.sessions, Other(id.value, current), Deactivate),
            settings := SetCount(t.settings, id.value, 1),
            activity := RecordSql(t.activity, id.value, "sessions_terminate_all",
                                  "Terminated " + NatToString(n) + " other sessions", Some(req), now, logFails)))
  }

  /** With no current token nothing is ever terminated. */
  lemma NoCurrentTerminatesNothing(t: Tables, user: AuthUser, req: Origin, now: int, logFails: bool)
    requires RequestUserId(user).Some?
    ensures TerminateAllOthers(t, user, None, req, now, logFails) == (NoOtherSessions, t)
  {
  }

  /** Afterwards the only live sessions of the user the list can show
      carry the current token. */
  lemma TerminateAllLeavesCurrent(t: Tables, user: AuthUser, current: Option<string>,
                                  req: Origin, now: int, logFails: bool)
    requires TerminateAllOthers(t, user, current, req, now, logFails).0.TerminatedOthers?
    ensures var t2 := TerminateAllOthers(t, user, current, req, now, logFails).1;
            Count(t2.sessions, ActiveOther(RequestUserId(user).value, current)) == 0
    ensures var t2 := TerminateAllOthers(t, user, current, req, now, logFails).1;
            forall i :: 0 <= i < |t2.sessions| ==>
              (t2.sessions[i].userId == RequestUserId(user).value && t2.sessions[i].isActive
               ==> Some(t2.sessions[i].token) == current)
  {
  }

  // ---------------------------------------------------------------------
  // Creating and cleaning up

  /** The next auto-increment id: above every id in the table. */
  function NextSessionId(rows: seq<Session>): (r: nat)
    ensures forall i :: 0 <= i < |rows| ==> rows[i].id < r
  {
    if |rows| == 0 then 1
    else
      var n := NextSessionId(rows[1..]);
      assert forall i :: 1 <= i < |rows| ==> rows[i] == rows[1..][i - 1];
      if rows[0].id < n then n else rows[0].id + 1
  }

  datatype CreateReply =
    | CreateUnauthorized                      // 401
    | Created(token: string, expiresAt: int)  // 200

  /** `req.ip || req.connection?.remoteAddress || req.headers['x-forwarded-for']`:
      the address stored on a new session row, where the forwarded header
      is taken as it is. */
  function SessionIp(req: Origin): (r: Option<string>)
    ensures Truthy(req.ip) ==> r == req.ip
    ensures !Truthy(req.ip) && Truthy(req.remoteAddress) ==> r == req.remoteAddress
    ensures !Truthy(req.ip) && !Truthy(req.remoteAddress) ==> r == req.forwardedFor
  {
    if Truthy(req.ip) then req.ip else if Truthy(req.remoteAddress) then req.remoteAddress else req.forwardedFor
  }

  /** The session row and the activity entry agree on the address whenever
      the request has an ip or a remote address. */
  lemma SessionIpLogged(req: Origin)
    requires Truthy(req.ip) || Truthy(req.remoteAddress)
    ensures SessionIp(req) == LoggedIp(Some(req))
  {
  }

  /** createSession: the token is 32 random bytes as hex; the session
      expires a day after `now`. */
  function CreateSession(t: Tables, user: AuthUser, random: seq<byte>, req: Origin, now: int, logFails: bool): (r: (CreateReply, Tables))
    requires |random| == 32
    ensures r.0 == CreateUnauthorized <==> RequestUserId(user).None?
    ensures r.0 == CreateUnauthorized ==> r.1 == t
    ensures r.0.Created? ==>
              var id := RequestUserId(user).value;
              r.0.token == Hex(random) && |r.0.token| == 64 && r.0.expiresAt == now + DayMillis
              && r.1.sessions == t.sessions + [Session(NextSessionId(t.sessions), id, r.0.token, SessionIp(req), req.userAgent,
                                                       Some(DeviceInfo(req.userAgent)), true, now, now, now + DayMillis)]
              && r.1.settings == AddToCount(t.settings, id, 1)
              && |r.1.profiles| == |t.profiles|
              && (forall i :: 0 <= i < |t.profiles| ==>
                    r.1.profiles[i] == (if t.profiles[i].userId == id then t.profiles[i].(lastLogin := Some(now))
                                        else t.profiles[i]))
              && r.1.activity == RecordSql(t.activity, id, "session_create", "New session created", Some(req), now, logFails)
              && r.1.books == t.books
  {
    var id := RequestUserId(user);
    if id.None? then (CreateUnauthorized, t)
    else
      var token := Hex(random);
      var row := Session(NextSessionId(t.sessions), id.value, token, SessionIp(req), req.userAgent,
                         Some(DeviceInfo(req.userAgent)), true, now, now, now + DayMillis);
      (Created(token, now + DayMillis),
       t.(sessions := t.sessions + [row],
          settings := AddToCount(t.settings, id.value, 1),
          profiles := MapWhere(t.profiles, ProfileOf(id.value), (p: Profile) => p.(lastLogin := Some(now))),
          activity := RecordSql(t.activity, id.value, "session_create", "New session created", Some(req), now, logFails)))
  }

  /** A created session is listed until it expires, and is current for a
      request that carries its token. */
  lemma CreatedIsListed(t: Tables, user: AuthUser, random: seq<byte>, req: Origin, now: int, logFails: bool, later: int)
    requires |random| == 32 && RequestUserId(user).Some?
    requires later < now + DayMillis
    ensures var c := CreateSession(t, user, random, req, now, logFails);
            var r := ListSessions(c.1, user, Some(c.0.token), later);
            r.currentId.Some?
  {
    var c := CreateSession(t, user, random, req, now, logFails);
    var row := c.1.sessions[|t.sessions|];
    assert row in c.1.sessions;
    LiveTokenIsCurrent(c.1, user, later, row);
  }

  /** A request carrying the token of one of the user's live rows has a
      current session in the listing. */
  lemma LiveTokenIsCurrent(t: Tables, user: AuthUser, now: int, s: Session)
    requires RequestUserId(user).Some? && s in t.sessions
    requires s.userId == RequestUserId(user).value && s.isActive && s.expiresAt > now
    ensures ListSessions(t, user, Some(s.token), now).currentId.Some?
  {
    ListedIffLive(t, user, Some(s.token), now, s);
    var r := ListSessions(t, user, Some(s.token), now);
    var i :| 0 <= i < |r.sessions| && r.sessions[i].row == s;
    var live := LiveSessions(t.sessions, RequestUserId(user).value, now);
    assert r.sessions[i] == Mark(live[i], Some(s.token));
    assert r.sessions[i].isCurrent;
    assert r.currentId == FirstCurrent(r.sessions);
  }

  /** Creating a session and then terminating it from another session
      gives back the counts the settings rows held. */
  lemma CreateThenTerminateKeepsCount(t: Tables, user: AuthUser, random: seq<byte>, req: Origin, now: int, other: Option<string>)
    requires |random| == 32 && RequestUserId(user).Some? && other != Some(Hex(random))
    ensures var c := CreateSession(t, user, random, req, now, false);
            var d := TerminateSession(c.1, user, NextSessionId(t.sessions), other, req, now, false);
            d.0 == Terminated && d.1.settings == t.settings
  {
    var id := RequestUserId(user).value;
    var c := CreateSession(t, user, random, req, now, false);
    CreatedRowFoundFirst(t, user, random, req, now);
    TerminateOther(c.1, user, NextSessionId(t.sessions), other, req, now);
    AddToCountUndone(t.settings, id, 1);
  }

  /** The row a create appends is the first active row with its id, holds
      the new token, and the count went up by one. */
  lemma CreatedRowFoundFirst(t: Tables, user: AuthUser, random: seq<byte>, req: Origin, now: int)
    requires |random| == 32 && RequestUserId(user).Some?
    ensures var c := CreateSession(t, user, random, req, now, false);
            var id := RequestUserId(user).value;
            var k := FirstWhere(c.1.sessions, ActiveWithId(id, NextSessionId(t.sessions)));
            k == |t.sessions| < |c.1.sessions| && c.1.sessions[k].token == Hex(random)
            && c.1.settings == AddToCount(t.settings, id, 1)
  {
    var c := CreateSession(t, user, random, req, now, false);
    var p := ActiveWithId(RequestUserId(user).value, NextSessionId(t.sessions));
    var row := c.1.sessions[|t.sessions|];
    assert c.1.sessions == t.sessions + [row];
    assert forall i :: 0 <= i < |t.sessions| ==> !p(t.sessions[i]);
    FirstWhereAppend(t.sessions, row, p);
  }

  /** Terminating a found row from another session succeeds and takes one
      off the count. */
  lemma TerminateOther(t: Tables, user: AuthUser, sessionId: nat, current: Option<string>, req: Origin, now: int)
    requires RequestUserId(user).Some?
    requires FirstWhere(t.sessions, ActiveWithId(RequestUserId(user).value, sessionId)) < |t.sessions|
    requires current != Some(t.sessions[FirstWhere(t.sessions, ActiveWithId(RequestUserId(user).value, sessionId))].token)
    ensures var d := TerminateSession(t, user, sessionId, current, req, now, false);
            d.0 == Terminated && d.1.settings == AddToCount(t.settings, RequestUserId(user).value, -1)
  {
    var p := ActiveWithId(RequestUserId(user).value, sessionId);
    assert p(t.sessions[FirstWhere(t.sessions, p)]);
  }

  /** Adding `delta` and then `-delta` to a user's count gives back the rows. */
  lemma AddToCountUndone(rows: seq<Settings>, id: string, delta: int)
    ensures AddToCount(AddToCount(rows, id, delta), id, -delta) == rows
  {
    var r := AddToCount(AddToCount(rows, id, delta), id, -delta);
    assert forall i :: 0 <= i < |rows| ==> r[i] == rows[i];
  }

  datatype CleanupReply =
    | CleanupUnauthorized      // 401
    | Cleaned(count: nat)      // 200

  /** `WHERE user_id = ? AND expires_at < NOW()`: the matched rows,
      whether or not they were still active. */
  function ExpiredOf(id: string, now: int): Session -> bool {
    (s: Session) => s.userId == id && s.expiresAt < now
  }

  /** cleanupExpiredSessions: the reported count is the number of rows
      matched; the count is recomputed only when it is positive. */
  function CleanupExpired(t: Tables, user: AuthUser, now: int): (r: (CleanupReply, Tables))
    ensures r.0 == CleanupUnauthorized <==> RequestUserId(user).None?
    ensures r.0 == CleanupUnauthorized ==> r.1 == t
    ensures r.0.Cleaned? ==>
              var id := RequestUserId(user).value;
              r.0.count == Count(t.sessions, ExpiredOf(id, now))
              && r.1.sessions == MapWhere(t.sessions, ExpiredOf(id, now), Deactivate)
              && r.1.settings == (if r.0.count == 0 then t.settings
                                  else SetCount(t.settings, id, Count(r.1.sessions, LiveOf(id, now))))
              && r.1.(sessions := t.sessions, settings := t.settings) == t
  {
    var id := RequestUserId(user);
    if id.None? then (CleanupUnauthorized, t)
    else
      var n := Count(t.sessions, ExpiredOf(id.value, now));
      var sessions := MapWhere(t.sessions, ExpiredOf(id.value, now), Deactivate);
      var settings := if n == 0 then t.settings else SetCount(t.settings, id.value, Count(sessions, LiveOf(id.value, now)));
      (Cleaned(n), t.(sessions := sessions, settings := settings))
  }

  /** The recount agrees with what the list shows at the same moment. */
  lemma CleanupCountMatchesList(t: Tables, user: AuthUser, now: int, current: Option<string>)
    requires RequestUserId(user).Some?
    requires CleanupExpired(t, user, now).0.count > 0
    ensures var c := CleanupExpired(t, user, now);
            var id := RequestUserId(user).value;
            forall i :: 0 <= i < |c.1.settings| && c.1.settings[i].userId == id ==>
              c.1.settings[i].sessionCount == ListSessions(c.1, user, current, now).total
  {
    var id := RequestUserId(user).value;
    var c := CleanupExpired(t, user, now);
    var f := Filter(c.1.sessions, LiveOf(id, now));
    var live := LiveSessions(c.1.sessions, id, now);
    assert |live| == |multiset(live)| == |multiset(f)| == |f|;
  }

  /** Cleaning up deactivates rows and never revives one: the live rows
      are those that were live before. */
  lemma CleanupKeepsLive(t: Tables, user: AuthUser, now: int)
    requires RequestUserId(user).Some?
    ensures var c := CleanupExpired(t, user, now);
            var id := RequestUserId(user).value;
            Count(c.1.sessions, LiveOf(id, now)) == Count(t.sessions, LiveOf(id, now))
  {
    var id := RequestUserId(user).value;
    CountMapWhere(t.sessions, ExpiredOf(id, now), Deactivate, LiveOf(id, now));
  }

  // ---------------------------------------------------------------------
  // Deleting the account

  datatype DeleteAccountReply =
    | DeleteAccountUnauthorized   // 401
    | ConfirmationRequired        // 400
    | AccountNotFound             // 404
    | AccountDeleted              // 200

  /** The avatar files go in turn: the first unlink that fails (a missing
      file or a refusal) ends the loop, and the error is swallowed. */
  function UnlinkUntilFailure(files: set<string>, m: map<string, string>, keys: seq<string>,
                                                unlinkFails: set<string>): (r: set<string>)
    ensures r <= files
    ensures forall n :: n in files && n !in r ==>
              exists i :: 0 <= i < |keys| && keys[i] in m && m[keys[i]] != "" && Basename(m[keys[i]]) == n
  {
    if |keys| == 0 then files
    else
      var k := keys[0];
      if k in m && m[k] != "" then
        var name := Basename(m[k]);
        if name !in files || name in unlinkFails then files
        else
          var r := UnlinkUntilFailure(files - {name}, m, keys[1..], unlinkFails);
          assert forall n :: n in files && n !in r && n != name ==>
                   exists i :: 1 <= i < |keys| && keys[i] in m && m[keys[i]] != "" && Basename(m[keys[i]]) == n;
          r
      else UnlinkUntilFailure(files, m, keys[1..], unlinkFails)
  }

  /** The rows of one user go; the rest stay in order. */
  function Without<T>(rows: seq<T>, owner: T -> string, id: string): (r: seq<T>)
    ensures forall i :: 0 <= i < |r| ==> owner(r[i]) != id && r[i] in rows
    ensures forall i :: 0 <= i < |rows| && owner(rows[i]) != id ==> rows[i] in r
  {
    Filter(rows, (x: T) => owner(x) != id)
  }

  /** deleteAccount: the profile row and, through the cascade the code
      relies on, the user's settings, sessions and activity go; the log
      entry written afterwards is at the database's mercy. */
  function DeleteAccount(t: Tables, files: set<string>, user: AuthUser, confirmation: Option<string>,
                         unlinkFails: set<string>, req: Origin, now: int, logFails: bool)
    : (r: (DeleteAccountReply, Tables, set<string>))
    ensures r.0 == DeleteAccountUnauthorized <==> RequestUserId(user).None?
    ensures r.0 == ConfirmationRequired <==> RequestUserId(user).Some? && confirmation != Some("DELETE")
    ensures r.0 == AccountNotFound <==>
              RequestUserId(user).Some? && confirmation == Some("DELETE")
              && Count(t.profiles, ProfileOf(RequestUserId(user).value)) == 0
    ensures r.0 != AccountDeleted ==> r.1 == t && r.2 == files
    ensures r.0 == AccountDeleted ==>
              var id := RequestUserId(user).value;
              var a := AvatarOf(t.profiles, id);
              r.1.profiles == Without(t.profiles, (p: Profile) => p.userId, id)
              && r.1.settings == Without(t.settings, (s: Settings) => s.userId, id)
              && r.1.sessions == Without(t.sessions, (s: Session) => s.userId, id)
              && r.1.activity == RecordSql(Without(t.activity, (a: Activity) => a.userId, id), id, "account_delete",
                                           "Deleted account for " + t.profiles[FirstWhere(t.profiles, ProfileOf(id))].email,
                                           Some(req), now, logFails)
              && r.1.books == t.books
              && r.2 == (if a.Variants? then UnlinkUntilFailure(files, a.urls, SizeKeys, unlinkFails) else files)
  {
    var id := RequestUserId(user);
    if id.None? then (DeleteAccountUnauthorized, t, files)
    else if confirmation != Some("DELETE") then (ConfirmationRequired, t, files)
    else
      var k := FirstWhere(t.profiles, ProfileOf(id.value));
      if k == |t.profiles| then (AccountNotFound, t, files)
      else
        var a := AvatarOf(t.profiles, id.value);
        var left := if a.Variants? then UnlinkUntilFailure(files, a.urls, SizeKeys, unlinkFails) else files;
        var log := Without(t.activity, (a: Activity) => a.userId, id.value);
        (AccountDeleted,
         t.(profiles := Without(t.profiles, (p: Profile) => p.userId, id.value),
            settings := Without(t.settings, (s: Settings) => s.userId, id.value),
            sessions := Without(t.sessions, (s: Session) => s.userId, id.value),
            activity := RecordSql(log, id.value, "account_delete",
                                  "Deleted account for " + t.profiles[k].email, Some(req), now, logFails)),
         left)
  }

  /** Whatever happens to the avatar files, a confirmed delete of an
      existing account succeeds and a second one finds nothing. */
  lemma DeleteAccountTwice(t: Tables, files: set<string>, user: AuthUser, unlinkFails: set<string>,
                           req: Origin, now: int, logFails: bool)
    requires RequestUserId(user).Some? && Count(t.profiles, ProfileOf(RequestUserId(user).value)) > 0
    ensures var d := DeleteAccount(t, files, user, Some("DELETE"), unlinkFails, req, now, logFails);
            d.0 == AccountDeleted
            && DeleteAccount(d.1, d.2, user, Some("DELETE"), unlinkFails, req, now, logFails).0 == AccountNotFound
  {
    var id := RequestUserId(user).value;
    NoProfileLeft(t.profiles, id);
  }

  /** Once the user's profile rows are removed, none is left to find. */
  lemma NoProfileLeft(ps: seq<Profile>, id: string)
    ensures Count(Without(ps, (p: Profile) => p.userId, id), ProfileOf(id)) == 0
  {
    var r := Without(ps, (p: Profile) => p.userId, id);
    assert forall i :: 0 <= i < |r| ==> !ProfileOf(id)(r[i]);
  }
}

=== FILE: sorting.dfy ===
/** Ordering and windowing of query results: `ORDER BY key DESC` /
    `sort({ key: -1 })`, and `LIMIT … OFFSET …` / `skip(…).limit(…)`. */
module Sorting {

  predicate SortedDesc<T>(s: seq<T>, key: T -> int) {
    forall i, j :: 0 <= i < j < |s| ==> key(s[i]) >= key(s[j])
  }

  function InsertDesc<T>(x: T, s: seq<T>, key: T -> int): (r: seq<T>)
    requires SortedDesc(s, key)
    ensures SortedDesc(r, key)
    ensures multiset(r) == multiset(s) + multiset{x}
    ensures |r| == |s| + 1
    ensures r[0] == x || (|s| > 0 && r[0] == s[0])
  {
    if |s| == 0 then [x]
    else if key(x) >= key(s[0]) then [x] + s
    else
      var t := InsertDesc(x, s[1..], key);
      assert s == [s[0]] + s[1..];
      ConsSorted(s[0], t, key);
      [s[0]] + t
  }

  lemma ConsSorted<T>(a: T, t: seq<T>, key: T -> int)
    requires SortedDesc(t, key)
    requires |t| > 0 ==> key(a) >= key(t[0])
    ensures SortedDesc([a] + t, key)
  {
    var r := [a] + t;
    forall i, j | 0 <= i < j < |r| ensures key(r[i]) >= key(r[j]) {
      if i == 0 && j > 1 {
        assert key(t[0]) >= key(t[j - 1]);
      }
    }
  }

  /** The rows ordered by `key`, largest first; the same rows. */
  function SortDesc<T>(s: seq<T>, key: T -> int): (r: seq<T>)
    ensures SortedDesc(r, key)
    ensures multiset(r) == multiset(s)
    ensures |r| == |s|
  {
    if |s| == 0 then []
    else
      assert s == [s[0]] + s[1..];
      InsertDesc(s[0], SortDesc(s[1..], key), key)
  }

  function Min(a: int, b: int): int {
    if a <= b then a else b
  }

  /** Skip `offset` rows, then take at most `limit`. */
  function Window<T>(s: seq<T>, offset: nat, limit: nat): (r: seq<T>)
    ensures |r| == Min(limit, |s| - Min(offset, |s|))
    ensures forall i :: 0 <= i < |r| ==> r[i] == s[offset + i]
  {
    var a := Min(offset, |s|);
    var b := Min(a + limit, |s|);
    s[a..b]
  }

  /** A window of a sorted sequence is sorted. */
  lemma WindowSorted<T>(s: seq<T>, key: T -> int, offset: nat, limit: nat)
    requires SortedDesc(s, key)
    ensures SortedDesc(Window(s, offset, limit), key)
  {
    var r := Window(s, offset, limit);
    forall i, j | 0 <= i < j < |r| ensures key(r[i]) >= key(r[j]) {
      assert r[i] == s[offset + i] && r[j] == s[offset + j];
    }
  }

  /** Two adjacent windows make up the window of their combined length. */
  lemma WindowJoin<T>(s: seq<T>, offset: nat, a: nat, b: nat)
    ensures Window(s, offset, a) + Window(s, offset + a, b) == Window(s, offset, a + b)
  {
    var x := Window(s, offset, a);
    var y := Window(s, offset + a, b);
    var z := Window(s, offset, a + b);
    assert |x + y| == |z|;
    forall i | 0 <= i < |z| ensures (x + y)[i] == z[i] {
      if i >= |x| {
        assert (x + y)[i] == y[i - |x|];
      }
    }
  }

  /** An element keyed strictly above every other element heads any sorted
      arrangement. */
  lemma SortedHead<T>(t: seq<T>, key: T -> int, x: T)
    requires SortedDesc(t, key) && x in t
    requires forall y :: y in t && y != x ==> key(y) < key(x)
    ensures t[0] == x
  {
    var j :| 0 <= j < |t| && t[j] == x;
    assert key(t[0]) >= key(t[j]);
  }

  /** An order `ORDER BY key DESC` / `sort({ key: -1 })` may return for the
      rows `s`: sorted, and the same rows. Rows of equal key may come in any
      order, and each query picks its own. */
  predicate OrderOf<T(==)>(t: seq<T>, s: seq<T>, key: T -> int) {
    SortedDesc(t, key) && multiset(t) == multiset(s)
  }

  /** Rows of equal key are the same row, so a sort has no tie to order. */
  predicate TiesIdentical<T(==)>(s: seq<T>, key: T -> int) {
    forall x, y :: x in s && y in s && key(x) == key(y) ==> x == y
  }

  /** Without ties there is only one sorted arrangement of a multiset. */
  lemma {:induction false} SortedUnique<T>(t: seq<T>, u: seq<T>, key: T -> int)
    requires SortedDesc(t, key) && SortedDesc(u, key) && multiset(t) == multiset(u)
    requires TiesIdentical(t, key)
    ensures t == u
    decreases |t|
  {
    if |t| == 0 {
      assert |multiset(u)| == 0;
    } else {
      assert |multiset(u)| == |multiset(t)|;
      SameHead(t, u, key);
      TailsAgree(t, u);
      TailSorted(t, key);
      TailSorted(u, key);
      assert TiesIdentical(t[1..], key) by {
        forall x, y | x in t[1..] && y in t[1..] && key(x) == key(y) ensures x == y {
          assert x in t && y in t;
        }
      }
      SortedUnique(t[1..], u[1..], key);
      assert t == [t[0]] + t[1..] && u == [u[0]] + u[1..];
    }
  }

  /** Without ties, two sorted arrangements of one multiset start alike. */
  lemma SameHead<T>(t: seq<T>, u: seq<T>, key: T -> int)
    requires SortedDesc(t, key) && SortedDesc(u, key) && multiset(t) == multiset(u)
    requires TiesIdentical(t, key) && |t| > 0 && |u| > 0
    ensures t[0] == u[0]
  {
    assert t[0] in multiset(u);
    assert u[0] in multiset(t);
    var k :| 0 <= k < |u| && u[k] == t[0];
    var m :| 0 <= m < |t| && t[m] == u[0];
    assert key(t[0]) >= key(t[m]);
    assert key(u[0]) >= key(u[k]);
    assert t[m] in t;
  }

  /** Removing one common head leaves the same multiset. */
  lemma TailsAgree<T>(t: seq<T>, u: seq<T>)
    requires multiset(t) == multiset(u) && |t| > 0 && |u| > 0 && t[0] == u[0]
    ensures multiset(t[1..]) == multiset(u[1..])
  {
    DropOne(t, u, 0);
    assert u[..0] + u[1..] == u[1..];
  }

  lemma TailSorted<T>(t: seq<T>, key: T -> int)
    requires SortedDesc(t, key) && |t| > 0
    ensures SortedDesc(t[1..], key)
  {
    forall i, j | 0 <= i < j < |t[1..]| ensures key(t[1..][i]) >= key(t[1..][j]) {
      assert t[1..][i] == t[i + 1] && t[1..][j] == t[j + 1];
    }
  }

  /** Two orders of the same rows without ties are the same order: every
      query returns the rows in one and the same sequence. */
  lemma OrdersAgree<T>(t: seq<T>, u: seq<T>, s: seq<T>, key: T -> int)
    requires OrderOf(t, s, key) && OrderOf(u, s, key)
    requires TiesIdentical(s, key)
    ensures t == u
  {
    forall x, y | x in t && y in t && key(x) == key(y) ensures x == y {
      assert x in multiset(s) && y in multiset(s);
    }
    SortedUnique(t, u, key);
  }

  /** Two different rows of one key: one query may return them in one order
      and the next in the other, so the second page repeats the first. */
  lemma TiesMayRepeat<T>(x: T, y: T, key: T -> int)
    requires x != y && key(x) == key(y)
    ensures OrderOf([x, y], [x, y], key) && OrderOf([y, x], [x, y], key)
    ensures !TiesIdentical([x, y], key)
    ensures Window([x, y], 0, 1) + Window([y, x], 1, 1) == [x, x]
  {
    assert multiset([y, x]) == multiset([x, y]);
  }

  /** The columns a query selects, row by row. */
  function Project<T, U>(s: seq<T>, f: T -> U): (r: seq<U>)
    ensures |r| == |s|
    ensures forall i :: 0 <= i < |s| ==> r[i] == f(s[i])
  {
    seq(|s|, i requires 0 <= i < |s| => f(s[i]))
  }

  lemma ProjectAppend<T, U>(x: seq<T>, y: seq<T>, f: T -> U)
    ensures Project(x + y, f) == Project(x, f) + Project(y, f)
  {
    var l := Project(x + y, f);
    var r := Project(x, f) + Project(y, f);
    forall i | 0 <= i < |l| ensures l[i] == r[i] {
      if i >= |x| { assert (x + y)[i] == y[i - |x|]; }
    }
  }

  /** Selecting columns from the same rows in another order gives the same
      selected rows in that order. */
  lemma {:induction false} ProjectPermutes<T, U>(s: seq<T>, t: seq<T>, f: T -> U)
    requires multiset(s) == multiset(t)
    ensures multiset(Project(s, f)) == multiset(Project(t, f))
    decreases |s|
  {
    if |s| == 0 {
      assert |multiset(t)| == 0;
    } else {
      assert s[0] in multiset(t);
      var k :| 0 <= k < |t| && t[k] == s[0];
      DropOne(s, t, k);
      ProjectPermutes(s[1..], t[..k] + t[k + 1..], f);
      PermuteStep(s, t, k, f);
    }
  }

  lemma PermuteStep<T, U>(s: seq<T>, t: seq<T>, k: nat, f: T -> U)
    requires |s| > 0 && k < |t| && t[k] == s[0]
    requires multiset(Project(s[1..], f)) == multiset(Project(t[..k] + t[k + 1..], f))
    ensures multiset(Project(s, f)) == multiset(Project(t, f))
  {
    ProjectDropOne(t, k, f);
    ProjectCons(s, f);
  }

  lemma ProjectCons<T, U>(s: seq<T>, f: T -> U)
    requires |s| > 0
    ensures multiset(Project(s, f)) == multiset(Project(s[1..], f)) + multiset{f(s[0])}
  {
    assert s == [s[0]] + s[1..];
    ProjectAppend([s[0]], s[1..], f);
    assert Project([s[0]], f) == [f(s[0])];
  }

  lemma DropOne<T>(s: seq<T>, t: seq<T>, k: nat)
    requires multiset(s) == multiset(t) && |s| > 0 && k < |t| && t[k] == s[0]
    ensures multiset(t[..k] + t[k + 1..]) == multiset(s[1..])
  {
    MultisetDrop(t, k);
    MultisetDrop(s, 0);
    assert s[..0] + s[1..] == s[1..];
    Cancel(multiset(t[..k] + t[k + 1..]), multiset(s[1..]), s[0]);
  }

  /** The rows without the one at `k`, and that row, are all the rows. */
  lemma MultisetDrop<T>(t: seq<T>, k: nat)
    requires k < |t|
    ensures multiset(t) == multiset(t[..k] + t[k + 1..]) + multiset{t[k]}
  {
    assert t == t[..k] + [t[k]] + t[k + 1..];
  }

  lemma Cancel<T>(a: multiset<T>, b: multiset<T>, x: T)
    requires a + multiset{x} == b + multiset{x}
    ensures a == b
  {
    forall y ensures a[y] == b[y] {
      assert (a + multiset{x})[y] == (b + multiset{x})[y];
    }
  }

  lemma ProjectDropOne<T, U>(t: seq<T>, k: nat, f: T -> U)
    requires k < |t|
    ensures multiset(Project(t, f)) == multiset(Project(t[..k] + t[k + 1..], f)) + multiset{f(t[k])}
  {
    assert t == t[..k] + [t[k]] + t[k + 1..];
    ProjectAppend(t[..k], [t[k]], f);
    ProjectAppend(t[..k] + [t[k]], t[k + 1..], f);
    ProjectAppend(t[..k], t[k + 1..], f);
  }
}

=== FILE: strings.dfy ===
/** String primitives with the semantics of the JavaScript built-ins the
    storefront uses (startsWith, includes, indexOf, lastIndexOf, replace,
    split, trim, substring, toLowerCase), stated over `seq<char>`. */
module Strings {

  datatype Option<T> = None | Some(value: T)

  predicate StartsWith(s: string, p: string) {
    |p| <= |s| && s[..|p|] == p
  }

  predicate EndsWith(s: string, p: string) {
    |p| <= |s| && s[|s| - |p|..] == p
  }

  /** `p` occurs in `s` starting at index `i`. */
  predicate OccursAt(s: string, p: string, i: int) {
    0 <= i && i + |p| <= |s| && s[i..i + |p|] == p
  }

  /** First occurrence of `p` in `s` at or after `from` (String.prototype.indexOf). */
  function IndexOfFrom(s: string, p: string, from: nat): (r: Option<nat>)
    decreases |s| - from
    ensures r.Some? ==> from <= r.value && OccursAt(s, p, r.value)
    ensures r.Some? ==> forall j :: from <= j < r.value ==> !OccursAt(s, p, j)
    ensures r.None? ==> forall j :: from <= j ==> !OccursAt(s, p, j)
  {
    if from + |p| > |s| then None
    else if s[from..from + |p|] == p then Some(from)
    else IndexOfFrom(s, p, from + 1)
  }

  function IndexOf(s: string, p: string): Option<nat> {
    IndexOfFrom(s, p, 0)
  }

  /** String.prototype.includes */
  predicate Contains(s: string, p: string) {
    IndexOf(s, p).Some?
  }

  lemma ContainsAt(s: string, p: string, i: int)
    requires OccursAt(s, p, i)
    ensures Contains(s, p)
  {
  }

  lemma OccursChar(s: string, p: string, i: int, m: int)
    requires OccursAt(s, p, i) && 0 <= m < |p|
    ensures s[i + m] == p[m]
  {
    assert s[i..i + |p|][m] == s[i + m];
  }

  /** An occurrence inside `t` is an occurrence inside `s + t + u`. */
  lemma OccursShift(s: string, t: string, u: string, p: string, i: int)
    requires OccursAt(t, p, i)
    ensures OccursAt(s + t + u, p, |s| + i)
  {
    assert (s + t + u)[|s| + i..|s| + i + |p|] == t[i..i + |p|];
  }

  /** An occurrence inside the middle part of `s + t + u` is one of `t`. */
  lemma OccursUnshift(s: string, t: string, u: string, p: string, i: int)
    requires OccursAt(s + t + u, p, i) && |s| <= i && i + |p| <= |s| + |t|
    ensures OccursAt(t, p, i - |s|)
  {
    assert (s + t + u)[i..i + |p|] == t[i - |s|..i - |s| + |p|];
  }

  lemma StartsWithAppend(s: string, t: string, p: string)
    requires StartsWith(s, p)
    ensures StartsWith(s + t, p)
  {
    assert (s + t)[..|p|] == s[..|p|];
  }

  lemma EndsWithPrepend(s: string, t: string, p: string)
    requires EndsWith(t, p)
    ensures EndsWith(s + t, p)
  {
    assert (s + t)[|s + t| - |p|..] == t[|t| - |p|..];
  }

  /** Largest index `i <= upto` at which `p` occurs. */
  function LastIndexUpTo(s: string, p: string, upto: nat): (r: Option<nat>)
    ensures r.Some? ==> r.value <= upto && OccursAt(s, p, r.value)
    ensures r.Some? ==> forall j :: r.value < j <= upto ==> !OccursAt(s, p, j)
    ensures r.None? ==> forall j :: j <= upto ==> !OccursAt(s, p, j)
  {
    if OccursAt(s, p, upto) then Some(upto)
    else if upto == 0 then None
    else LastIndexUpTo(s, p, upto - 1)
  }

  /** String.prototype.lastIndexOf */
  function LastIndexOf(s: string, p: string): (r: Option<nat>)
    ensures r.Some? ==> OccursAt(s, p, r.value)
    ensures r.Some? ==> forall j :: r.value < j ==> !OccursAt(s, p, j)
    ensures r.None? ==> forall j :: !OccursAt(s, p, j)
  {
    if |p| > |s| then None else LastIndexUpTo(s, p, |s| - |p|)
  }

  /** Every occurrence of character `a` replaced by `b` (`replace(/a/g, b)`). */
  function ReplaceChar(s: string, a: char, b: char): (r: string)
    ensures |r| == |s|
    ensures a != b ==> a !in r
    ensures a !in s ==> r == s
    ensures forall i :: 0 <= i < |s| && s[i] != a ==> r[i] == s[i]
  {
    if |s| == 0 then []
    else [if s[0] == a then b else s[0]] + ReplaceChar(s[1..], a, b)
  }

  /** `s.replace(p, q)` with a string pattern: only the first occurrence. */
  function ReplaceFirst(s: string, p: string, q: string): (r: string)
    ensures IndexOf(s, p).None? ==> r == s
  {
    match IndexOf(s, p)
    case None => s
    case Some(i) => s[..i] + q + s[i + |p|..]
  }

  /** `s.split(sep)[1]`: the text between the first and the second
      occurrence of `sep` (or the end of `s`). */
  function SplitSecond(s: string, sep: string): (r: string)
    requires |sep| > 0 && Contains(s, sep)
    ensures forall c :: c in r ==> c in s
  {
    var i := IndexOf(s, sep).value;
    match IndexOfFrom(s, sep, i + |sep|)
    case None => s[i + |sep|..]
    case Some(k) => s[i + |sep|..k]
  }

  /** The characters JavaScript treats as white space in `trim()` and `\s`
      (WhiteSpace and LineTerminator of ECMA-262). */
  predicate IsJsSpace(c: char) {
    var n := c as int;
    n == 0x09 || n == 0x0A || n == 0x0B || n == 0x0C || n == 0x0D || n == 0x20
    || n == 0xA0 || n == 0x1680 || (0x2000 <= n <= 0x200A)
    || n == 0x2028 || n == 0x2029 || n == 0x202F || n == 0x205F
    || n == 0x3000 || n == 0xFEFF
  }

  /** The characters the regular-expression `.` does not match. */
  predicate IsLineTerminator(c: char) {
    var n := c as int;
    n == 0x0A || n == 0x0D || n == 0x2028 || n == 0x2029
  }

  predicate AllSpace(s: string) {
    forall i :: 0 <= i < |s| ==> IsJsSpace(s[i])
  }

  function TrimStart(s: string): (r: string)
    ensures |r| <= |s| && r == s[|s| - |r|..]
    ensures AllSpace(s[..|s| - |r|])
    ensures |r| > 0 ==> !IsJsSpace(r[0])
  {
    if |s| > 0 && IsJsSpace(s[0]) then TrimStart(s[1..]) else s
  }

  function TrimEnd(s: string): (r: string)
    ensures |r| <= |s| && r == s[..|r|]
    ensures AllSpace(s[|r|..])
    ensures |r| > 0 ==> !IsJsSpace(r[|r| - 1])
  {
    if |s| > 0 && IsJsSpace(s[|s| - 1]) then TrimEnd(s[..|s| - 1]) else s
  }

  /** The length of the white-space prefix. */
  function LeadingSpace(s: string): (n: nat)
    ensures n <= |s| && AllSpace(s[..n])
    ensures n < |s| ==> !IsJsSpace(s[n])
  {
    |s| - |TrimStart(s)|
  }

  /** String.prototype.trim: the text between a white-space prefix and a
      white-space suffix, starting and ending with a non-space. */
  function Trim(s: string): (r: string)
    ensures |r| <= |s|
    ensures |r| == 0 <==> AllSpace(s)
    ensures |r| > 0 ==> !IsJsSpace(r[0]) && !IsJsSpace(r[|r| - 1])
    ensures var i := LeadingSpace(s);
            i + |r| <= |s| && r == s[i..i + |r|] && AllSpace(s[i + |r|..])
  {
    var a := TrimStart(s);
    var b := TrimEnd(a);
    var i := |s| - |a|;
    assert |b| == 0 ==> AllSpace(s) by {
      if |b| == 0 {
        assert s[..|s| - |a|] == s;
      }
    }
    assert b == s[i..i + |b|] && AllSpace(s[..i]) && AllSpace(s[i + |b|..]) by {
      assert s[i + |b|..] == a[|b|..];
    }
    b
  }

  /** Trimming text without edge white space changes nothing, so trimming
      twice is trimming once. */
  lemma TrimIdempotent(s: string)
    ensures Trim(Trim(s)) == Trim(s)
  {
    var t := Trim(s);
    if |t| > 0 {
      assert TrimStart(t) == t;
      assert TrimEnd(t) == t;
    }
  }

  /** `s.replace(/\s+/g, '')`: every white-space character removed. */
  function RemoveSpace(s: string): (r: string)
    ensures |r| <= |s|
    ensures forall i :: 0 <= i < |r| ==> !IsJsSpace(r[i])
    ensures forall i :: 0 <= i < |s| && !IsJsSpace(s[i]) ==> s[i] in r
  {
    if |s| == 0 then []
    else if IsJsSpace(s[0]) then RemoveSpace(s[1..])
    else [s[0]] + RemoveSpace(s[1..])
  }

  function LowerChar(c: char): char {
    if 'A' <= c <= 'Z' then (c as int + 32) as char else c
  }

  /** `toLowerCase()` on the ASCII letters; other characters unchanged. */
  function ToLower(s: string): (r: string)
    ensures |r| == |s|
    ensures forall i :: 0 <= i < |s| ==> r[i] == LowerChar(s[i])
  {
    seq(|s|, i requires 0 <= i < |s| => LowerChar(s[i]))
  }

  lemma ToLowerSlice(s: string, a: int, b: int)
    requires 0 <= a <= b <= |s|
    ensures ToLower(s)[a..b] == ToLower(s[a..b])
  {
    assert forall i :: 0 <= i < b - a ==> ToLower(s)[a..b][i] == ToLower(s[a..b])[i];
  }

  lemma ToLowerSuffix(s: string, a: nat)
    requires a <= |s|
    ensures ToLower(s)[a..] == ToLower(s[a..])
  {
    ToLowerSlice(s, a, |s|);
    assert s[a..] == s[a..|s|];
  }

  predicate IsDigit(c: char) {
    '0' <= c <= '9'
  }

  predicate AllDigits(s: string) {
    forall i :: 0 <= i < |s| ==> IsDigit(s[i])
  }

  /** Decimal rendering of a natural number, as template literals print it. */
  function NatToString(n: nat): (r: string)
    ensures |r| > 0 && AllDigits(r)
    ensures n > 0 ==> r[0] != '0'
    decreases n
  {
    if n < 10 then [('0' as int + n) as char]
    else NatToString(n / 10) + [('0' as int + n % 10) as char]
  }

  /** Value of a string of decimal digits. */
  function DecimalValue(s: string): nat
    requires AllDigits(s)
  {
    if |s| == 0 then 0
    else 10 * DecimalValue(s[..|s| - 1]) + (s[|s| - 1] as int - '0' as int)
  }

  /** Reading back a rendered number gives the number. */
  lemma {:induction false} DecimalRoundTrip(n: nat)
    ensures DecimalValue(NatToString(n)) == n
  {
    if n >= 10 {
      var s := NatToString(n);
      assert s[..|s| - 1] == NatToString(n / 10);
      DecimalRoundTrip(n / 10);
    }
  }

  /** Distinct numbers render to distinct strings. */
  lemma NatToStringInjective(a: nat, b: nat)
    requires NatToString(a) == NatToString(b)
    ensures a == b
  {
    DecimalRoundTrip(a);
    DecimalRoundTrip(b);
  }

  /** Length of the longest prefix of decimal digits. */
  function DigitPrefixLength(s: string): (k: nat)
    ensures k <= |s| && AllDigits(s[..k])
    ensures k < |s| ==> !IsDigit(s[k])
  {
    if |s| == 0 || !IsDigit(s[0]) then 0
    else
      var k := 1 + DigitPrefixLength(s[1..]);
      assert s[..k] == [s[0]] + s[1..][..k - 1];
      k
  }

  /** parseInt with radix 10: leading white space, an optional sign, then
      the longest run of digits; `None` stands for NaN. */
  function ParseInt(s: string): (r: Option<int>)
  {
    var t := TrimStart(s);
    var signed := |t| > 0 && (t[0] == '-' || t[0] == '+');
    var body := if signed then t[1..] else t;
    var k := DigitPrefixLength(body);
    if k == 0 then None
    else
      var v: int := DecimalValue(body[..k]);
      if signed && t[0] == '-' then Some(-v) else Some(v)
  }

  lemma {:induction false} AllDigitsPrefix(s: string)
    requires AllDigits(s)
    ensures DigitPrefixLength(s) == |s|
  {
    if |s| > 0 {
      AllDigitsPrefix(s[1..]);
    }
  }

  /** A text that opens with a digit is read as its leading digit run. */
  lemma ParseIntDigitLead(s: string)
    requires |s| > 0 && IsDigit(s[0])
    ensures ParseInt(s).Some?
    ensures ParseInt(s).value == DecimalValue(s[..DigitPrefixLength(s)])
  {
    assert !IsJsSpace(s[0]);
    assert TrimStart(s) == s;
    assert !(s[0] == '-' || s[0] == '+');
    assert DigitPrefixLength(s) > 0;
  }

  /** parseInt reads back what a number renders to. */
  lemma ParseIntRoundTrip(n: nat)
    ensures ParseInt(NatToString(n)) == Some(n)
  {
    var d := NatToString(n);
    DecimalRoundTrip(n);
    AllDigitsPrefix(d);
    assert d[..|d|] == d;
    ParseIntDigitLead(d);
  }

  lemma {:induction false} DigitPrefixAppend(d: string, rest: string)
    requires AllDigits(d)
    requires |rest| > 0 ==> !IsDigit(rest[0])
    ensures DigitPrefixLength(d + rest) == |d|
  {
    if |d| > 0 {
      assert (d + rest)[1..] == d[1..] + rest;
      DigitPrefixAppend(d[1..], rest);
    } else {
      assert d + rest == rest;
    }
  }

  /** parseInt stops at the first character that is not a digit. */
  lemma ParseIntDigitsThen(n: nat, rest: string)
    requires |rest| > 0 ==> !IsDigit(rest[0])
    ensures ParseInt(NatToString(n) + rest) == Some(n)
  {
    var d := NatToString(n);
    var s := d + rest;
    DecimalRoundTrip(n);
    DigitPrefixAppend(d, rest);
    assert s[..|d|] == d;
    ParseIntDigitLead(s);
  }

  /** parseInt reads a minus sign. */
  lemma ParseIntNegative(n: nat)
    ensures ParseInt("-" + NatToString(n)).Some?
    ensures ParseInt("-" + NatToString(n)).value + n == 0
  {
    var d := NatToString(n);
    DecimalRoundTrip(n);
    AllDigitsPrefix(d);
    assert d[..|d|] == d;
    var m := "-" + d;
    assert !IsJsSpace(m[0]);
    assert TrimStart(m) == m;
    assert m[1..] == d;
  }

  /** Last index at which character `c` occurs in `s`. */
  function LastIndexOfChar(s: string, c: char): (r: Option<nat>)
    ensures r.Some? ==> r.value < |s| && s[r.value] == c
    ensures r.Some? ==> forall j :: r.value < j < |s| ==> s[j] != c
    ensures r.None? <==> c !in s
  {
    if |s| == 0 then None
    else if s[|s| - 1] == c then Some(|s| - 1)
    else LastIndexOfChar(s[..|s| - 1], c)
  }

  predicate IsHexDigit(c: char) {
    ('0' <= c <= '9') || ('a' <= c <= 'f')
  }

  predicate AllHex(s: string) {
    forall i :: 0 <= i < |s| ==> IsHexDigit(s[i])
  }

  newtype byte = x: int | 0 <= x < 256

  function HexChar(d: int): (c: char)
    requires 0 <= d < 16
    ensures IsHexDigit(c)
  {
    if d < 10 then ('0' as int + d) as char else ('a' as int + d - 10) as char
  }

  /** `buffer.toString('hex')`: two lower-case hex digits per byte. */
  function Hex(b: seq<byte>): (r: string)
    ensures |r| == 2 * |b|
    ensures AllHex(r)
  {
    if |b| == 0 then []
    else [HexChar(b[0] as int / 16), HexChar(b[0] as int % 16)] + Hex(b[1..])
  }

  function Clamp(x: int, n: nat): (r: nat)
    ensures r <= n
  {
    if x < 0 then 0 else if x > n then n else x
  }

  /** String.prototype.substring: both bounds clamped to the string, then
      swapped when the start lies after the end. */
  function Substring(s: string, start: int, end: int): (r: string)
    ensures |r| <= |s|
    ensures 0 <= start <= end <= |s| ==> r == s[start..end]
  {
    var a := Clamp(start, |s|);
    var b := Clamp(end, |s|);
    if a <= b then s[a..b] else s[b..a]
  }
}
